=== FILE: README.md ===
# A verified model of a UI visual-search and decision simulator

The modelled system simulates how a user looks at an abstract user interface. The surface is a set of named rectangles ("elements").
It predicts eye movements and decision times with three pieces of logic:

- **The layout and timing model (`ui.py`).**
  - The surface grows to fit its elements, and the viewing distance follows from the surface size.
  - Elements can be added, swapped and modified.
  - `closest_element` scans for the nearest element.
  - Timing follows Fitts' law (MacKenzie 1992) and EMMA eye-movement timing (Salvucci 2001).
  - Activation maps combine bottom-up colour contrast and top-down colour guidance.
  - There are two exhaustive visual searches with inhibition of return. One picks the nearest unsearched element, the other the most active one.
- **A heuristic decision maker (`decision.py`).** It looks at a board of green and red elements and stops once one side holds half of the board, or once the colour it looks for is gone from what is left.
- **A tabular Q-learning decision agent (`decision2.py`).**
  - Its state is what it has seen of the board (the "visual matrix").
  - Its actions are fixating an element, accepting the board or rejecting it.
  - It learns with a bootstrapped update of the previous transition and a TD(0) update at the end of an episode.
  - Its training boards are randomised so that the right answer is always a strict majority.

The Dafny modules follow the program's structure:

- `Layout` (`layout.dfy`): elements, the surface, the edits and the nearest-element scan.
- `Timing` (`timing.dfy`): visual distance, EMMA, Fitts' law and EMMA scanpaths.
- `Attention` (`attention.dfy`): bottom-up, top-down and total activation, and inhibition of return.
- `Search` (`search.dfy`): the nearest-first and the guided exhaustive searches.
- `Heuristic` (`heuristic.dfy`): `reset_decision_ui` and `make_decision`.
- `QTable` (`qtable.dfy`): the lazily created table, both update rules and the greedy pick.
- `Board` (`board.dfy`): the class-balanced board randomiser and the answer rule.
- `Agent` (`agent.dfy`): reward, perception and one `do_step`.
- `Episode` (`episode.dfy`): `clear`, agent creation, and `simulate_decision_task` with its 100-step cap.
- `Wrappers`, `Numerics` and `Seqs`: `Result`/`Option`, Python's round-half-even, and sequence facts.

How the model handles Python and the outside world:

- **Exceptions.** A Python exception is an `Err` of `Result`, naming the exception: KeyError, ValueError, ZeroDivisionError, TypeError, NameError or IndexError.
- **Maths.** `sqrt`, `1/sqrt`, `atan`, `exp`, `ln` and `log2` are the fields of a `Maths` value passed in by the caller. The predicate `Sane` states the only facts the model uses about them: signs and positivity.
- **Distances.** Distances are compared as exact integer squared distances between element centres.
- **Dictionary order.** Python's dictionary order is kept as a sequence (`Ui.order`). Every `max` over a dictionary keeps the first maximum in that order.
- **Randomness is a parameter.** The coin of the epsilon-greedy choice is `coin`, the random action and the start of the eye are `pick`, and the board's draws are `Draws`.

## Model

| member | source | states |
|---|---|---|
| Layout.Loc | ui.py:20-21 | the centre is the element's midpoint rounded to a whole pixel, off by at most half a pixel on each axis, and a midpoint halfway between two pixels rounds to the even one |
| Layout.NewUi | ui.py:27-44 | a new surface is empty, has no eye location, keeps its size and is well formed, with the viewing distance calibrated |
| Layout.CalibrateUiSize | ui.py:46-63 | the surface never shrinks and afterwards covers every element; when it grows, the viewing distance is recalibrated to twice the longer side; nothing else changes |
| Layout.CalibrateUiSizeTight | ui.py:50-53 | a grown side is exactly the far edge of some element |
| Layout.AddElement | ui.py:96-101 | the element is stored under its name, replacing any same-named one without reordering; the eye location is set only when none was set; the result stays well formed and covered |
| Layout.AddElementReplaces | ui.py:96-98 | adding under a name twice is the same as adding the second element alone |
| Layout.SwapElements | ui.py:103-109 | defined exactly when both names exist; only the two elements' x and y are exchanged; sizes, colours and every other element are unchanged |
| Layout.SwapTwiceRestores | ui.py:103-109 | swapping the same two elements twice restores the surface |
| Layout.ModifyElement | ui.py:111-121 | an unknown field changes nothing; a known field of a missing element is a KeyError; a value of the wrong kind for the field is a TypeError; otherwise exactly that field of that element changes |
| Layout.ModifyIdempotent | ui.py:111-121 | applying the same modification twice equals applying it once |
| Layout.ResolveExpertise | ui.py:71-75 | "intermediate" becomes -0.75, "expert" becomes 1, anything else is kept |
| Layout.LearnElementPos | ui.py:70-77 | a missing element is a KeyError; for a known element, stores the resolved strength and the element's centre; every other name keeps its presence and value in both position memories, and nothing else changes |
| Layout.LearnElementColor | ui.py:79-86 | a missing element is a KeyError; for a known element, stores the resolved strength and the element's colour; every other name keeps its presence and value in both colour memories, and nothing else changes |
| Layout.RecallTime | ui.py:88-89 | a recall time exists exactly for a numeric strength and is positive |
| Layout.ClosestIndex | ui.py:151-157 | returns the first candidate of least distance |
| Layout.ClosestElement | ui.py:146-159 | an empty candidate list means all elements; a missing name is a KeyError; the answer is None only for an empty surface, otherwise the first nearest candidate |
| Timing.VisualDistance | ui.py:162-163 | missing elements are a KeyError and a zero viewing distance divides by zero; otherwise the angle is non-negative |
| Timing.VisualDistanceSymmetric | ui.py:124-140 | the visual distance from a to b equals that from b to a |
| Timing.EmmaFixationTime | ui.py:184-196 | encoding below the preparation time gives that time and no movement; otherwise the eye moves and the time is at least the saccade time, and exactly it when encoding does not exceed it |
| Timing.EmmaTime | ui.py:176-180 | defined exactly when the eye and the target exist, the viewing distance is non-zero and the frequency is positive; then it is EMMA at the visual distance |
| Timing.FittsMt | ui.py:385-389 | distance 0 gives exactly `a` whatever the width; the logarithm's domain errors are exact; positive distance and width give at least `a` |
| Timing.FittsMovementTime | ui.py:170-174 | defined exactly when every leg of the path is; then the time is the sum of the legs' Fitts times; a path of at most one element takes 0; a pointable path takes at least `a` per leg |
| Timing.EmmaWalk | ui.py:203-207 | each step is looked at from the last fixation, the fixations are the steps that moved, and the total time is the sum of the EMMA times of the looks |
| Timing.CreateEmmaScanpath | ui.py:200-208 | an empty list is an IndexError; the scanpath is the first element followed by the targets for which the eye moved; the total time is the sum of the EMMA times of the looks |
| Attention.Sift | ui.py:304-307 | keeps exactly the visible (or exactly the invisible) names, without duplicates |
| Attention.VisibleFirst | ui.py:303-320 | the activation's key order lists every element exactly once |
| Attention.Kernel | ui.py:315 | a kernel between two elements with the same centre divides by zero; otherwise it is positive |
| Attention.Contrast | ui.py:310-315 | fails exactly on a same-centre, differently coloured pair; is 0 with no differently coloured neighbour; is otherwise positive |
| Attention.BottomUp | ui.py:299-322 | errors on a missing eye or zero viewing distance; every element is scored once, the contrast for visible ones and 0 for the rest, never negative |
| Attention.BottomUpKeys | ui.py:317-320 | every element of the surface appears in the bottom-up activation |
| Attention.TopDown | ui.py:325-350 | every element gets 0.5 when not visible, 1 when visible and of the looked-for colour, 0 otherwise |
| Attention.TotalActivation | ui.py:352-363 | fails exactly when bottom-up does; otherwise each element keeps its place with 1.1 times its bottom-up value, raised by 0.45 when visible and of the looked-for colour, by 0.225 when out of sight, and not at all otherwise |
| Attention.TotalActivationNonNegative | ui.py:352-363 | total activation is never negative |
| Attention.TopDownNeverLowers | ui.py:359-362 | looking for a colour never lowers any element's total activation |
| Attention.Inhibit | ui.py:276-278 | removes exactly the searched elements, keeps the others in their order, and keeps names unique |
| Attention.StrongestIndex | ui.py:281 | returns the first entry of largest activation |
| Attention.Candidates | ui.py:265-278 | fails exactly when bottom-up does; otherwise ranks exactly the unsearched elements, each once, in bottom-up order, each with its bottom-up value raised by the top-down one when a colour is looked for |
| Search.NextNearest | ui.py:224-231 | defined exactly when the eye exists and something is unsearched; then it is the first unsearched element nearest the eye |
| Search.ExhaustiveVisualSearch | ui.py:214-240 | an empty surface is a KeyError; searched is the start plus the picks, each the nearest unsearched element; the scanpath keeps the picks that moved; the time is the sum of the EMMA times of the looks; the run ends at the target or when all are searched; it succeeds whenever the surface has more than one element, the start is one of them, the viewing distance is non-zero and every frequency is positive |
| Search.SearchCoversAll | ui.py:220 | a search that never met its target has searched every element |
| Search.SearchFindsTarget | ui.py:236-238 | a search for an existing target ends on it |
| Search.RecallFor | ui.py:253-259 | there is a recall time exactly when the target is remembered with a numeric strength, and it is the recall time of that strength |
| Search.LearnedPosRecalled | ui.py:253-255 | after an element's position is learned, recalling that element gives the recall time of the resolved strength, or a TypeError for a label that resolves to none; recalling any other element is unchanged |
| Search.LearnedColorRecalled | ui.py:257-268 | the same for the colour memory; besides, once colour recall applies, the search for the learned element looks for the colour it had when learned |
| Search.RecalledFeature | ui.py:267-268 | once the colour recall time has passed, the remembered colour replaces the looked-for one; a missing fact is a KeyError |
| Search.GuidedPick | ui.py:281-283 | an empty ranking is a ValueError; before position recall the pick is the strongest candidate, after it the candidate nearest the remembered position |
| Search.NearestCandidate | ui.py:283 | the pick is the first candidate nearest the given point |
| Search.GuidedChoice | ui.py:265-286 | the colour looked for is the remembered one once colour recall applies; the pick is `GuidedPick` of the unsearched elements ranked from the eye with that colour, so the strongest, or the first nearest the remembered position once position recall applies; it is looked at by EMMA, with that look's time and movement; it succeeds when EMMA can time every look, the ranking from the eye works, every applicable recall has its fact and something is unsearched |
| Search.ExhaustiveGuidedVisualSearch | ui.py:244-296 | a start equal to the target takes one EMMA look; otherwise searched is the start plus the picks, the scanpath keeps the picks that moved, the time is the sum of the EMMA times of the looks, the run ends at the target or when all are searched; every pick follows the guided rule, with the colour carried from pass to pass and each pass starting at the sum of the earlier looks' times; once position recall applies each pick is an unsearched element nearest the remembered position; without recall each pick is the strongest unsearched element; it succeeds when the start exists, EMMA can time every look, every element can be ranked, and remembered strengths are numeric with their facts |
| Search.RecallPicksNearest | ui.py:280-283 | a pass whose start time has reached the position recall time picks an unsearched element at least as near the remembered position as every other unsearched element |
| Search.GuidedStepsStrongest | ui.py:262-281 | with no recall time, every pass looks for the initial colour and picks the strongest unsearched element |
| Search.ClockAt | ui.py:284-285 | the time before a pass is the time at the start plus the EMMA times of the earlier looks |
| Heuristic.Paint | decision.py:46-51 | grey without a colour flag, else green exactly for a positive value and red otherwise |
| Heuristic.PaintAll | decision.py:44-51 | a KeyError exactly when a value is missing; each named element takes its value and colour, and the others are unchanged |
| Heuristic.ResetDecisionUi | decision.py:43-51 | every element takes its value and the colour of it; nothing but the elements changes |
| Heuristic.ResetIdempotent | decision.py:43-51 | resetting a reset board with the same values changes nothing |
| Heuristic.CountGreensIsCount | decision.py:67-70 | the loop counts exactly the green elements |
| Heuristic.TopDownColor | decision.py:71-76 | red when at least half are green, none when none are, green otherwise |
| Heuristic.LooksForRarerColor | decision.py:66-76 | on a red and green board the looked-for colour covers at most half of the board |
| Heuristic.TallyTotal | decision.py:103-108 | each looked-at element counts once, as a plus or as a minus |
| Heuristic.UnfoundMeansExhausted | decision.py:112-118 | a zero `unfound` count means no unsearched element other than the pick has the looked-for colour |
| Heuristic.DecisionChoice | decision.py:82-108 | one pass picks the strongest unsearched element, looks at it with EMMA (its time and movement are that look's) and reads its value; a missing eye is a KeyError, and when the eye exists, EMMA can time every look, every element can be ranked and something is unsearched, the only failure is a KeyError for a picked element without a value; it succeeds when the eye exists, EMMA can time every look, every element can be ranked, something is unsearched and every element has a value |
| Heuristic.DecisionLoop | decision.py:79-121 | a run follows the stop rule pass by pass and its time is the sum of the EMMA times of its looks; a full search returns at once; from a searched eye it succeeds when EMMA can time every look, every element can be ranked, every look at another element moves the eye and every element has a value |
| Heuristic.MakeDecision | decision.py:56-122 | an empty board is a ValueError, a one-element board returns at once, a missing "e1" is a KeyError; otherwise the outcome is a decision run from "e1" whose time `mt` is the sum of the EMMA times of its looks; with more than one element and "e1" present it succeeds when EMMA can time every look, every element can be ranked, every look at another element moves the eye and every element has a value |
| Heuristic.DecisionStopsWhen | decision.py:79-118 | pluses and minuses count the searched elements after the start; no earlier pick reached a majority; the run ended on a majority, on the looked-for colour being gone, or with everything searched |
| QTable.ZeroRow | decision2.py:66-69 | a new row holds exactly the actions, each at 0.0 |
| QTable.SetState | decision2.py:63-69 | the state becomes a key; a new state's row holds every action at 0.0; existing rows are untouched |
| QTable.SetStateIdempotent | decision2.py:63-69 | entering a state twice is entering it once, and a table over the actions stays one |
| QTable.Greedy | decision2.py:91 | the greedy pick is an action of largest value, the first such in action order |
| QTable.GreedyUnique | decision2.py:91 | the first best action is unique, so the greedy pick is determined by the row |
| QTable.BestValue | decision2.py:76 | no action's value exceeds the best value, and the greedy action attains it |
| QTable.BlendBetween | decision2.py:77-83 | for a rate in [0, 1] the updated value lies between the prior value and the target |
| QTable.UpdateQLearning | decision2.py:71-78 | without a previous action nothing changes; otherwise it fails exactly on missing keys, and only the previous entry moves to old + alpha * (reward + gamma * best - old) |
| QTable.UpdateQLearningChanged | decision2.py:74-78 | a successful update had every key present and changed only the previous entry |
| QTable.UpdateQTd | decision2.py:80-83 | fails exactly on a missing key; only the current entry moves to old + alpha * (reward - old) |
| QTable.UpdateQTdBetween | decision2.py:80-83 | for a rate in [0, 1] the new value lies between the old value and the reward |
| Agent.Reward | decision2.py:117-129 | 0 for looking at an element; for a right answer the correct reward less the time cost; for a wrong one the incorrect reward less the time cost |
| Agent.RewardMatchesVerdict | decision2.py:270-272 | an answer earns the correct reward exactly when the verdict is "correctly" |
| Agent.Near | decision2.py:164 | a zero-size element divides by zero; a negative size is always near (the quotient is not positive); for a positive size see `NearIsRealQuotient` |
| Agent.QuotientBelow | decision2.py:164 | for a non-negative distance and a positive size, `distance / size < 2.5` holds exactly when four times the squared distance is below 25 times the squared size |
| Agent.NearIsRealQuotient | decision2.py:164 | for a positive size, `Near` gives the real-valued test `distance / size < 2.5`, for the Euclidean distance whose square is the squared distance of the centres |
| Agent.NearSelf | decision2.py:164 | every element of non-zero size is near itself |
| Agent.Recolor | decision2.py:162-165 | defined exactly when no size is zero and every near element has an entry; every near element shows its true colour and keeps its flag; all others are unchanged |
| Agent.Observe | decision2.py:158-165 | the fixated element is flagged and shows green or red by its value, or its true colour with colours on; no other flag changes; near elements show their true colour |
| Agent.Enter | decision2.py:132-140 | the state is entered and remembered; without learning or a previous action the table only gains the state; otherwise only the previous entry changes, by the bootstrapped rule |
| Agent.Choose | decision2.py:86-92 | a forced action is taken as is; otherwise the action is one of the agent's; above the coin threshold it is the first best action |
| Agent.Finish | decision2.py:170-178 | the reward is set; only an ending step with learning on changes the table, and only the current entry, towards the reward |
| Agent.TerminalUpdateTowardReward | decision2.py:174-178 | the ending step leaves the current entry between its old value and the reward |
| Agent.DoStep | decision2.py:131-178 | settings, board and answer stay; the table is the entered state with the bootstrapped update when learning, followed by the end-of-episode update when the step ends it; flags only rise and only the chosen element's; an element action extends the scanpath; an answer ends the episode after 0.5 s; the reward is that of the action; a forced action is the action taken, and otherwise the action is one of the agent's; the greedy choice is the first best action of the row the step learnt |
| Agent.FirstStepLearnsNothing | decision2.py:132-140 | the first step of an episode that does not end it only adds the state to the table |
| Board.RandInt | decision2.py:182 | a draw exists exactly when the range is non-empty and lies in it |
| Board.Sample | decision2.py:192 | a sample of k exists exactly for 0 <= k <= n and holds k elements of the pool |
| Board.SampleDistinct | decision2.py:192 | a sample of a duplicate-free pool is duplicate-free |
| Board.MarkHigh | decision2.py:192-195 | every sampled element gets a high value and the green (or grey) colour; others are unchanged |
| Board.MarkLow | decision2.py:197-201 | every low element gets a low value and the red (or grey) colour; others are unchanged |
| Board.PaintBoard | decision2.py:184-201 | every element is high or low with the matching colour, and the high ones are exactly the sample |
| Board.Randomise | decision2.py:180-203 | defined exactly when the count range for the drawn answer is non-empty; the answer is the drawn one; the count of high elements lies in its range |
| Board.StrictMajority | decision2.py:187-190 | answer 1 means more than half the elements are high, and answer 0 fewer than half |
| Board.GreensRangeFeasible | decision2.py:187-190 | answer 1 needs at least 4 elements and answer 0 at least 2 |
| Board.AnswerFor | decision2.py:256-259 | an empty board divides by zero; the answer is 0 exactly when more than half are red |
| Board.HalfTest | decision2.py:256 | the real-valued test `reds / n > 0.5` agrees with `2 * reds > n` |
| Board.RandomisedAnswerAgrees | decision2.py:256-259 | the answer rule applied to a randomised board gives back the drawn answer |
| Episode.Begin | decision2.py:43-61 | a fresh episode on the randomiser's board and answer: nothing seen, the eye on the picked element, the clock at zero, the unseen state in the table |
| Episode.Clear | decision2.py:43-61 | a new episode keeps the settings, the element names, the reward and every learnt row; its board and answer are the randomiser's and its eye is on the picked element |
| Episode.ActionsOf | decision2.py:18-23 | the actions are the elements in their order, then accept, then reject |
| Episode.NewAgent | decision2.py:9-41 | a new agent starts a fresh episode with learning on, reward 20/0, alpha 0.1, epsilon 0.1, gamma 0.9, no encoding penalty, the starting location nearest the origin, the randomiser's board and answer, and its eye on the picked element |
| Episode.NewAgentTable | decision2.py:25-41 | a new agent's table holds one row, the unseen state, all zeros |
| Episode.SetValues | decision2.py:245-255 | every given element takes its value and its colour; a missing name is a KeyError; others are unchanged |
| Episode.Override | decision2.py:243-259 | the answer is 0 exactly when more than half of the board's elements were given a value below 0.5 |
| Episode.Run | decision2.py:261-264 | at most k steps; a run without an answer took all k; an answered run ended on a non-element action; flags only rise |
| Episode.Simulate | decision2.py:239-268 | evaluation runs without exploration or learning; an answer comes within 100 steps or the run is stuck after exactly 100 fixations; learnt rows are kept |
| Episode.AnswerIsAcceptOrReject | decision2.py:261-272 | an answered evaluation ends by accepting or rejecting |

## Left out

- Plotting is left out: `visualise_UI`, `visualise_exhaustive_search`, `visualise_exhaustive_guided_search`, and the call in `simulate_decision_task`. It is rendering only.
- `print` output is left out, including the verdict line of `simulate_decision_task`. The model keeps the verdict as `Agent.Incorrectly`.
- Module-level test layouts and scripts are left out. They are data, not logic.
- `train_decision_maker` and `sample_decision_agent` are left out. They repeat `do_step` and `clear` and aggregate statistics.
- `learn_all_elements` is left out: it is a loop over `LearnElementPos` and `LearnElementColor`.
- `choose_action_softmax` and `weighted_random` are left out because they depend on `exp` and randomness.
  - The epsilon branch's random action is modelled only as `actions[pick % n]`, with `pick` chosen by the caller.
- `WHo_mt` is left out: it uses real-valued power exponents and nothing in the core calls it.
- Floating point is not modelled. Reals are exact.
  - `atan`, `exp`, `ln`, `sqrt` and `1/sqrt` are uninterpreted values.
  - Visual distances, EMMA encoding time and the contrast kernel are therefore known only up to sign facts.
- Randomness is supplied by the caller: the start of the eye, the coin, the random action, the board's answer, its sample and its drawn values.
  - `random.sample` is modelled as successive picks from the remaining pool. Its exact distribution is not modelled.
- Mutation is not modelled: a raised exception leaves no partly updated state, because the model returns `Err` instead.
- The Q-table's key is the visual matrix itself, not its `repr`.
  - The two are in one-to-one correspondence once `clear` has fixed the key order.
- Element names are non-empty strings.
  - Python's `if not name` is therefore the same as "no name given".
  - An empty forced action counts as no forced action, as in `decision2.py`.
- The agent's reward before its first step is not set by `decision2.py`. The model starts it at 0.0, and that value is never read before the first step sets it.
- The commented-out time-penalty reward (`-self.mt`) is not modelled.
- `add_element` does not reject degenerate rectangles, and the model follows it.
- `make_decision` reads the undefined `force_fixation` whenever the eye did not move. The model returns NameError there and does not use a default.
- Heuristic.DecisionLoop and Heuristic.MakeDecision: the success condition is sufficient, not exact. A look that does not move the eye raises NameError only when the run goes on after it; the condition asks every look at another element to move the eye.
- Search.ExhaustiveGuidedVisualSearch and Search.GuidedChoice: the success condition is sufficient, not exact. It asks every element to be rankable, where the search ranks only from the elements the eye visits.
- Layout.AddElement: a new element's value is 0.0, where `ui.py` stores None. `decision2.py` compares the value with 0.5 when it fixates an element, which raises TypeError on None, while Agent.Observe reads such an element as red. The agent only acts on boards the randomiser has set, and it first sets every value to 0, so this matters only for a board built by hand.
- Episode.Simulate: does not state the final `task_time` and scanpath rendering that `simulate_decision_task` prints and plots; it states the verdict inputs (action, answer) instead.
- Agent.DoStep: states what a successful step does, not the full list of failures; those are stated one part at a time by Agent.Enter, Agent.Choose, Timing.EmmaTime, Agent.Observe and Agent.Finish.
- Layout.ModifyElement: a value of the wrong kind for the field (a colour for a coordinate, a number for the colour) is a TypeError, where Python would store it and fail only later, if at all.
- Element coordinates and sizes are integers; Python also accepts floats there.
- Layout.LearnElementPos and Layout.LearnElementColor: on a missing element Python has already written the strength before the KeyError; the model's error carries no partly updated surface.
- Timing.EmmaWalk and Timing.CreateEmmaScanpath: state the result of a successful walk, not which look fails when EMMA cannot time it; that is stated by Timing.EmmaTime.

=== FILE: agent.dfy ===
/** The learning decision agent of `decision2.py`: what it has seen of the
    board, one step of an episode, the start of an episode, the agent's
    creation, and the evaluation run of `simulate_decision_task`. The coin of
    the epsilon-greedy choice, the random action, the start of the eye and the
    board's draws are explicit parameters. */
module Agent {
  import opened Wrappers
  import opened Numerics
  import opened Seqs
  import opened Layout
  import opened Timing
  import opened QTable
  import opened Board

  /** One entry of the visual matrix: whether the element has been fixated
      (the 0/1 flag) and the colour seen there, if any. */
  datatype Seen = Seen(fixated: bool, color: Option<Color>)

  /** The visual matrix. Its representation is the agent's state. */
  type Visual = map<Name, Seen>

  type Table = map<Visual, Row>

  const Accept: Action := "accept"
  const Reject: Action := "reject"

  /** The fields of a `decision_task` object that a step does not change. */
  datatype Settings = Settings(
    colours: bool,
    timeCost: real,
    encodingPenalty: real,
    actions: seq<Action>,
    startingLoc: Option<Name>,
    learning: bool,
    correctReward: real,
    incorrectReward: real,
    alpha: real,
    epsilon: real,
    gamma: real)

  /** What the agent has seen and where it looked. */
  datatype Gaze = Gaze(visual: Visual, eye: Name, scanpath: seq<Name>)

  /** The time of the last step, of the episode, and whether it has ended. */
  datatype Clock = Clock(mt: real, taskTime: real, terminal: bool)

  /** The bookkeeping of the learning rule. `previousState` and `action` are
      None where `decision2.py` holds None. */
  datatype Memory = Memory(
    current: Visual,
    previousState: Option<Visual>,
    previousAction: Option<Action>,
    action: Option<Action>,
    reward: real)

  /** A `decision_task` object. */
  datatype Agent = Agent(s: Settings, ui: Ui, correctAnswer: int, q: Table, gaze: Gaze, clock: Clock, mem: Memory)

  /** What every operation keeps: the board is indexed, every row of the
      table holds exactly the agent's actions, and the current state has a
      row. */
  ghost predicate Valid(a: Agent) {
    && Indexed(a.ui)
    && TableOver(a.q, a.s.actions)
    && a.mem.current in a.q
  }

  // ---------------------------------------------------------------- reward

  /** The answer is right: accept a board whose answer is 1, reject one whose
      answer is 0. */
  predicate RightAnswer(action: Action, correctAnswer: int) {
    (action == Accept && correctAnswer == 1) || (action == Reject && correctAnswer == 0)
  }

  /** `calculate_reward`: nothing for looking at an element; for an answer,
      the reward of a right or a wrong answer less the cost of the time. */
  function Reward(action: Action, correctAnswer: int, correctReward: real, incorrectReward: real,
                  taskTime: real, timeCost: real): (r: real)
    ensures action != Accept && action != Reject ==> r == 0.0
    ensures (action == Accept || action == Reject) && RightAnswer(action, correctAnswer) ==>
      r == correctReward - taskTime * timeCost
    ensures (action == Accept || action == Reject) && !RightAnswer(action, correctAnswer) ==>
      r == incorrectReward - taskTime * timeCost
  {
    var cost := taskTime * timeCost;
    if action == Accept then
      (if correctAnswer == 1 then correctReward - cost else incorrectReward - cost)
    else if action == Reject then
      (if correctAnswer == 0 then correctReward - cost else incorrectReward - cost)
    else 0.0
  }

  /** The verdict `simulate_decision_task` prints: "incorrectly" when a board
      of answer 0 was accepted or one of answer 1 rejected. */
  predicate Incorrectly(action: Action, correctAnswer: int) {
    (correctAnswer == 0 && action == Accept) || (correctAnswer == 1 && action == Reject)
  }

  /** On a board whose answer is 0 or 1, an answer earns the right-answer
      reward exactly when the verdict is "correctly". */
  lemma RewardMatchesVerdict(action: Action, correctAnswer: int, correctReward: real, incorrectReward: real,
                             taskTime: real, timeCost: real)
    requires action == Accept || action == Reject
    requires correctAnswer == 0 || correctAnswer == 1
    ensures Reward(action, correctAnswer, correctReward, incorrectReward, taskTime, timeCost)
            == (if Incorrectly(action, correctAnswer) then incorrectReward else correctReward) - taskTime * timeCost
  {
  }

  // ---------------------------------------------------------------- looking

  /** `element_distance(e, a) / element_size(e) < 2.5` with exact squared
      distances: a zero size divides by zero, a negative size makes the
      quotient non-positive. */
  function Near(u: Ui, e: Name, a: Name): (r: Result<bool>)
    requires e in u.elements && a in u.elements
    ensures r.Err? <==> MaxSize(u.elements[e]) == 0
    ensures r.Err? ==> r.error == ZeroDivisionError
    ensures MaxSize(u.elements[e]) < 0 ==> r == Ok(true)
  {
    var size := MaxSize(u.elements[e]);
    if size == 0 then Err(ZeroDivisionError)
    else if size < 0 then Ok(true)
    else Ok(4 * Dist2(Loc(u.elements[e]), Loc(u.elements[a])) < 25 * size * size)
  }

  /** Every element of non-zero size is near itself. */
  lemma NearSelf(u: Ui, e: Name)
    requires e in u.elements && MaxSize(u.elements[e]) != 0
    ensures Near(u, e, e) == Ok(true)
  {
    var size := MaxSize(u.elements[e]);
    if size > 0 {
      assert Dist2(Loc(u.elements[e]), Loc(u.elements[e])) == 0;
      assert 25 * size * size > 0;
    }
  }

  /** For a non-negative distance `d` and a positive size `s`, the quotient
      test `d / s < 2.5` is the squared comparison `Near` makes. */
  lemma QuotientBelow(d: real, s: real)
    requires d >= 0.0 && s > 0.0
    ensures d / s < 2.5 <==> 4.0 * (d * d) < 25.0 * (s * s)
  {
    assert d / s < 2.5 <==> 2.0 * d < 5.0 * s by {
      assert (d / s) * s == d;
    }
    SquareBelow(2.0 * d, 5.0 * s);
    assert (2.0 * d) * (2.0 * d) == 4.0 * (d * d);
    assert (5.0 * s) * (5.0 * s) == 25.0 * (s * s);
  }

  /** Squaring keeps the order of non-negative reals, both ways. */
  lemma SquareBelow(x: real, y: real)
    requires x >= 0.0 && y >= 0.0
    ensures x < y <==> x * x < y * y
  {
    if x < y {
      SquareStrict(x, y);
    } else {
      SquareMono(y, x);
    }
  }

  lemma SquareStrict(x: real, y: real)
    requires x >= 0.0 && x < y
    ensures x * x < y * y
  {
    var a, b, c := x * x, x * y, y * y;
    assert a <= b;
    assert b < c;
  }

  lemma SquareMono(x: real, y: real)
    requires x >= 0.0 && x <= y
    ensures x * x <= y * y
  {
    var a, b, c := x * x, x * y, y * y;
    assert a <= b;
    assert b <= c;
  }

  /** `Near` with a positive size is exactly the real-valued test of
      decision2.py: the Euclidean distance `d` (whose square is the squared
      distance of the centres) over the size, below 2.5. */
  lemma NearIsRealQuotient(u: Ui, e: Name, a: Name, d: real)
    requires e in u.elements && a in u.elements
    requires MaxSize(u.elements[e]) > 0 && d >= 0.0
    requires d * d == Dist2(Loc(u.elements[e]), Loc(u.elements[a])) as real
    ensures Near(u, e, a) == Ok(d / (MaxSize(u.elements[e]) as real) < 2.5)
  {
    var size := MaxSize(u.elements[e]);
    var dist := Dist2(Loc(u.elements[e]), Loc(u.elements[a]));
    var s := size as real;
    QuotientBelow(d, s);
    assert (4 * dist) as real == 4.0 * (d * d);
    assert (25 * size * size) as real == 25.0 * (s * s);
  }

  /** The entry the colour loop leaves for `n`: its true colour and its flag
      when it is near the fixated element, else unchanged. */
  ghost predicate Shown(u: Ui, visual: Visual, a: Name, n: Name, w: Seen)
    requires n in u.elements && a in u.elements && n in visual
  {
    if Near(u, n, a) == Ok(true) then w == Seen(visual[n].fixated, Some(u.elements[n].color))
    else w == visual[n]
  }

  /** The loop over `names` can run: no size is zero and every near element
      has an entry. */
  ghost predicate Recolorable(u: Ui, visual: Visual, names: seq<Name>, a: Name)
    requires a in u.elements
    requires forall n :: n in names ==> n in u.elements
  {
    forall n :: n in names ==> Near(u, n, a).Ok? && (Near(u, n, a).value ==> n in visual)
  }

  /** The colour loop of `do_step` over `names`. */
  function Recolor(u: Ui, visual: Visual, names: seq<Name>, a: Name): (r: Result<Visual>)
    requires a in u.elements
    requires Distinct(names) && forall n :: n in names ==> n in u.elements
    ensures r.Ok? <==> Recolorable(u, visual, names, a)
    ensures r.Err? ==> r.error == ZeroDivisionError || r.error == KeyError
    ensures r.Ok? ==> r.value.Keys == visual.Keys
    ensures r.Ok? ==> forall n :: n in visual && n in names ==> Shown(u, visual, a, n, r.value[n])
    ensures r.Ok? ==> forall n :: n in visual && n !in names ==> r.value[n] == visual[n]
    decreases |names|
  {
    if |names| == 0 then Ok(visual)
    else
      var n := names[0];
      var rest := names[1..];
      DistinctTail(names);
      assert forall x :: x in names <==> x == n || x in rest;
      var near := Near(u, n, a);
      if near.Err? then Err(ZeroDivisionError)
      else if near.value && n !in visual then Err(KeyError)
      else
        var v := if near.value then visual[n := Seen(visual[n].fixated, Some(u.elements[n].color))] else visual;
        Recolor(u, v, rest, a)
  }

  /** The colour an element shows once fixated: green for a value of at least
      0.5, else red. */
  function Reading(e: Element): Color {
    if e.data >= 0.5 then "green" else "red"
  }

  /** The visual matrix after fixating `act`: the element is marked with the
      colour of its value, then, with colours on, every element near it shows
      its true colour and keeps its flag. */
  function Observe(colours: bool, u: Ui, visual: Visual, act: Name): (r: Result<Visual>)
    requires Indexed(u) && act in u.elements
    ensures !colours ==> r == Ok(visual[act := Seen(true, Some(Reading(u.elements[act])))])
    ensures r.Ok? ==> r.value.Keys == visual.Keys + {act}
    ensures r.Ok? ==> r.value[act].fixated
    ensures r.Ok? ==> forall n :: n in visual && n != act ==> r.value[n].fixated == visual[n].fixated
    ensures colours && r.Ok? ==> r.value[act] == Seen(true, Some(u.elements[act].color))
    ensures colours && r.Ok? ==> forall n :: n in visual && n in u.elements && n != act ==>
      Shown(u, visual, act, n, r.value[n])
    ensures colours && r.Ok? ==> forall n :: n in visual && n !in u.elements ==> r.value[n] == visual[n]
  {
    var seen := visual[act := Seen(true, Some(Reading(u.elements[act])))];
    if !colours then Ok(seen)
    else
      var v :- Recolor(u, seen, u.order, act);
      ObserveFacts(u, visual, seen, v, act);
      Ok(v)
  }

  lemma ObserveFacts(u: Ui, visual: Visual, seen: Visual, v: Visual, act: Name)
    requires Indexed(u) && act in u.elements
    requires seen == visual[act := Seen(true, Some(Reading(u.elements[act])))]
    requires Recolorable(u, seen, u.order, act)
    requires v.Keys == seen.Keys
    requires forall n :: n in seen && n in u.order ==> Shown(u, seen, act, n, v[n])
    requires forall n :: n in seen && n !in u.order ==> v[n] == seen[n]
    ensures v[act] == Seen(true, Some(u.elements[act].color))
    ensures forall n :: n in visual && n != act ==> v[n].fixated == visual[n].fixated
    ensures forall n :: n in visual && n in u.elements && n != act ==> Shown(u, visual, act, n, v[n])
    ensures forall n :: n in visual && n !in u.elements ==> v[n] == visual[n]
  {
    assert act in u.order;
    NearSelf(u, act);
    assert Shown(u, seen, act, act, v[act]);
    forall n | n in visual && n != act
      ensures v[n].fixated == visual[n].fixated
    {
      if n in u.order {
        assert Shown(u, seen, act, n, v[n]);
      }
    }
  }

  /** What an element action does to the gaze and the clock: EMMA time plus
      the encoding penalty, the eye moves only when EMMA says so, and the
      element joins the scanpath. */
  ghost predicate Fixated(s: Settings, u: Ui, m: Maths, g: Gaze, c: Clock, act: Name, g': Gaze, c': Clock)
    requires Indexed(u) && act in u.elements
  {
    var f := EmmaTime(u, m, act, Some(g.eye));
    && f.Ok?
    && c' == Clock(f.value.time + s.encodingPenalty, c.taskTime + f.value.time + s.encodingPenalty, c.terminal)
    && g'.eye == (if f.value.moved then act else g.eye)
    && g'.scanpath == g.scanpath + [act]
    && Observe(s.colours, u, g.visual, act) == Ok(g'.visual)
  }

  /** The element branch of `do_step`. */
  function Fixate(s: Settings, u: Ui, m: Maths, g: Gaze, c: Clock, act: Name): (r: Result<(Gaze, Clock)>)
    requires Indexed(u) && act in u.elements
    ensures r.Ok? ==> Fixated(s, u, m, g, c, act, r.value.0, r.value.1)
  {
    var f :- EmmaTime(u, m, act, Some(g.eye));
    var visual :- Observe(s.colours, u, g.visual, act);
    var mt := f.time + s.encodingPenalty;
    Ok((Gaze(visual, if f.moved then act else g.eye, g.scanpath + [act]), Clock(mt, c.taskTime + mt, c.terminal)))
  }

  /** The answer branch of `do_step`: half a second, and the episode ends. */
  function Answer(c: Clock): (r: Clock)
    ensures r.terminal && r.mt == 0.5 && r.taskTime == c.taskTime + 0.5
  {
    Clock(0.5, c.taskTime + 0.5, true)
  }

  // ---------------------------------------------------------------- learning

  /** The memory once a step has begun: the last state and action are
      remembered and the visual matrix is the current state. */
  function Shift(mem: Memory, visual: Visual): Memory {
    mem.(current := visual, previousState := Some(mem.current), previousAction := mem.action)
  }

  /** The head of `do_step`: remember the last state and action, enter the
      current visual matrix into the table, and learn from the last
      transition when learning is on. */
  function Enter(s: Settings, q: Table, mem: Memory, visual: Visual): (r: Result<(Table, Memory)>)
    requires TableOver(q, s.actions) && mem.current in q
    ensures r.Ok? ==> TableOver(r.value.0, s.actions) && visual in r.value.0 && r.value.1 == Shift(mem, visual)
    ensures r.Ok? ==> forall st :: st in q && st != mem.current ==> st in r.value.0 && r.value.0[st] == q[st]
    ensures !s.learning || mem.action.None? ==> r == Ok((SetState(q, s.actions, visual), Shift(mem, visual)))
    ensures s.learning && mem.action.Some? ==> (r.Ok? <==> mem.action.value in s.actions)
    ensures s.learning && mem.action.Some? && r.Ok? ==>
      var q1 := SetState(q, s.actions, visual);
      && mem.action.value in q1[mem.current]
      && OnlyChanged(q1, r.value.0, mem.current, mem.action.value,
                     Blend(q1[mem.current][mem.action.value], Target(mem.reward, s.gamma, BestValue(q1[visual], s.actions)),
                           s.alpha))
  {
    var q1 := SetState(q, s.actions, visual);
    SetStateIdempotent(q, s.actions, visual);
    if !s.learning || mem.action.None? then Ok((q1, Shift(mem, visual)))
    else
      var u := UpdateQLearning(q1, s.actions, mem.current, mem.action, visual, mem.reward, s.alpha, s.gamma);
      if u.Err? then Err(KeyError)
      else
        LearnFacts(s, q, q1, mem, visual, u.value);
        Ok((u.value, Shift(mem, visual)))
  }

  /** The learning step of `Enter`, on the table that already holds the
      current state. */
  lemma LearnFacts(s: Settings, q: Table, q1: Table, mem: Memory, visual: Visual, q2: Table)
    requires TableOver(q, s.actions) && mem.current in q && mem.action.Some?
    requires q1 == SetState(q, s.actions, visual)
    requires UpdateQLearning(q1, s.actions, mem.current, mem.action, visual, mem.reward, s.alpha, s.gamma) == Ok(q2)
    ensures mem.action.value in s.actions && mem.action.value in q1[mem.current]
    ensures OnlyChanged(q1, q2, mem.current, mem.action.value,
                        Blend(q1[mem.current][mem.action.value], Target(mem.reward, s.gamma, BestValue(q1[visual], s.actions)),
                              s.alpha))
  {
    SetStateIdempotent(q, s.actions, visual);
    assert TableOver(q1, s.actions);
    assert RowOver(q1[mem.current], s.actions);
    UpdateQLearningChanged(q1, s.actions, mem.current, mem.action.value, visual, mem.reward, s.alpha, s.gamma, q2);
  }

  /** The action of `do_step`: the forced one when given, else a random
      action when the coin falls below epsilon, else the greedy one. */
  function Choose(s: Settings, q: Table, current: Visual, coin: real, pick: nat, force: Option<Action>)
    : (r: Result<Action>)
    requires TableOver(q, s.actions) && current in q
    ensures force.Some? && force.value != "" ==> r == Ok(force.value)
    ensures (force.None? || force.value == "") ==> (r.Ok? <==> |s.actions| > 0) && (r.Ok? ==> r.value in s.actions)
    ensures (force.None? || force.value == "") && coin >= s.epsilon && r.Ok? ==>
      RowOver(q[current], s.actions) && FirstBest(q[current], s.actions, r.value)
  {
    if force.Some? && force.value != "" then Ok(force.value)
    else if |s.actions| == 0 then (if coin < s.epsilon then Err(IndexError) else Err(ValueError))
    else if coin < s.epsilon then Ok(s.actions[pick % |s.actions|])
    else
      assert RowOver(q[current], s.actions);
      Ok(Greedy(q[current], s.actions))
  }

  /** The tail of `do_step`: the reward, and the terminal update when the
      episode has ended and learning is on. */
  function Finish(s: Settings, q: Table, mem: Memory, correctAnswer: int, c: Clock): (r: Result<(Table, Memory)>)
    requires TableOver(q, s.actions) && mem.action.Some?
    ensures r.Ok? ==> TableOver(r.value.0, s.actions)
    ensures r.Ok? ==> r.value.1 == mem.(reward := Reward(mem.action.value, correctAnswer, s.correctReward,
                                                         s.incorrectReward, c.taskTime, s.timeCost))
    ensures !(c.terminal && s.learning) ==> r.Ok? && r.value.0 == q
    ensures r.Ok? ==> forall st :: st in q && st != mem.current ==> st in r.value.0 && r.value.0[st] == q[st]
    ensures c.terminal && s.learning ==>
      (r.Ok? <==> mem.current in q && mem.action.value in s.actions) &&
      (r.Ok? ==> OnlyChanged(q, r.value.0, mem.current, mem.action.value,
                             Blend(q[mem.current][mem.action.value], r.value.1.reward, s.alpha)))
  {
    var reward := Reward(mem.action.value, correctAnswer, s.correctReward, s.incorrectReward, c.taskTime, s.timeCost);
    if c.terminal && s.learning then
      assert mem.current in q ==> RowOver(q[mem.current], s.actions);
      var q1 :- UpdateQTd(q, mem.current, mem.action.value, reward, s.alpha);
      OnlyChangedKeepsTable(q, q1, s.actions, mem.current, mem.action.value,
                            Blend(q[mem.current][mem.action.value], reward, s.alpha));
      Ok((q1, mem.(reward := reward)))
    else Ok((q, mem.(reward := reward)))
  }

  /** With learning on and a rate in [0, 1], the step that ends an episode
      leaves the value of its state and action between the old value and the
      reward. */
  lemma TerminalUpdateTowardReward(s: Settings, q: Table, mem: Memory, correctAnswer: int, c: Clock)
    requires TableOver(q, s.actions) && mem.action.Some?
    requires c.terminal && s.learning && 0.0 <= s.alpha <= 1.0
    requires Finish(s, q, mem, correctAnswer, c).Ok?
    ensures var r := Finish(s, q, mem, correctAnswer, c).value;
      var prior := q[mem.current][mem.action.value];
      var v := r.0[mem.current][mem.action.value];
      (prior <= r.1.reward ==> prior <= v <= r.1.reward) && (r.1.reward <= prior ==> r.1.reward <= v <= prior)
  {
    var r := Finish(s, q, mem, correctAnswer, c).value;
    BlendBetween(q[mem.current][mem.action.value], r.1.reward, s.alpha);
  }

  // ---------------------------------------------------------------- one step

  /** `do_step`. */
  function DoStep(a: Agent, m: Maths, coin: real, pick: nat, force: Option<Action>): (r: Result<Agent>)
    requires Valid(a)
    ensures r.Ok? ==> Stepped(a, m, r.value)
    ensures r.Ok? && force.Some? && force.value != "" ==> r.value.mem.action == force
    ensures r.Ok? && (force.None? || force.value == "") ==> r.value.mem.action.value in a.s.actions
    ensures r.Ok? && (force.None? || force.value == "") && coin >= a.s.epsilon ==>
      && Learned(a).Ok? && a.gaze.visual in Learned(a).value
      && RowOver(Learned(a).value[a.gaze.visual], a.s.actions)
      && FirstBest(Learned(a).value[a.gaze.visual], a.s.actions, r.value.mem.action.value)
  {
    var entered :- Enter(a.s, a.q, a.mem, a.gaze.visual);
    EnteredIsLearned(a, entered);
    var act :- Choose(a.s, entered.0, entered.1.current, coin, pick, force);
    var mem := entered.1.(action := Some(act));
    var look :- if act in a.ui.elements then Fixate(a.s, a.ui, m, a.gaze, a.clock, act) else Ok((a.gaze, Answer(a.clock)));
    var done :- Finish(a.s, entered.0, mem, a.correctAnswer, look.1);
    var r := a.(q := done.0, gaze := look.0, clock := look.1, mem := done.1);
    StepFacts(a, m, entered, act, look, done, r);
    Ok(r)
  }

  /** What a step guarantees: the settings, the board and its answer stay;
      the table and the memory move as `Learnt` says, the gaze and the clock
      as `Looked` says, and the reward is that of the action. */
  ghost predicate Stepped(a: Agent, m: Maths, r: Agent) {
    && Valid(a)
    && r.s == a.s && r.ui == a.ui && r.correctAnswer == a.correctAnswer
    && r.mem.action.Some?
    && Learnt(a, r.q, r.mem, r.clock.terminal)
    && Looked(a, m, r.mem.action.value, r.gaze, r.clock)
    && r.mem.reward == Reward(r.mem.action.value, a.correctAnswer, a.s.correctReward, a.s.incorrectReward,
                              r.clock.taskTime, a.s.timeCost)
  }

  /** The table once the state seen before a step is entered and, with
      learning on, the last transition is learnt from. */
  ghost function Learned(a: Agent): Result<Table>
    requires Valid(a)
  {
    var q1 := SetState(a.q, a.s.actions, a.gaze.visual);
    SetStateIdempotent(a.q, a.s.actions, a.gaze.visual);
    if a.s.learning
    then UpdateQLearning(q1, a.s.actions, a.mem.current, a.mem.action, a.gaze.visual, a.mem.reward, a.s.alpha, a.s.gamma)
    else Ok(q1)
  }

  /** The head of a step builds the table `Learned` describes. */
  lemma EnteredIsLearned(a: Agent, entered: (Table, Memory))
    requires Valid(a)
    requires Enter(a.s, a.q, a.mem, a.gaze.visual) == Ok(entered)
    ensures Learned(a) == Ok(entered.0)
  {
  }

  /** The table and memory after a step: the state before it was entered into
      the table and is the new current state, the last state and action are
      remembered, and the table is the learnt one, with the terminal update
      towards the new reward applied when the step ended the episode and
      learning is on. No other row is touched, and without learning, or on
      the first step of an episode that does not end it, the table only gains
      the state. */
  ghost predicate Learnt(a: Agent, q: Table, mem: Memory, terminal: bool)
    requires Valid(a)
  {
    && TableOver(q, a.s.actions)
    && Learned(a).Ok?
    && (terminal && a.s.learning ==>
          mem.action.Some? && UpdateQTd(Learned(a).value, a.gaze.visual, mem.action.value, mem.reward, a.s.alpha) == Ok(q))
    && (!(terminal && a.s.learning) ==> q == Learned(a).value)
    && mem.current == a.gaze.visual && mem.current in q
    && mem.previousAction == a.mem.action
    && mem.previousState == Some(a.mem.current)
    && (forall st :: st in a.q && st != a.mem.current && st != a.gaze.visual ==> st in q && q[st] == a.q[st])
    && (!a.s.learning ==> q == SetState(a.q, a.s.actions, a.gaze.visual))
    && (a.mem.action.None? && !terminal ==> q == SetState(a.q, a.s.actions, a.gaze.visual))
  }

  /** The gaze and clock after acting on `act`: flags only rise, and only
      that of `act`; an element action is a fixation that extends the
      scanpath; an answer ends the episode after half a second and changes
      nothing seen. */
  ghost predicate Looked(a: Agent, m: Maths, act: Action, g: Gaze, c: Clock) {
    && (forall n :: n in a.gaze.visual ==> n in g.visual && (a.gaze.visual[n].fixated ==> g.visual[n].fixated))
    && (forall n :: n in a.gaze.visual && n != act ==> g.visual[n].fixated == a.gaze.visual[n].fixated)
    && (act in a.ui.elements ==>
          && Indexed(a.ui)
          && Fixated(a.s, a.ui, m, a.gaze, a.clock, act, g, c)
          && g.scanpath == a.gaze.scanpath + [act]
          && act in g.visual && g.visual[act].fixated
          && c.terminal == a.clock.terminal)
    && (act !in a.ui.elements ==> c == Answer(a.clock) && g == a.gaze)
  }

  lemma StepFacts(a: Agent, m: Maths, entered: (Table, Memory), act: Action, look: (Gaze, Clock),
                  done: (Table, Memory), r: Agent)
    requires Valid(a)
    requires Enter(a.s, a.q, a.mem, a.gaze.visual) == Ok(entered)
    requires act in a.ui.elements ==> Fixated(a.s, a.ui, m, a.gaze, a.clock, act, look.0, look.1)
    requires act !in a.ui.elements ==> look == (a.gaze, Answer(a.clock))
    requires TableOver(entered.0, a.s.actions)
    requires Finish(a.s, entered.0, entered.1.(action := Some(act)), a.correctAnswer, look.1) == Ok(done)
    requires r == a.(q := done.0, gaze := look.0, clock := look.1, mem := done.1)
    ensures Stepped(a, m, r)
  {
    LearntFacts(a, entered, act, look.1, done);
    LookedFacts(a, m, act, look);
  }

  lemma LearntFacts(a: Agent, entered: (Table, Memory), act: Action, c: Clock, done: (Table, Memory))
    requires Valid(a)
    requires Enter(a.s, a.q, a.mem, a.gaze.visual) == Ok(entered)
    requires TableOver(entered.0, a.s.actions)
    requires Finish(a.s, entered.0, entered.1.(action := Some(act)), a.correctAnswer, c) == Ok(done)
    ensures Learnt(a, done.0, done.1, c.terminal)
  {
    EnteredIsLearned(a, entered);
  }

  lemma LookedFacts(a: Agent, m: Maths, act: Action, look: (Gaze, Clock))
    requires Valid(a)
    requires act in a.ui.elements ==> Fixated(a.s, a.ui, m, a.gaze, a.clock, act, look.0, look.1)
    requires act !in a.ui.elements ==> look == (a.gaze, Answer(a.clock))
    ensures Looked(a, m, act, look.0, look.1)
  {
    if act in a.ui.elements {
      assert Observe(a.s.colours, a.ui, a.gaze.visual, act) == Ok(look.0.visual);
    }
  }

  /** A step leaves an agent the next step can start from. */
  lemma SteppedValid(a: Agent, m: Maths, r: Agent)
    requires Stepped(a, m, r)
    ensures Valid(r)
  {
  }

  /** What a step that does not end the episode leaves for the next one: it
      fixated an element and appended it to the scanpath, no flag fell, and
      without learning the rows already in the table stay. */
  lemma SteppedOn(a: Agent, m: Maths, r: Agent)
    requires Stepped(a, m, r) && !r.clock.terminal
    ensures r.mem.action.value in a.ui.elements
    ensures r.gaze.scanpath == a.gaze.scanpath + [r.mem.action.value]
    ensures forall n :: n in a.gaze.visual ==> n in r.gaze.visual && (a.gaze.visual[n].fixated ==> r.gaze.visual[n].fixated)
    ensures !a.s.learning ==> forall st :: st in a.q ==> st in r.q && r.q[st] == a.q[st]
  {
    if !a.s.learning {
      assert r.q == SetState(a.q, a.s.actions, a.gaze.visual);
    }
  }

  /** The first step of an episode learns nothing from a previous transition:
      unless it ends the episode, the table only gains the state. */
  lemma FirstStepLearnsNothing(a: Agent, m: Maths, coin: real, pick: nat, force: Option<Action>)
    requires Valid(a) && a.mem.action.None?
    requires DoStep(a, m, coin, pick, force).Ok?
    requires !DoStep(a, m, coin, pick, force).value.clock.terminal
    ensures DoStep(a, m, coin, pick, force).value.q == SetState(a.q, a.s.actions, a.gaze.visual)
  {
  }
}

=== FILE: attention.dfy ===
/** Visual attention in `ui.py`: which elements are visible from the eye,
    bottom-up (colour contrast) and top-down (requested colour) activation,
    and the inhibition of already searched elements. */
module Attention {
  import opened Wrappers
  import opened Numerics
  import opened Seqs
  import opened Layout
  import opened Timing

  /** One entry of an activation dictionary; a dictionary is a sequence of
      entries in its insertion order. */
  datatype Scored = Scored(name: Name, value: real)

  function Names(a: seq<Scored>): (ns: seq<Name>)
    ensures |ns| == |a|
    ensures forall i :: 0 <= i < |a| ==> ns[i] == a[i].name
  {
    seq(|a|, i requires 0 <= i < |a| => a[i].name)
  }

  function Values(a: seq<Scored>): (vs: seq<real>)
    ensures |vs| == |a|
    ensures forall i :: 0 <= i < |a| ==> vs[i] == a[i].value
  {
    seq(|a|, i requires 0 <= i < |a| => a[i].value)
  }

  /** The eye is an element and angles can be computed. */
  predicate Locatable(u: Ui, eye: Name) {
    eye in u.elements && u.userDistance != 0
  }

  /** The visibility test of both activations: an element is seen when the
      eccentricity cost 0.104·d² − 0.95·d stays below its angular size. */
  predicate Visible(u: Ui, m: Maths, eye: Name, n: Name)
    requires Locatable(u, eye) && n in u.elements
  {
    var d := Eccentricity(u, m, n, eye);
    0.104 * (d * d) - 0.95 * d < AngularSize(u, m, MaxSize(u.elements[n]) as real)
  }

  /** The names of `names` that are visible (or, with `visible` false, not
      visible), in their order. */
  function Sift(u: Ui, m: Maths, eye: Name, names: seq<Name>, visible: bool): (r: seq<Name>)
    requires Locatable(u, eye)
    requires forall n :: n in names ==> n in u.elements
    ensures |r| <= |names|
    ensures forall n :: n in r <==> n in names && Visible(u, m, eye, n) == visible
    ensures Distinct(names) ==> Distinct(r)
  {
    if |names| == 0 then []
    else
      var rest := Sift(u, m, eye, names[1..], visible);
      assert Distinct(names) ==> Distinct(names[1..]) && names[0] !in names[1..] by {
        if Distinct(names) {
          DistinctTail(names);
        }
      }
      if Visible(u, m, eye, names[0]) == visible then [names[0]] + rest else rest
  }

  /** The key order of `bottom_up_activation`'s result: the visible elements
      first, then the others, each group in element order. */
  function VisibleFirst(u: Ui, m: Maths, eye: Name): (r: seq<Name>)
    requires Indexed(u) && Locatable(u, eye)
    ensures Distinct(r) && |r| == |u.order|
    ensures forall n :: n in r <==> n in u.elements
  {
    var vis := Sift(u, m, eye, u.order, true);
    var hid := Sift(u, m, eye, u.order, false);
    DistinctConcat(vis, hid);
    CountInDistinct(vis + hid, u.elements.Keys);
    CountAll(vis + hid, u.elements.Keys);
    OrderSize(u);
    vis + hid
  }

  /** `n` raises the bottom-up activation of `e`: another element of a
      different colour. */
  predicate Contrasts(u: Ui, e: Name, n: Name)
    requires e in u.elements && n in u.elements
  {
    n != e && u.elements[n].color != u.elements[e].color
  }

  /** A contrasting neighbour whose centre coincides with that of `e`: the
      distance kernel divides by zero on it. */
  predicate Clash(u: Ui, e: Name, n: Name)
    requires e in u.elements && n in u.elements
  {
    Contrasts(u, e, n) && Loc(u.elements[e]) == Loc(u.elements[n])
  }

  /** The contribution of one contrasting neighbour: one over the square root
      of the centre distance. */
  function Kernel(u: Ui, m: Maths, e: Name, n: Name): (r: Result<real>)
    requires e in u.elements && n in u.elements
    ensures r.Err? <==> Loc(u.elements[e]) == Loc(u.elements[n])
    ensures Sane(m) && r.Ok? ==> r.value > 0.0
  {
    var p, q := Loc(u.elements[e]), Loc(u.elements[n]);
    Dist2Zero(p, q);
    if p == q then Err(ZeroDivisionError)
    else
      assert Dist2(p, q) as real > 0.0;
      Ok(m.invSqrt(Distance(u, m, e, n)))
  }

  /** The bottom-up activation of `e` among the elements `others`: the sum of
      the kernel over its contrasting neighbours. */
  function Contrast(u: Ui, m: Maths, e: Name, others: seq<Name>): (r: Result<real>)
    requires e in u.elements
    requires forall n :: n in others ==> n in u.elements
    ensures r.Err? <==> exists n :: n in others && Clash(u, e, n)
    ensures (forall n :: n in others ==> !Contrasts(u, e, n)) ==> r == Ok(0.0)
    ensures Sane(m) && r.Ok? ==> r.value >= 0.0
    ensures Sane(m) && r.Ok? && (exists n :: n in others && Contrasts(u, e, n)) ==> r.value > 0.0
  {
    if |others| == 0 then Ok(0.0)
    else
      var n := others[0];
      assert forall x :: x in others[1..] ==> x in others;
      assert forall x :: x in others ==> x == n || x in others[1..];
      var here := if Contrasts(u, e, n) then Kernel(u, m, e, n) else Ok(0.0);
      if here.Err? then
        assert Clash(u, e, n);
        here
      else
        var rest :- Contrast(u, m, e, others[1..]);
        Ok(here.value + rest)
  }

  /** Two visible elements of different colours sit on the same centre. */
  ghost predicate VisibleClash(u: Ui, m: Maths, eye: Name)
    requires Locatable(u, eye)
  {
    exists a, b :: a in u.elements && b in u.elements && Clash(u, a, b)
      && Visible(u, m, eye, a) && Visible(u, m, eye, b)
  }

  /** Some entry of `a` carries the name `n`. */
  ghost predicate HasName(a: seq<Scored>, n: Name) {
    exists i :: 0 <= i < |a| && a[i].name == n
  }

  /** No two entries carry the same name: a dictionary's keys. */
  ghost predicate UniqueNames(a: seq<Scored>) {
    forall i, j :: 0 <= i < j < |a| ==> a[i].name != a[j].name
  }

  /** Each name of `todo` with its contrast among `vis`. */
  function ScoreAll(u: Ui, m: Maths, todo: seq<Name>, vis: seq<Name>): (r: Result<seq<Scored>>)
    requires forall n :: n in todo ==> n in u.elements
    requires forall n :: n in vis ==> n in u.elements
    ensures r.Err? <==> exists n :: n in todo && Contrast(u, m, n, vis).Err?
    ensures r.Ok? ==> |r.value| == |todo|
    ensures r.Ok? ==> forall i :: 0 <= i < |todo| ==>
              r.value[i].name == todo[i] && Contrast(u, m, todo[i], vis) == Ok(r.value[i].value)
  {
    if |todo| == 0 then Ok([])
    else
      var c := Contrast(u, m, todo[0], vis);
      ScoreAllHead(u, m, todo, vis);
      if c.Err? then Err(c.error)
      else
        var rest := ScoreAll(u, m, todo[1..], vis);
        if rest.Err? then Err(rest.error)
        else Ok([Scored(todo[0], c.value)] + rest.value)
  }

  /** Some name of `todo` clashes exactly when its first one does or one of
      the others does. */
  lemma ScoreAllHead(u: Ui, m: Maths, todo: seq<Name>, vis: seq<Name>)
    requires |todo| > 0
    requires forall n :: n in todo ==> n in u.elements
    requires forall n :: n in vis ==> n in u.elements
    ensures (exists n :: n in todo && Contrast(u, m, n, vis).Err?) <==>
            (Contrast(u, m, todo[0], vis).Err? || exists n :: n in todo[1..] && Contrast(u, m, n, vis).Err?)
  {
    assert forall x :: x in todo <==> x == todo[0] || x in todo[1..];
  }

  /** `a` is the bottom-up activation seen from `eye`: one entry per element,
      visible elements first, each visible one scored with its colour contrast
      among the visible elements and every other one with 0. */
  ghost predicate BottomUpScores(u: Ui, m: Maths, eye: Name, a: seq<Scored>)
    requires Indexed(u) && Locatable(u, eye)
  {
    var keys := VisibleFirst(u, m, eye);
    var vis := Sift(u, m, eye, u.order, true);
    && |a| == |keys|
    && (forall i :: 0 <= i < |a| ==> a[i].name == keys[i])
    && (forall i :: 0 <= i < |a| ==>
          && a[i].name in u.elements
          && if Visible(u, m, eye, a[i].name) then Contrast(u, m, a[i].name, vis) == Ok(a[i].value)
             else a[i].value == 0.0)
  }

  /** `bottom_up_activation`. With no elements the eye is never consulted. */
  function BottomUp(u: Ui, m: Maths, eye: Name): (r: Result<seq<Scored>>)
    requires Indexed(u)
    ensures |u.order| == 0 ==> r == Ok([])
    ensures |u.order| > 0 && eye !in u.elements ==> r == Err(KeyError)
    ensures |u.order| > 0 && eye in u.elements && u.userDistance == 0 ==> r == Err(ZeroDivisionError)
    ensures Locatable(u, eye) && |u.order| > 0 ==> (r.Err? <==> VisibleClash(u, m, eye))
    ensures Locatable(u, eye) && r.Ok? ==> BottomUpScores(u, m, eye, r.value)
    ensures r.Ok? ==> UniqueNames(r.value)
    ensures r.Ok? && Sane(m) ==> forall i :: 0 <= i < |r.value| ==> r.value[i].value >= 0.0
  {
    if |u.order| == 0 then Ok([])
    else if eye !in u.elements then Err(KeyError)
    else if u.userDistance == 0 then Err(ZeroDivisionError)
    else
      var vis := Sift(u, m, eye, u.order, true);
      var hid := Sift(u, m, eye, u.order, false);
      var scores := ScoreAll(u, m, vis, vis);
      if scores.Err? then
        ClashWitness(u, m, eye, vis);
        Err(scores.error)
      else
        var a := scores.value + Zeros(hid);
        NoClashAmongVisible(u, m, eye, vis);
        BottomUpShape(u, m, eye, vis, hid, scores.value, a);
        BottomUpScoresFacts(u, m, eye, a);
        Ok(a)
  }

  lemma ClashWitness(u: Ui, m: Maths, eye: Name, vis: seq<Name>)
    requires Indexed(u) && Locatable(u, eye)
    requires vis == Sift(u, m, eye, u.order, true)
    requires exists n :: n in vis && Contrast(u, m, n, vis).Err?
    ensures VisibleClash(u, m, eye)
  {
    var a :| a in vis && Contrast(u, m, a, vis).Err?;
    var b :| b in vis && Clash(u, a, b);
    assert Clash(u, a, b) && Visible(u, m, eye, a) && Visible(u, m, eye, b);
  }

  lemma NoClashAmongVisible(u: Ui, m: Maths, eye: Name, vis: seq<Name>)
    requires Indexed(u) && Locatable(u, eye)
    requires vis == Sift(u, m, eye, u.order, true)
    requires forall n :: n in vis ==> Contrast(u, m, n, vis).Ok?
    ensures !VisibleClash(u, m, eye)
  {
  }

  lemma BottomUpShape(u: Ui, m: Maths, eye: Name, vis: seq<Name>, hid: seq<Name>,
                      scores: seq<Scored>, a: seq<Scored>)
    requires Indexed(u) && Locatable(u, eye)
    requires vis == Sift(u, m, eye, u.order, true) && hid == Sift(u, m, eye, u.order, false)
    requires |scores| == |vis|
    requires forall i :: 0 <= i < |vis| ==>
               scores[i].name == vis[i] && Contrast(u, m, vis[i], vis) == Ok(scores[i].value)
    requires a == scores + Zeros(hid)
    ensures BottomUpScores(u, m, eye, a)
  {
    var keys := VisibleFirst(u, m, eye);
    assert keys == vis + hid;
    assert forall n :: n in vis ==> n in u.elements && Visible(u, m, eye, n);
    assert forall n :: n in hid ==> n in u.elements && !Visible(u, m, eye, n);
    forall i | 0 <= i < |a|
      ensures a[i].name == keys[i] && a[i].name in u.elements
      ensures if Visible(u, m, eye, a[i].name) then Contrast(u, m, a[i].name, vis) == Ok(a[i].value)
              else a[i].value == 0.0
    {
      BottomUpEntry(u, m, eye, vis, hid, scores, a, i);
    }
  }

  /** A bottom-up activation has one entry per name, and with the sanity
      facts no entry is negative. */
  lemma BottomUpScoresFacts(u: Ui, m: Maths, eye: Name, a: seq<Scored>)
    requires Indexed(u) && Locatable(u, eye)
    requires BottomUpScores(u, m, eye, a)
    ensures UniqueNames(a)
    ensures Sane(m) ==> forall i :: 0 <= i < |a| ==> a[i].value >= 0.0
  {
    var keys := VisibleFirst(u, m, eye);
    assert forall i :: 0 <= i < |a| ==> a[i].name == keys[i];
  }

  /** One entry of the bottom-up activation built from the visible scores
      followed by the zero entries of the hidden elements. */
  lemma BottomUpEntry(u: Ui, m: Maths, eye: Name, vis: seq<Name>, hid: seq<Name>,
                      scores: seq<Scored>, a: seq<Scored>, i: int)
    requires Locatable(u, eye)
    requires forall n :: n in vis ==> n in u.elements && Visible(u, m, eye, n)
    requires forall n :: n in hid ==> n in u.elements && !Visible(u, m, eye, n)
    requires |scores| == |vis|
    requires forall j :: 0 <= j < |vis| ==>
               scores[j].name == vis[j] && Contrast(u, m, vis[j], vis) == Ok(scores[j].value)
    requires a == scores + Zeros(hid)
    requires 0 <= i < |a|
    ensures a[i].name == (vis + hid)[i] && a[i].name in u.elements
    ensures if Visible(u, m, eye, a[i].name) then Contrast(u, m, a[i].name, vis) == Ok(a[i].value)
            else a[i].value == 0.0
  {
    var zs := Zeros(hid);
    AppendAt(scores, zs, i);
    AppendAt(vis, hid, i);
    if i < |vis| {
      assert vis[i] in vis;
    } else {
      assert hid[i - |vis|] in hid;
    }
  }


  /** Every name with activation 0. */
  function Zeros(names: seq<Name>): (r: seq<Scored>)
    ensures |r| == |names|
    ensures forall i :: 0 <= i < |names| ==> r[i] == Scored(names[i], 0.0)
  {
    seq(|names|, i requires 0 <= i < |names| => Scored(names[i], 0.0))
  }

  /** `top_down_activation` for the requested colour `feature`. */
  function TopDown(u: Ui, m: Maths, feature: Color, eye: Name): (r: Result<map<Name, real>>)
    requires Indexed(u)
    ensures |u.order| == 0 ==> r == Ok(map[])
    ensures |u.order| > 0 && eye !in u.elements ==> r == Err(KeyError)
    ensures |u.order| > 0 && eye in u.elements && u.userDistance == 0 ==> r == Err(ZeroDivisionError)
    ensures r.Ok? <==> |u.order| == 0 || Locatable(u, eye)
    ensures r.Ok? ==> r.value.Keys == u.elements.Keys
    ensures r.Ok? && |u.order| > 0 ==> forall n :: n in u.elements ==>
              && (r.value[n] == 0.5 <==> !Visible(u, m, eye, n))
              && (r.value[n] == 1.0 <==> Visible(u, m, eye, n) && u.elements[n].color == feature)
              && r.value[n] in {0.0, 0.5, 1.0}
  {
    if |u.order| == 0 then
      assert forall n :: n in u.elements ==> n in u.order;
      assert u.elements.Keys == {};
      Ok(map[])
    else if eye !in u.elements then Err(KeyError)
    else if u.userDistance == 0 then Err(ZeroDivisionError)
    else
      Ok(map n | n in u.elements ::
           if !Visible(u, m, eye, n) then 0.5
           else if u.elements[n].color == feature then 1.0
           else 0.0)
  }

  /** Python treats a requested colour as present when it is a non-empty string. */
  predicate Active(feature: Option<Color>) {
    feature.Some? && feature.value != ""
  }

  /** Each entry plus `w` times its top-down value. */
  function AddWeighted(a: seq<Scored>, td: map<Name, real>, w: real): (r: seq<Scored>)
    ensures |r| == |a|
    ensures forall i :: 0 <= i < |a| ==> r[i].name == a[i].name
    ensures forall i :: 0 <= i < |a| ==>
      r[i].value == a[i].value + (if a[i].name in td then w * td[a[i].name] else 0.0)
  {
    seq(|a|, i requires 0 <= i < |a| =>
      Scored(a[i].name, a[i].value + (if a[i].name in td then w * td[a[i].name] else 0.0)))
  }

  /** Each entry times `w`. */
  function Scale(a: seq<Scored>, w: real): (r: seq<Scored>)
    ensures |r| == |a|
    ensures forall i :: 0 <= i < |a| ==> r[i].name == a[i].name
  {
    seq(|a|, i requires 0 <= i < |a| => Scored(a[i].name, w * a[i].value))
  }

  /** `total_activation`: 1.1 times the bottom-up activation, plus 0.45 times
      the top-down activation when a colour is requested. The eye defaults to
      the surface's eye location. */
  function TotalActivation(u: Ui, m: Maths, feature: Option<Color>, eye: Option<Name>): (r: Result<seq<Scored>>)
    requires WellFormed(u)
    ensures var from := if eye.Some? then eye else u.eyeLoc;
      && (|u.order| == 0 ==> r == Ok([]))
      && (|u.order| > 0 ==>
            && from.Some?
            && (r.Err? <==> BottomUp(u, m, from.value).Err?)
            && (r.Ok? ==> TotalScores(u, m, feature, from.value, BottomUp(u, m, from.value).value, r.value)))
  {
    if |u.order| == 0 then Ok([])
    else
      var from := if eye.Some? then eye.value else u.eyeLoc.value;
      var bu :- BottomUp(u, m, from);
      var scaled := Scale(bu, 1.1);
      if Active(feature) then
        var td := TopDown(u, m, feature.value, from);
        var r := AddWeighted(scaled, td.value, 0.45);
        BottomUpKeys(u, m, from, bu);
        WeightedTotal(u, m, feature.value, from, bu, td.value, r);
        Ok(r)
      else Ok(scaled)
  }

  /** The names of a bottom-up activation are exactly the elements. */
  lemma BottomUpKeys(u: Ui, m: Maths, eye: Name, bu: seq<Scored>)
    requires Indexed(u) && BottomUp(u, m, eye) == Ok(bu)
    ensures |u.order| > 0 ==> Locatable(u, eye)
    ensures forall i :: 0 <= i < |bu| ==> bu[i].name in u.elements
    ensures forall n :: n in u.elements ==> HasName(bu, n)
  {
    if |u.order| > 0 {
      assert Locatable(u, eye);
      ScoresKeys(u, m, eye, bu);
    } else {
      assert forall n :: n in u.elements ==> n in u.order;
    }
  }

  /** Scores that fit the bottom-up description name every element and
      nothing else. */
  lemma ScoresKeys(u: Ui, m: Maths, eye: Name, bu: seq<Scored>)
    requires Indexed(u) && Locatable(u, eye) && BottomUpScores(u, m, eye, bu)
    ensures forall i :: 0 <= i < |bu| ==> bu[i].name in u.elements
    ensures forall n :: n in u.elements ==> HasName(bu, n)
  {
    NamesCover(bu, VisibleFirst(u, m, eye), u.elements.Keys);
  }

  /** Entries named after `keys`, in order, carry every name `keys` holds. */
  lemma NamesCover(bu: seq<Scored>, keys: seq<Name>, names: set<Name>)
    requires |bu| == |keys| && forall i :: 0 <= i < |bu| ==> bu[i].name == keys[i]
    requires forall n :: n in names ==> n in keys
    ensures forall n :: n in names ==> HasName(bu, n)
  {
    forall n | n in names ensures HasName(bu, n) {
      var i :| 0 <= i < |keys| && keys[i] == n;
      assert bu[i].name == n;
    }
  }

  lemma WeightedTotal(u: Ui, m: Maths, feature: Color, eye: Name, bu: seq<Scored>,
                      td: map<Name, real>, r: seq<Scored>)
    requires Indexed(u) && Locatable(u, eye) && |u.order| > 0
    requires TopDown(u, m, feature, eye) == Ok(td)
    requires forall i :: 0 <= i < |bu| ==> bu[i].name in u.elements
    requires r == AddWeighted(Scale(bu, 1.1), td, 0.45)
    ensures Active(Some(feature)) ==> TotalScores(u, m, Some(feature), eye, bu, r)
  {
    forall i | 0 <= i < |bu|
      ensures r[i].value - 1.1 * bu[i].value in {0.0, 0.225, 0.45}
      ensures r[i].value >= 1.1 * bu[i].value
      ensures r[i].value - 1.1 * bu[i].value == 0.45 <==>
                Visible(u, m, eye, bu[i].name) && u.elements[bu[i].name].color == feature
      ensures r[i].value - 1.1 * bu[i].value == 0.225 <==> !Visible(u, m, eye, bu[i].name)
    {
      var n := bu[i].name;
      assert n in td;
      assert r[i].value == 1.1 * bu[i].value + 0.45 * td[n];
    }
  }

  /** `t` is the total activation made from the bottom-up activation `bu`:
      the same keys; 1.1 times the bottom-up value alone when no colour is
      requested, and otherwise raised by 0.45 for a visible element of the
      requested colour, by 0.225 for an element out of sight, and not at all
      for a visible element of another colour. */
  ghost predicate TotalScores(u: Ui, m: Maths, feature: Option<Color>, eye: Name,
                              bu: seq<Scored>, t: seq<Scored>)
    requires Locatable(u, eye)
  {
    && |t| == |bu|
    && (forall i :: 0 <= i < |t| ==> t[i].name == bu[i].name)
    && (!Active(feature) ==> forall i :: 0 <= i < |t| ==> t[i].value == 1.1 * bu[i].value)
    && (Active(feature) ==> forall i :: 0 <= i < |t| && bu[i].name in u.elements ==>
          && t[i].value - 1.1 * bu[i].value in {0.0, 0.225, 0.45}
          && t[i].value >= 1.1 * bu[i].value
          && (t[i].value - 1.1 * bu[i].value == 0.45 <==>
                Visible(u, m, eye, bu[i].name) && u.elements[bu[i].name].color == feature.value)
          && (t[i].value - 1.1 * bu[i].value == 0.225 <==> !Visible(u, m, eye, bu[i].name)))
  }

  /** With the sanity facts, total activation is never negative. */
  lemma TotalActivationNonNegative(u: Ui, m: Maths, feature: Option<Color>, eye: Option<Name>)
    requires WellFormed(u) && Sane(m)
    requires TotalActivation(u, m, feature, eye).Ok?
    ensures forall x :: x in TotalActivation(u, m, feature, eye).value ==> x.value >= 0.0
  {
    var t := TotalActivation(u, m, feature, eye).value;
    if |u.order| > 0 {
      var from := if eye.Some? then eye.value else u.eyeLoc.value;
      var bu := BottomUp(u, m, from).value;
      forall x | x in t ensures x.value >= 0.0 {
        var i :| 0 <= i < |t| && t[i] == x;
        assert bu[i].value >= 0.0;
        assert bu[i].name in u.elements;
      }
    }
  }

  /** Entry by entry, `guided` names the same element as `plain` with a value
      at least as high. */
  ghost predicate NotLower(plain: seq<Scored>, guided: seq<Scored>) {
    && |plain| == |guided|
    && forall i :: 0 <= i < |plain| ==> plain[i].name == guided[i].name && plain[i].value <= guided[i].value
  }

  /** Requesting a colour never lowers an element's total activation. */
  lemma TopDownNeverLowers(u: Ui, m: Maths, feature: Color, eye: Option<Name>)
    requires WellFormed(u)
    requires TotalActivation(u, m, None, eye).Ok?
    ensures TotalActivation(u, m, Some(feature), eye).Ok?
    ensures NotLower(TotalActivation(u, m, None, eye).value, TotalActivation(u, m, Some(feature), eye).value)
  {
    if |u.order| > 0 {
      var from := if eye.Some? then eye.value else u.eyeLoc.value;
      var bu := BottomUp(u, m, from).value;
      var plain := TotalActivation(u, m, None, eye).value;
      var guided := TotalActivation(u, m, Some(feature), eye).value;
      BottomUpKeys(u, m, from, bu);
      GuidedAbovePlain(u, m, feature, from, bu, plain, guided);
    }
  }

  /** Scores built from the same bottom-up activation: the guided ones are
      never below the plain ones. */
  lemma GuidedAbovePlain(u: Ui, m: Maths, feature: Color, eye: Name, bu: seq<Scored>,
                         plain: seq<Scored>, guided: seq<Scored>)
    requires Locatable(u, eye)
    requires forall i :: 0 <= i < |bu| ==> bu[i].name in u.elements
    requires TotalScores(u, m, None, eye, bu, plain)
    requires TotalScores(u, m, Some(feature), eye, bu, guided)
    ensures NotLower(plain, guided)
  {
    forall i | 0 <= i < |plain|
      ensures plain[i].name == guided[i].name && plain[i].value <= guided[i].value
    {
      assert bu[i].name in u.elements;
      assert plain[i].value == 1.1 * bu[i].value;
    }
  }

  /** Inhibition of return: drop the entries of searched elements and keep the
      others in their order. */
  function Inhibit(a: seq<Scored>, searched: seq<Name>): (r: seq<Scored>)
    ensures |r| <= |a|
    ensures forall x :: x in r <==> x in a && x.name !in searched
    ensures UniqueNames(a) ==> UniqueNames(r)
    ensures Subseq(r, a)
  {
    if |a| == 0 then []
    else
      var rest := Inhibit(a[1..], searched);
      InhibitHead(a, searched, rest);
      (if a[0].name in searched then [] else [a[0]]) + rest
  }

  /** The guarantees of inhibition carry over from the tail to the whole. */
  lemma InhibitHead(a: seq<Scored>, searched: seq<Name>, rest: seq<Scored>)
    requires |a| > 0
    requires forall x :: x in rest <==> x in a[1..] && x.name !in searched
    requires UniqueNames(a[1..]) ==> UniqueNames(rest)
    requires Subseq(rest, a[1..])
    ensures var r := (if a[0].name in searched then [] else [a[0]]) + rest;
      && (forall x :: x in r <==> x in a && x.name !in searched)
      && (UniqueNames(a) ==> UniqueNames(r))
      && Subseq(r, a)
  {
    SubseqCons(a[0], a[0].name !in searched, rest, a[1..]);
    assert [a[0]] + a[1..] == a;
    assert forall x :: x in a <==> x == a[0] || x in a[1..];
    if UniqueNames(a) {
      assert UniqueNames(a[1..]);
      forall x | x in rest ensures x.name != a[0].name {
        var k :| 0 <= k < |a[1..]| && a[1..][k] == x;
        assert a[k + 1] == x;
      }
    }
  }

  /** Position of the strongest entry: Python's `max` over the items, which
      keeps the first of equal maxima. */
  function StrongestIndex(a: seq<Scored>): (k: nat)
    requires |a| > 0
    ensures k < |a|
    ensures forall i :: 0 <= i < |a| ==> a[i].value <= a[k].value
    ensures forall i :: 0 <= i < k ==> a[i].value < a[k].value
  {
    FirstMaxIndex(Values(a))
  }

  /** The top-down value the guided search adds to the activation of `n`:
      the top-down activation for a requested colour, nothing otherwise. */
  ghost function Boost(u: Ui, m: Maths, eye: Name, feature: Option<Color>, n: Name): real
    requires Indexed(u)
  {
    if !Active(feature) then 0.0
    else
      var td := TopDown(u, m, feature.value, eye);
      if td.Ok? && n in td.value then td.value[n] else 0.0
  }

  /** `x` is an entry of the bottom-up activation `bu` raised by its boost. */
  ghost predicate Boosted(u: Ui, m: Maths, eye: Name, feature: Option<Color>, bu: seq<Scored>, x: Scored)
    requires Indexed(u)
  {
    exists i :: 0 <= i < |bu| && bu[i].name == x.name && x.value == bu[i].value + Boost(u, m, eye, feature, x.name)
  }

  /** The activation the guided search ranks: bottom-up activation seen from
      `eye`, plus (unweighted) top-down activation for a requested colour,
      with the searched elements inhibited and the others left in the
      bottom-up order. */
  function Candidates(u: Ui, m: Maths, eye: Name, feature: Option<Color>, searched: seq<Name>): (r: Result<seq<Scored>>)
    requires Indexed(u)
    ensures r.Err? <==> BottomUp(u, m, eye).Err?
    ensures r.Ok? ==> RanksUnsearched(u, searched, r.value)
    ensures r.Ok? ==> Subseq(Names(r.value), Names(BottomUp(u, m, eye).value))
    ensures r.Ok? ==> forall x :: x in r.value ==> Boosted(u, m, eye, feature, BottomUp(u, m, eye).value, x)
  {
    var bu :- BottomUp(u, m, eye);
    var act := Raised(u, m, eye, feature, bu);
    CandidatesRank(u, m, eye, feature, searched, bu);
    CandidatesOrder(u, m, eye, feature, searched, bu);
    BoostedEntries(u, m, eye, feature, bu, act, Inhibit(act, searched));
    Ok(Inhibit(act, searched))
  }

  /** The bottom-up activation with the top-down activation of a requested
      colour added to it. */
  function Raised(u: Ui, m: Maths, eye: Name, feature: Option<Color>, bu: seq<Scored>): (act: seq<Scored>)
    requires Indexed(u)
    ensures |act| == |bu|
    ensures forall i :: 0 <= i < |bu| ==> act[i].name == bu[i].name
  {
    var td := if Active(feature) then TopDown(u, m, feature.value, eye) else Ok(map[]);
    if Active(feature) && td.Ok? then AddWeighted(bu, td.value, 1.0) else bu
  }

  lemma CandidatesRank(u: Ui, m: Maths, eye: Name, feature: Option<Color>, searched: seq<Name>, bu: seq<Scored>)
    requires Indexed(u) && BottomUp(u, m, eye) == Ok(bu)
    ensures RanksUnsearched(u, searched, Inhibit(Raised(u, m, eye, feature, bu), searched))
  {
    BottomUpKeys(u, m, eye, bu);
    var act := Raised(u, m, eye, feature, bu);
    SameNames(u, bu, act);
    InhibitRanks(u, act, searched);
  }

  lemma CandidatesOrder(u: Ui, m: Maths, eye: Name, feature: Option<Color>, searched: seq<Name>, bu: seq<Scored>)
    requires Indexed(u)
    ensures Subseq(Names(Inhibit(Raised(u, m, eye, feature, bu), searched)), Names(bu))
  {
    var act := Raised(u, m, eye, feature, bu);
    assert Names(act) == Names(bu);
    SubseqNames(Inhibit(act, searched), act);
  }

  /** A subsequence of entries has a subsequence of names. */
  lemma {:induction false} SubseqNames(s: seq<Scored>, t: seq<Scored>)
    requires Subseq(s, t)
    ensures Subseq(Names(s), Names(t))
    decreases |t|
  {
    if |s| > 0 && |t| > 0 {
      assert Names(t)[1..] == Names(t[1..]);
      if s[0] == t[0] && Subseq(s[1..], t[1..]) {
        SubseqNames(s[1..], t[1..]);
        assert Names(s)[1..] == Names(s[1..]);
      } else {
        SubseqNames(s, t[1..]);
      }
    }
  }

  /** Every entry kept from the raised activation is a raised bottom-up entry. */
  lemma BoostedEntries(u: Ui, m: Maths, eye: Name, feature: Option<Color>,
                       bu: seq<Scored>, act: seq<Scored>, c: seq<Scored>)
    requires Indexed(u)
    requires act == Raised(u, m, eye, feature, bu)
    requires forall x :: x in c ==> x in act
    ensures forall x :: x in c ==> Boosted(u, m, eye, feature, bu, x)
  {
    forall x | x in c ensures Boosted(u, m, eye, feature, bu, x) {
      var i :| 0 <= i < |act| && act[i] == x;
      RaisedEntry(u, m, eye, feature, bu, act, i);
    }
  }

  lemma RaisedEntry(u: Ui, m: Maths, eye: Name, feature: Option<Color>,
                    bu: seq<Scored>, act: seq<Scored>, i: int)
    requires Indexed(u)
    requires act == Raised(u, m, eye, feature, bu)
    requires 0 <= i < |act|
    ensures bu[i].name == act[i].name && act[i].value == bu[i].value + Boost(u, m, eye, feature, bu[i].name)
  {
    if Active(feature) && TopDown(u, m, feature.value, eye).Ok? {
      var td := TopDown(u, m, feature.value, eye).value;
      var n := bu[i].name;
      assert act[i].value == bu[i].value + (if n in td then 1.0 * td[n] else 0.0);
      assert Boost(u, m, eye, feature, n) == if n in td then td[n] else 0.0;
    }
  }

  /** `c` ranks exactly the unsearched elements, each once. */
  ghost predicate RanksUnsearched(u: Ui, searched: seq<Name>, c: seq<Scored>) {
    && UniqueNames(c)
    && (forall x :: x in c ==> x.name in u.elements && x.name !in searched)
    && (forall n :: n in u.elements && n !in searched ==> HasName(c, n))
  }

  lemma InhibitRanks(u: Ui, act: seq<Scored>, searched: seq<Name>)
    requires UniqueNames(act)
    requires forall x :: x in act ==> x.name in u.elements
    requires forall n :: n in u.elements ==> HasName(act, n)
    ensures RanksUnsearched(u, searched, Inhibit(act, searched))
  {
    InhibitCovers(act, searched);
  }

  /** Entries carrying the names of `bu`, which are unique and exactly the elements. */
  lemma SameNames(u: Ui, bu: seq<Scored>, act: seq<Scored>)
    requires UniqueNames(bu) && |act| == |bu|
    requires forall i :: 0 <= i < |bu| ==> act[i].name == bu[i].name
    requires forall i :: 0 <= i < |bu| ==> bu[i].name in u.elements
    requires forall n :: n in u.elements ==> HasName(bu, n)
    ensures UniqueNames(act)
    ensures forall x :: x in act ==> x.name in u.elements
    ensures forall n :: n in u.elements ==> HasName(act, n)
  {
    forall x | x in act ensures x.name in u.elements {
      var i :| 0 <= i < |act| && act[i] == x;
    }
  }

  /** Inhibition keeps every name it is not told to drop. */
  lemma {:induction false} InhibitCovers(a: seq<Scored>, searched: seq<Name>)
    ensures forall n :: n !in searched && HasName(a, n) ==> HasName(Inhibit(a, searched), n)
  {
    var r := Inhibit(a, searched);
    forall n | n !in searched && HasName(a, n)
      ensures HasName(r, n)
    {
      var i :| 0 <= i < |a| && a[i].name == n;
      assert a[i] in r;
      var k :| 0 <= k < |r| && r[k] == a[i];
    }
  }
}

=== FILE: board.dfy ===
/** The stimulus boards of the learning decision task (`decision2.py`): the
    class-balanced randomiser `randomise_decision_ui` and the rule by which
    `simulate_decision_task` decides the right answer for given values.
    Every random number is an explicit draw. */
module Board {
  import opened Wrappers
  import opened Numerics
  import opened Seqs
  import opened Layout

  /** `random.randint(lo, hi)` when the generator yields `p`: a value of the
      closed range, or ValueError when the range is empty. */
  function RandInt(lo: int, hi: int, p: nat): (r: Result<int>)
    ensures r.Ok? <==> lo <= hi
    ensures r.Ok? ==> lo <= r.value <= hi
  {
    if lo > hi then Err(ValueError) else Ok(lo + p % (hi - lo + 1))
  }

  /** Every value of the range is drawn by some generator output. */
  lemma RandIntOnto(lo: int, hi: int, v: int)
    requires lo <= v <= hi
    ensures RandInt(lo, hi, v - lo) == Ok(v)
  {
  }

  /** `random.sample(pool, k)`: `k` distinct picks, each taken out of what is
      left of the pool; ValueError when `k` is negative or exceeds the pool. */
  function Sample(pool: seq<Name>, k: int, draw: nat -> nat, i: nat): (r: Result<seq<Name>>)
    ensures r.Ok? <==> 0 <= k <= |pool|
    ensures r.Ok? ==> |r.value| == k
    ensures r.Ok? ==> forall x :: x in r.value ==> x in pool
    decreases |pool|
  {
    if k < 0 || k > |pool| then Err(ValueError)
    else if k == 0 then Ok([])
    else
      var j := draw(i) % |pool|;
      var rest := pool[..j] + pool[j + 1..];
      DropAt(pool, j);
      var tail := Sample(rest, k - 1, draw, i + 1);
      if tail.Err? then Err(ValueError)
      else Ok([pool[j]] + tail.value)
  }

  /** A sample of a duplicate-free pool has no duplicates. */
  lemma {:induction false} SampleDistinct(pool: seq<Name>, k: int, draw: nat -> nat, i: nat)
    requires Distinct(pool)
    requires Sample(pool, k, draw, i).Ok?
    ensures Distinct(Sample(pool, k, draw, i).value)
    decreases |pool|
  {
    if k > 0 {
      var j := draw(i) % |pool|;
      var rest := pool[..j] + pool[j + 1..];
      DropAt(pool, j);
      SampleDistinct(rest, k - 1, draw, i + 1);
      DistinctConcat([pool[j]], Sample(rest, k - 1, draw, i + 1).value);
    }
  }

  /** Taking one entry out of a sequence. */
  lemma DropAt(pool: seq<Name>, j: nat)
    requires j < |pool|
    ensures forall x :: x in pool[..j] + pool[j + 1..] ==> x in pool
    ensures Distinct(pool) ==> Distinct(pool[..j] + pool[j + 1..]) && pool[j] !in pool[..j] + pool[j + 1..]
  {
    var rest := pool[..j] + pool[j + 1..];
    assert forall i :: 0 <= i < |rest| ==> rest[i] == if i < j then pool[i] else pool[i + 1];
  }

  /** A value the randomiser gives the elements of the majority side:
      `randint(51, 99)/100`, painted green (grey without colours). */
  ghost predicate High(e: Element, colours: bool) {
    && 0.51 <= e.data <= 0.99
    && e.color == (if colours then "green" else "grey")
  }

  /** A value of the other side: `randint(1, 49)/100`, painted red (grey
      without colours). */
  ghost predicate Low(e: Element, colours: bool) {
    && 0.01 <= e.data <= 0.49
    && e.color == (if colours then "red" else "grey")
  }

  /** `f` is `e` with at most its colour and value changed. */
  ghost predicate Restyled(e: Element, f: Element) {
    f == e.(color := f.color, data := f.data)
  }

  function Painted(e: Element, colours: bool, high: bool, k: int): Element {
    e.(color := if !colours then "grey" else if high then "green" else "red", data := k as real / 100.0)
  }

  /** The loop over the sample: each sampled element gets a high value. */
  function MarkHigh(els: map<Name, Element>, chosen: seq<Name>, colours: bool, draw: nat -> nat, i: nat)
    : (r: map<Name, Element>)
    requires forall n :: n in chosen ==> n in els
    ensures r.Keys == els.Keys
    ensures forall n :: n in els && n in chosen ==> High(r[n], colours) && Restyled(els[n], r[n])
    ensures forall n :: n in els && n !in chosen ==> r[n] == els[n]
    decreases |chosen|
  {
    if |chosen| == 0 then els
    else
      var n := chosen[0];
      var k := RandInt(51, 99, draw(i)).value;
      assert forall x :: x in chosen[1..] ==> x in chosen;
      MarkHigh(els[n := Painted(els[n], colours, true, k)], chosen[1..], colours, draw, i + 1)
  }

  /** The closing loop: every element whose value is still below 0.5 gets a
      low value. */
  function MarkLow(els: map<Name, Element>, names: seq<Name>, colours: bool, draw: nat -> nat, i: nat)
    : (r: map<Name, Element>)
    requires forall n :: n in names ==> n in els
    ensures r.Keys == els.Keys
    ensures forall n :: n in els && n in names && els[n].data < 0.5 ==> Low(r[n], colours) && Restyled(els[n], r[n])
    ensures forall n :: n in els && (n !in names || els[n].data >= 0.5) ==> r[n] == els[n]
    decreases |names|
  {
    if |names| == 0 then els
    else
      var n := names[0];
      var k := RandInt(1, 49, draw(i)).value;
      var next := if els[n].data < 0.5 then els[n := Painted(els[n], colours, false, k)] else els;
      assert forall x :: x in names[1..] ==> x in names;
      var r := MarkLow(next, names[1..], colours, draw, i + 1);
      MarkLowCons(els, names, colours, k, next, r);
      r
  }

  /** One step of the closing loop: marking the first name (when its value is
      low) and then the rest marks every low name of the whole list. */
  lemma MarkLowCons(els: map<Name, Element>, names: seq<Name>, colours: bool, k: int,
                    next: map<Name, Element>, r: map<Name, Element>)
    requires |names| > 0 && forall n :: n in names ==> n in els
    requires 1 <= k <= 49
    requires next == if els[names[0]].data < 0.5 then els[names[0] := Painted(els[names[0]], colours, false, k)] else els
    requires r.Keys == next.Keys
    requires forall n :: n in next && n in names[1..] && next[n].data < 0.5 ==> Low(r[n], colours) && Restyled(next[n], r[n])
    requires forall n :: n in next && (n !in names[1..] || next[n].data >= 0.5) ==> r[n] == next[n]
    ensures r.Keys == els.Keys
    ensures forall n :: n in els && n in names && els[n].data < 0.5 ==> Low(r[n], colours) && Restyled(els[n], r[n])
    ensures forall n :: n in els && (n !in names || els[n].data >= 0.5) ==> r[n] == els[n]
  {
    forall n | n in els && n in names && els[n].data < 0.5
      ensures Low(r[n], colours) && Restyled(els[n], r[n])
    {
      if n == names[0] {
        assert Low(next[n], colours);
      } else {
        assert n in names[1..];
      }
    }
    forall n | n in els && (n !in names || els[n].data >= 0.5)
      ensures r[n] == els[n]
    {
      if n != names[0] {
        assert n !in names[1..] || next[n].data >= 0.5;
      }
    }
  }

  /** The random draws of one call of the randomiser: the answer, the size of
      the majority side, the sample, and the values of both sides. */
  datatype Draws = Draws(answer: nat, greens: nat, sample: nat -> nat, high: nat -> nat, low: nat -> nat)

  /** A board and the answer that is right for it (1 accept, 0 reject). */
  datatype Trial = Trial(ui: Ui, correctAnswer: int)

  /** The range the number of high elements is drawn from:
      `[round(n/2)+1, n-1]` for answer 1 and `[0, round(n/2)-1]` for 0. */
  function GreensRange(n: nat, answer: int): (int, int) {
    if answer == 1 then (RoundHalf(n) + 1, n - 1) else (0, RoundHalf(n) - 1)
  }

  /** The elements whose value counts as high. */
  function HighNames(els: map<Name, Element>): set<Name> {
    set n | n in els && els[n].data >= 0.5
  }

  /** The two painting loops of the randomiser, after every value was set
      to 0: the sample becomes the high side and everything else the low
      side. */
  /** Every element with its value set to 0. */
  function Zeroed(els: map<Name, Element>): (r: map<Name, Element>)
    ensures r.Keys == els.Keys
    ensures forall e :: e in els ==> r[e] == els[e].(data := 0.0)
  {
    map e | e in els :: els[e].(data := 0.0)
  }

  function PaintBoard(u: Ui, colours: bool, s: seq<Name>, d: Draws): (els: map<Name, Element>)
    requires Indexed(u)
    requires Distinct(s) && forall x :: x in s ==> x in u.elements
    ensures els.Keys == u.elements.Keys
    ensures forall n :: n in u.elements ==> Restyled(u.elements[n], els[n])
    ensures forall n :: n in u.elements ==>
      (High(els[n], colours) && els[n].data >= 0.5) || (Low(els[n], colours) && els[n].data < 0.5)
    ensures HighNames(els) == set x | x in s
    ensures |HighNames(els)| == |s|
  {
    var zeroed := Zeroed(u.elements);
    var high := MarkHigh(zeroed, s, colours, d.high, 0);
    var els := MarkLow(high, u.order, colours, d.low, 0);
    RandomiseCount(u, zeroed, s, high, els, colours);
    els
  }

  /** `randomise_decision_ui`: draw the answer, the number of high elements
      from its range, which elements they are, and every value. Only the
      colours and values of the elements change. */
  function Randomise(u: Ui, colours: bool, d: Draws): (r: Result<Trial>)
    requires Indexed(u)
    ensures var (lo, hi) := GreensRange(|u.order|, d.answer % 2);
      r.Ok? <==> lo <= hi
    ensures r.Ok? ==> r.value.correctAnswer == d.answer % 2
    ensures r.Ok? ==> r.value.ui == u.(elements := r.value.ui.elements)
    ensures r.Ok? ==> r.value.ui.elements.Keys == u.elements.Keys
    ensures r.Ok? ==> forall n :: n in u.elements ==> Restyled(u.elements[n], r.value.ui.elements[n])
    ensures r.Ok? ==> forall n :: n in u.elements ==>
      var e := r.value.ui.elements[n];
      (High(e, colours) && e.data >= 0.5) || (Low(e, colours) && e.data < 0.5)
    ensures r.Ok? ==> var (lo, hi) := GreensRange(|u.order|, d.answer % 2);
      lo <= |HighNames(r.value.ui.elements)| <= hi
  {
    var (lo, hi) := GreensRange(|u.order|, d.answer % 2);
    var greens := RandInt(lo, hi, d.greens);
    if greens.Err? then Err(ValueError)
    else
      RoundHalfBelow(|u.order|);
      var s := Sample(u.order, greens.value, d.sample, 0);
      if s.Err? then Err(ValueError)
      else
        SampleDistinct(u.order, greens.value, d.sample, 0);
        Ok(Trial(u.(elements := PaintBoard(u, colours, s.value, d)), d.answer % 2))
  }

  /** `round(n/2)` never exceeds `n`. */
  lemma RoundHalfBelow(n: nat)
    ensures 0 <= RoundHalf(n) <= n
  {
  }

  /** After the two loops the high elements are exactly the sample. */
  lemma RandomiseCount(u: Ui, zeroed: map<Name, Element>, s: seq<Name>, high: map<Name, Element>,
                       els: map<Name, Element>, colours: bool)
    requires Indexed(u)
    requires zeroed == Zeroed(u.elements)
    requires Distinct(s) && forall x :: x in s ==> x in u.elements
    requires high.Keys == zeroed.Keys
    requires forall e :: e in zeroed && e in s ==> High(high[e], colours) && Restyled(zeroed[e], high[e])
    requires forall e :: e in zeroed && e !in s ==> high[e] == zeroed[e]
    requires els.Keys == high.Keys
    requires forall e :: e in high && e in u.order && high[e].data < 0.5 ==>
      Low(els[e], colours) && Restyled(high[e], els[e])
    requires forall e :: e in high && (e !in u.order || high[e].data >= 0.5) ==> els[e] == high[e]
    ensures els.Keys == u.elements.Keys
    ensures forall n :: n in u.elements ==> Restyled(u.elements[n], els[n])
    ensures forall n :: n in u.elements ==>
      (High(els[n], colours) && els[n].data >= 0.5) || (Low(els[n], colours) && els[n].data < 0.5)
    ensures HighNames(els) == set x | x in s
    ensures |HighNames(els)| == |s|
  {
    RandomisedElements(u, zeroed, s, high, els, colours);
    HighNamesAreSample(els, s);
  }

  /** Element by element: the sampled ones end high, every other one low. */
  lemma RandomisedElements(u: Ui, zeroed: map<Name, Element>, s: seq<Name>, high: map<Name, Element>,
                           els: map<Name, Element>, colours: bool)
    requires Indexed(u)
    requires zeroed == Zeroed(u.elements)
    requires forall x :: x in s ==> x in u.elements
    requires high.Keys == zeroed.Keys
    requires forall e :: e in zeroed && e in s ==> High(high[e], colours) && Restyled(zeroed[e], high[e])
    requires forall e :: e in zeroed && e !in s ==> high[e] == zeroed[e]
    requires els.Keys == high.Keys
    requires forall e :: e in high && e in u.order && high[e].data < 0.5 ==>
      Low(els[e], colours) && Restyled(high[e], els[e])
    requires forall e :: e in high && (e !in u.order || high[e].data >= 0.5) ==> els[e] == high[e]
    ensures els.Keys == u.elements.Keys
    ensures forall n :: n in u.elements ==> Restyled(u.elements[n], els[n])
    ensures forall n :: n in u.elements ==>
      (High(els[n], colours) && els[n].data >= 0.5) || (Low(els[n], colours) && els[n].data < 0.5)
    ensures forall e :: e in els ==> (els[e].data >= 0.5 <==> e in s)
  {
    forall n | n in u.elements
      ensures Restyled(u.elements[n], els[n])
      ensures (High(els[n], colours) && els[n].data >= 0.5) || (Low(els[n], colours) && els[n].data < 0.5)
      ensures els[n].data >= 0.5 <==> n in s
    {
      assert n in u.order;
    }
  }

  /** When exactly the names of a duplicate-free `s` carry high values, the
      high elements are `s`'s names and there are `|s|` of them. */
  lemma HighNamesAreSample(els: map<Name, Element>, s: seq<Name>)
    requires Distinct(s) && forall x :: x in s ==> x in els
    requires forall e :: e in els ==> (els[e].data >= 0.5 <==> e in s)
    ensures HighNames(els) == set x | x in s
    ensures |HighNames(els)| == |s|
  {
    DistinctCard(s);
  }

  /** With its range non-empty, the drawn number of high elements is a
      strict majority for answer 1 and a strict minority for answer 0. */
  lemma StrictMajority(n: nat, answer: int, greens: int)
    requires answer == 0 || answer == 1
    requires GreensRange(n, answer).0 <= greens <= GreensRange(n, answer).1
    ensures answer == 1 ==> 2 * greens > n
    ensures answer == 0 ==> 2 * greens < n
  {
  }

  /** Which ranges are non-empty: answer 1 needs at least four elements and
      answer 0 at least two, so the randomiser raises ValueError on smaller
      boards for the answers they cannot hold. */
  lemma GreensRangeFeasible(n: nat)
    ensures GreensRange(n, 1).0 <= GreensRange(n, 1).1 <==> n >= 4
    ensures GreensRange(n, 0).0 <= GreensRange(n, 0).1 <==> n >= 2
  {
    if n < 4 {
      assert RoundHalf(n) == [0, 0, 1, 2][n];
    }
  }

  /** The rule `simulate_decision_task` uses for given values: reject (0)
      when more than half of the elements are below 0.5, else accept (1).
      The count of elements is the divisor. */
  function AnswerFor(reds: nat, n: nat): (r: Result<int>)
    ensures n == 0 <==> r == Err(ZeroDivisionError)
    ensures r.Ok? ==> (r.value == 0 <==> 2 * reds > n) && (r.value == 1 <==> 2 * reds <= n)
  {
    if n == 0 then Err(ZeroDivisionError)
    else
      HalfTest(reds, n);
      if (reds as real) / (n as real) > 0.5 then Ok(0) else Ok(1)
  }

  /** The true-division test `reds/n > 0.5` on whole numbers. */
  lemma HalfTest(reds: nat, n: nat)
    requires n > 0
    ensures (reds as real) / (n as real) > 0.5 <==> 2 * reds > n
  {
    var q, nr, rr := (reds as real) / (n as real), n as real, reds as real;
    assert q * nr == rr;
    if q > 0.5 {
      Scale(0.5, q, nr);
      assert 0.5 * nr < rr;
      assert nr < 2.0 * rr;
    } else {
      Scale(q, 0.5, nr);
      assert rr <= 0.5 * nr;
      assert 2.0 * rr <= nr;
    }
  }

  /** Multiplying by a positive number keeps the order. */
  lemma Scale(a: real, b: real, c: real)
    requires a <= b && c > 0.0
    ensures a * c <= b * c
    ensures a < b ==> a * c < b * c
  {
  }

  /** The low elements of a board. */
  function LowNames(els: map<Name, Element>): set<Name> {
    set n | n in els && els[n].data < 0.5
  }

  /** A randomised board and the answer rule agree: applying the rule to the
      values the randomiser drew gives back the answer it drew. */
  lemma RandomisedAnswerAgrees(u: Ui, colours: bool, d: Draws)
    requires Indexed(u)
    requires Randomise(u, colours, d).Ok?
    ensures var t := Randomise(u, colours, d).value;
      AnswerFor(|LowNames(t.ui.elements)|, |u.order|) == Ok(t.correctAnswer)
  {
    var t := Randomise(u, colours, d).value;
    OrderSize(u);
    BoardAnswer(|u.order|, t.ui.elements, d.answer % 2);
  }

  /** On a board of `n` elements whose high side was drawn from the range of
      `answer`, the answer rule gives `answer` back. */
  lemma BoardAnswer(n: nat, els: map<Name, Element>, answer: int)
    requires answer == 0 || answer == 1
    requires |els.Keys| == n
    requires GreensRange(n, answer).0 <= |HighNames(els)| <= GreensRange(n, answer).1
    ensures AnswerFor(|LowNames(els)|, n) == Ok(answer)
  {
    assert LowNames(els) == els.Keys - HighNames(els);
    assert |LowNames(els)| == n - |HighNames(els)|;
    StrictMajority(n, answer, |HighNames(els)|);
  }
}

=== FILE: episode.dfy ===
/** Episodes of the learning decision agent (`decision2.py`): `clear`, the
    agent's creation, the evaluation run of `simulate_decision_task` with its
    optional board override, and the 100-step cap. */
module Episode {
  import opened Wrappers
  import opened Numerics
  import opened Seqs
  import opened Layout
  import opened QTable
  import opened Board
  import opened Agent

  /** The visual matrix of a new episode: every element unseen. */
  function Unseen(names: set<Name>): (v: Visual)
    ensures v.Keys == names
    ensures forall n :: n in v ==> v[n] == Seen(false, None)
  {
    map n | n in names :: Seen(false, None)
  }

  /** An agent at the start of an episode: nothing seen, the eye on an
      element and the scanpath holding only it, no time spent, nothing to
      learn from. */
  ghost predicate Fresh(a: Agent) {
    && Valid(a)
    && a.gaze.visual == Unseen(a.ui.elements.Keys)
    && a.gaze.eye in a.ui.elements
    && a.gaze.scanpath == [a.gaze.eye]
    && a.clock == Clock(0.0, 0.0, false)
    && a.mem.current == a.gaze.visual
    && a.mem.previousState.None? && a.mem.previousAction.None? && a.mem.action.None?
  }

  /** `clear` on the parts it reads: a fresh board, an unseen visual matrix,
      the eye on the element `pick` selects, the clock at zero, and the
      unseen state entered into the table. The last reward stays, as
      `clear` in `decision2.py` never resets it. */
  function Begin(s: Settings, q: Table, u: Ui, reward: real, d: Draws, pick: nat): (r: Result<Agent>)
    requires Indexed(u) && TableOver(q, s.actions)
    ensures r.Ok? <==> Randomise(u, s.colours, d).Ok?
    ensures r.Ok? ==> Fresh(r.value) && r.value.s == s && r.value.mem.reward == reward
    ensures r.Ok? ==> r.value.ui.order == u.order && r.value.ui.elements.Keys == u.elements.Keys
    ensures r.Ok? ==> r.value.ui == Randomise(u, s.colours, d).value.ui
    ensures r.Ok? ==> r.value.correctAnswer == d.answer % 2
    ensures r.Ok? ==> r.value.q == SetState(q, s.actions, Unseen(u.elements.Keys))
    ensures r.Ok? ==> r.value.gaze.eye == u.order[pick % |u.order|]
  {
    var t := Randomise(u, s.colours, d);
    if t.Err? then Err(ValueError)
    else
      GreensRangeFeasible(|u.order|);
      var visual := Unseen(u.elements.Keys);
      var eye := u.order[pick % |u.order|];
      SetStateIdempotent(q, s.actions, visual);
      var r := Agent(s, t.value.ui, t.value.correctAnswer, SetState(q, s.actions, visual),
                     Gaze(visual, eye, [eye]), Clock(0.0, 0.0, false), Memory(visual, None, None, None, reward));
      assert Indexed(r.ui);
      Ok(r)
  }

  /** `clear`: a new episode on a new board; the settings and what was
      learnt stay. */
  function Clear(a: Agent, d: Draws, pick: nat): (r: Result<Agent>)
    requires Valid(a)
    ensures r.Ok? <==> var (lo, hi) := GreensRange(|a.ui.order|, d.answer % 2); lo <= hi
    ensures r.Ok? ==> Fresh(r.value) && r.value.s == a.s
    ensures r.Ok? ==> r.value.ui.elements.Keys == a.ui.elements.Keys && r.value.ui.order == a.ui.order
    ensures r.Ok? ==> Randomise(a.ui, a.s.colours, d).Ok? && r.value.ui == Randomise(a.ui, a.s.colours, d).value.ui
    ensures r.Ok? ==> r.value.correctAnswer == d.answer % 2
    ensures r.Ok? ==> forall st :: st in a.q ==> st in r.value.q && r.value.q[st] == a.q[st]
    ensures r.Ok? ==> r.value.gaze.visual in r.value.q
    ensures r.Ok? ==> r.value.gaze.eye == a.ui.order[pick % |a.ui.order|] && r.value.mem.reward == a.mem.reward
  {
    Begin(a.s, a.q, a.ui, a.mem.reward, d, pick)
  }

  /** The rates and rewards a new agent starts with. */
  const CorrectReward: real := 20.0
  const IncorrectReward: real := 0.0
  const Alpha: real := 0.1
  const Epsilon: real := 0.1
  const Gamma: real := 0.9

  /** The agent's actions: every element, in board order, then the two
      answers. */
  function ActionsOf(u: Ui): (acts: seq<Action>)
    ensures |acts| == |u.order| + 2
    ensures acts[..|u.order|] == u.order
    ensures acts[|u.order|] == Accept && acts[|u.order| + 1] == Reject
  {
    u.order + [Accept, Reject]
  }

  /** `decision_task(ui, colours, time_cost)`: the settings of a new agent,
      an empty table, and a first episode. `decision2.py` sets no reward
      before the first step; it is 0.0 here and is never read before the
      first step sets it. */
  function NewAgent(u: Ui, colours: bool, timeCost: real, d: Draws, pick: nat): (r: Result<Agent>)
    requires WellFormed(u)
    ensures r.Ok? <==> var (lo, hi) := GreensRange(|u.order|, d.answer % 2); lo <= hi
    ensures r.Ok? ==> Fresh(r.value)
    ensures r.Ok? ==> r.value.s.actions == ActionsOf(u) && r.value.s.learning
    ensures r.Ok? ==> r.value.s.colours == colours && r.value.s.timeCost == timeCost && r.value.s.encodingPenalty == 0.0
    ensures r.Ok? ==>
      && r.value.s.correctReward == 20.0 && r.value.s.incorrectReward == 0.0
      && r.value.s.alpha == 0.1 && r.value.s.epsilon == 0.1 && r.value.s.gamma == 0.9
    ensures r.Ok? ==> r.value.s.startingLoc.Some? && NearestAmong(u, Point(0, 0), u.order, r.value.s.startingLoc.value)
    ensures r.Ok? ==> r.value.ui == Randomise(u, colours, d).value.ui && r.value.correctAnswer == d.answer % 2
    ensures r.Ok? ==> r.value.gaze.eye == u.order[pick % |u.order|] && r.value.mem.reward == 0.0
  {
    var start := ClosestElement(u, Point(0, 0), []);
    if start.Err? then Err(KeyError)
    else
      var s := Settings(colours, timeCost, 0.0, ActionsOf(u), start.value, true,
                        CorrectReward, IncorrectReward, Alpha, Epsilon, Gamma);
      Begin(s, map[], u, 0.0, d, pick)
  }

  /** A new agent's table holds only the unseen state, with every action at
      0.0. */
  lemma NewAgentTable(u: Ui, colours: bool, timeCost: real, d: Draws, pick: nat)
    requires WellFormed(u)
    requires NewAgent(u, colours, timeCost, d, pick).Ok?
    ensures var a := NewAgent(u, colours, timeCost, d, pick).value;
      && a.q.Keys == {a.gaze.visual}
      && RowOver(a.q[a.gaze.visual], a.s.actions)
      && forall x :: x in a.q[a.gaze.visual] ==> a.q[a.gaze.visual][x] == 0.0
  {
    var start := ClosestElement(u, Point(0, 0), []);
    var s := Settings(colours, timeCost, 0.0, ActionsOf(u), start.value, true,
                      CorrectReward, IncorrectReward, Alpha, Epsilon, Gamma);
    assert NewAgent(u, colours, timeCost, d, pick) == Begin(s, map[], u, 0.0, d, pick);
    var a := Begin(s, map[], u, 0.0, d, pick).value;
    assert a.q == SetState(map[], s.actions, Unseen(u.elements.Keys));
    FirstRow(a.q, s.actions, Unseen(u.elements.Keys));
  }

  /** Entering a state into an empty table gives a table of one zero row. */
  lemma FirstRow(q: Table, actions: seq<Action>, v: Visual)
    requires q == SetState(map[], actions, v)
    ensures q.Keys == {v} && RowOver(q[v], actions) && forall x :: x in q[v] ==> q[v][x] == 0.0
  {
  }

  // ---------------------------------------------------------------- runs

  /** Up to `k` greedy steps, stopping after the one that ends the episode:
      the loop of `simulate_decision_task`. The coin is 0.0, which never
      falls below a rate of zero. */
  function Run(a: Agent, m: Maths, k: nat): (r: Result<Agent>)
    requires Valid(a)
    ensures r.Ok? ==> Valid(r.value) && r.value.s == a.s && r.value.ui == a.ui && r.value.correctAnswer == a.correctAnswer
    ensures r.Ok? ==> a.gaze.scanpath <= r.value.gaze.scanpath
    ensures r.Ok? ==> |r.value.gaze.scanpath| <= |a.gaze.scanpath| + k
    ensures r.Ok? && !r.value.clock.terminal ==> |r.value.gaze.scanpath| == |a.gaze.scanpath| + k
    ensures r.Ok? && k > 0 ==> r.value.mem.action.Some?
    ensures r.Ok? && k > 0 && r.value.clock.terminal && !a.clock.terminal ==>
      && r.value.mem.action.value in a.s.actions
      && r.value.mem.action.value !in a.ui.elements
      && |r.value.gaze.scanpath| < |a.gaze.scanpath| + k
    ensures r.Ok? ==> forall n :: n in a.gaze.visual ==>
      n in r.value.gaze.visual && (a.gaze.visual[n].fixated ==> r.value.gaze.visual[n].fixated)
    ensures r.Ok? && !a.s.learning ==> forall st :: st in a.q ==> st in r.value.q && r.value.q[st] == a.q[st]
    decreases k
  {
    if k == 0 then Ok(a)
    else
      var b :- DoStep(a, m, 0.0, 0, None);
      SteppedValid(a, m, b);
      if b.clock.terminal then
        RunLast(a, m, b, k);
        Ok(b)
      else
        var r :- Run(b, m, k - 1);
        RunStep(a, m, b, r, k);
        Ok(r)
  }

  /** A run that ends with the step it takes: the step answered, so it is
      one of the actions and not an element, and the scanpath did not grow. */
  lemma RunLast(a: Agent, m: Maths, b: Agent, k: nat)
    requires Valid(a) && k > 0
    requires Stepped(a, m, b) && b.clock.terminal && b.mem.action.value in a.s.actions
    ensures a.gaze.scanpath <= b.gaze.scanpath && |b.gaze.scanpath| <= |a.gaze.scanpath| + k
    ensures !a.clock.terminal ==>
      b.mem.action.value !in a.ui.elements && |b.gaze.scanpath| < |a.gaze.scanpath| + k
    ensures forall n :: n in a.gaze.visual ==> n in b.gaze.visual && (a.gaze.visual[n].fixated ==> b.gaze.visual[n].fixated)
    ensures !a.s.learning ==> forall st :: st in a.q ==> st in b.q && b.q[st] == a.q[st]
  {
    if !a.s.learning {
      assert b.q == SetState(a.q, a.s.actions, a.gaze.visual);
    }
  }

  /** One step then the rest of a run: the guarantees compose. */
  lemma RunStep(a: Agent, m: Maths, b: Agent, r: Agent, k: nat)
    requires Valid(a) && k > 0
    requires Stepped(a, m, b) && !b.clock.terminal
    requires Valid(r) && r.s == b.s && r.ui == b.ui && r.correctAnswer == b.correctAnswer
    requires b.gaze.scanpath <= r.gaze.scanpath && |r.gaze.scanpath| <= |b.gaze.scanpath| + (k - 1)
    requires forall n :: n in b.gaze.visual ==> n in r.gaze.visual && (b.gaze.visual[n].fixated ==> r.gaze.visual[n].fixated)
    requires !b.s.learning ==> forall st :: st in b.q ==> st in r.q && r.q[st] == b.q[st]
    ensures b.mem.action.value in a.ui.elements
    ensures a.gaze.scanpath <= r.gaze.scanpath && |r.gaze.scanpath| <= |a.gaze.scanpath| + k
    ensures forall n :: n in a.gaze.visual ==> n in r.gaze.visual && (a.gaze.visual[n].fixated ==> r.gaze.visual[n].fixated)
    ensures !a.s.learning ==> forall st :: st in a.q ==> st in r.q && r.q[st] == a.q[st]
  {
    SteppedOn(a, m, b);
  }

  // ---------------------------------------------------------------- evaluation

  /** The names of an `element_values` dictionary, in its order. */
  function Keys(values: seq<(Name, real)>): (ks: seq<Name>)
    ensures |ks| == |values| && forall i :: 0 <= i < |values| ==> ks[i] == values[i].0
  {
    seq(|values|, i requires 0 <= i < |values| => values[i].0)
  }

  /** How many of the given values are below 0.5. */
  function Reds(values: seq<(Name, real)>): (c: nat)
    ensures c <= |values|
  {
    if |values| == 0 then 0
    else (if values[0].1 < 0.5 then 1 else 0) + Reds(values[1..])
  }

  /** The colour an overridden element shows: red below 0.5, else green;
      grey without colours. */
  function Shade(colours: bool, v: real): Color {
    if !colours then "grey" else if v < 0.5 then "red" else "green"
  }

  /** The element after its value is overridden. */
  function Overridden(e: Element, colours: bool, v: real): Element {
    e.(data := v, color := Shade(colours, v))
  }

  /** The loop of `simulate_decision_task` that writes the given values. */
  function SetValues(els: map<Name, Element>, colours: bool, values: seq<(Name, real)>): (r: Result<map<Name, Element>>)
    requires Distinct(Keys(values))
    ensures r.Ok? <==> forall i :: 0 <= i < |values| ==> values[i].0 in els
    ensures r.Ok? ==> r.value.Keys == els.Keys
    ensures r.Ok? ==> forall i :: 0 <= i < |values| ==>
      r.value[values[i].0] == Overridden(els[values[i].0], colours, values[i].1)
    ensures r.Ok? ==> forall n :: n in els && n !in Keys(values) ==> r.value[n] == els[n]
    decreases |values|
  {
    if |values| == 0 then Ok(els)
    else
      var (n, v) := values[0];
      assert Keys(values[1..]) == Keys(values)[1..];
      DistinctTail(Keys(values));
      if n !in els then Err(KeyError)
      else
        var rest :- SetValues(els[n := Overridden(els[n], colours, v)], colours, values[1..]);
        SetValuesStep(els, colours, values, rest);
        Ok(rest)
  }

  lemma SetValuesStep(els: map<Name, Element>, colours: bool, values: seq<(Name, real)>, rest: map<Name, Element>)
    requires |values| > 0 && Distinct(Keys(values)) && values[0].0 in els
    requires var e := els[values[0].0 := Overridden(els[values[0].0], colours, values[0].1)];
      && rest.Keys == e.Keys
      && (forall i :: 0 <= i < |values[1..]| ==>
            (values[1..][i].0 in e && rest[values[1..][i].0] == Overridden(e[values[1..][i].0], colours, values[1..][i].1)))
      && (forall n :: n in e && n !in Keys(values[1..]) ==> rest[n] == e[n])
    ensures forall i :: 0 <= i < |values| ==> values[i].0 in els
    ensures rest.Keys == els.Keys
    ensures forall i :: 0 <= i < |values| ==> rest[values[i].0] == Overridden(els[values[i].0], colours, values[i].1)
    ensures forall n :: n in els && n !in Keys(values) ==> rest[n] == els[n]
  {
    var ks := Keys(values);
    assert Keys(values[1..]) == ks[1..];
    DistinctTail(ks);
    forall i | 0 <= i < |values|
      ensures values[i].0 in els
      ensures rest[values[i].0] == Overridden(els[values[i].0], colours, values[i].1)
    {
      if i > 0 {
        assert values[i] == values[1..][i - 1];
        assert values[i].0 != values[0].0 by { assert ks[i] != ks[0]; }
      }
    }
    forall n | n in els && n !in ks
      ensures rest[n] == els[n]
    {
      assert n != ks[0];
    }
  }

  /** The override of `simulate_decision_task`: each given element takes its
      value and the colour of it, and the answer is 0 exactly when more than
      half of the board's elements were given a value below 0.5. A board
      without elements divides by zero. */
  function Override(u: Ui, colours: bool, values: seq<(Name, real)>): (r: Result<Trial>)
    requires Indexed(u) && Distinct(Keys(values))
    ensures r.Ok? <==> |u.order| > 0 && forall i :: 0 <= i < |values| ==> values[i].0 in u.elements
    ensures r.Ok? ==> r.value.ui == u.(elements := r.value.ui.elements) && r.value.ui.elements.Keys == u.elements.Keys
    ensures r.Ok? ==> forall i :: 0 <= i < |values| ==>
      r.value.ui.elements[values[i].0] == Overridden(u.elements[values[i].0], colours, values[i].1)
    ensures r.Ok? ==> forall n :: n in u.elements && n !in Keys(values) ==> r.value.ui.elements[n] == u.elements[n]
    ensures r.Ok? ==>
      && (r.value.correctAnswer == 0 <==> 2 * Reds(values) > |u.order|)
      && (r.value.correctAnswer == 1 <==> 2 * Reds(values) <= |u.order|)
  {
    var els :- SetValues(u.elements, colours, values);
    var answer := AnswerFor(Reds(values), |u.order|);
    if answer.Err? then Err(ZeroDivisionError)
    else Ok(Trial(u.(elements := els), answer.value))
  }

  /** The step cap of `simulate_decision_task`. */
  const StepCap: nat := 100

  /** The settings of an evaluation: no exploration and no learning. */
  function Evaluating(s: Settings): Settings {
    s.(epsilon := 0.0, learning := false)
  }

  /** How an evaluation ends. `simulate_decision_task` changes the agent
      object in place, so both outcomes carry the final agent. */
  datatype Evaluation = Answered(final: Agent) | Stuck(final: Agent)

  /** `simulate_decision_task` up to its verdict: a new episode without
      exploration or learning, the optional override, then at most 100
      greedy steps. It is stuck when 100 steps brought no answer: then every
      step was a fixation. */
  function Simulate(a: Agent, m: Maths, values: seq<(Name, real)>, d: Draws, pick: nat): (r: Result<Evaluation>)
    requires Valid(a) && Distinct(Keys(values))
    ensures r.Ok? ==> r.value.final.s == Evaluating(a.s) && r.value.final.ui.order == a.ui.order
    ensures r.Ok? ==> r.value.final.ui.elements.Keys == a.ui.elements.Keys
    ensures r.Ok? ==> (r.value.Answered? <==> r.value.final.clock.terminal)
    ensures r.Ok? && r.value.Answered? ==>
      var e := r.value.final;
      && e.mem.action.Some? && e.mem.action.value in a.s.actions && e.mem.action.value !in e.ui.elements
      && |e.gaze.scanpath| <= StepCap
    ensures r.Ok? && r.value.Stuck? ==> |r.value.final.gaze.scanpath| == StepCap + 1
    ensures r.Ok? && |values| == 0 ==> r.value.final.correctAnswer == d.answer % 2
    ensures r.Ok? && |values| > 0 ==>
      var e := r.value.final;
      && (e.correctAnswer == 0 <==> 2 * Reds(values) > |a.ui.order|)
      && (e.correctAnswer == 1 <==> 2 * Reds(values) <= |a.ui.order|)
    ensures r.Ok? ==> forall st :: st in a.q ==> st in r.value.final.q && r.value.final.q[st] == a.q[st]
  {
    var b :- Clear(a.(s := Evaluating(a.s)), d, pick);
    var c :- if |values| == 0 then Ok(b)
             else
               var t :- Override(b.ui, b.s.colours, values);
               Ok(b.(ui := t.ui, correctAnswer := t.correctAnswer));
    assert Valid(c);
    var e :- Run(c, m, StepCap);
    if e.clock.terminal then Ok(Answered(e)) else Ok(Stuck(e))
  }

  /** An agent whose actions are the elements and the two answers ends an
      answered evaluation by accepting or rejecting. */
  lemma AnswerIsAcceptOrReject(a: Agent, m: Maths, values: seq<(Name, real)>, d: Draws, pick: nat)
    requires Valid(a) && Distinct(Keys(values)) && a.s.actions == ActionsOf(a.ui)
    requires Simulate(a, m, values, d, pick).Ok? && Simulate(a, m, values, d, pick).value.Answered?
    ensures Simulate(a, m, values, d, pick).value.final.mem.action.value in {Accept, Reject}
  {
    var e := Simulate(a, m, values, d, pick).value.final;
    NotAnElement(a.ui, e.mem.action.value);
  }

  lemma NotAnElement(u: Ui, act: Action)
    requires Indexed(u) && act in ActionsOf(u) && act !in u.elements
    ensures act in {Accept, Reject}
  {
    assert act !in u.order;
  }
}

=== FILE: heuristic.dfy ===
/** The heuristic decision maker of `decision.py`: paint the surface from the
    stimulus values, then run a guided search from "e1" that looks for the
    rarer colour and stops as soon as one side holds a majority of the
    elements, or the looked-for colour has run out. */
module Heuristic {
  import opened Wrappers
  import opened Numerics
  import opened Seqs
  import opened Layout
  import opened Timing
  import opened Attention
  import opened Search

  /** The colour `reset_decision_ui` gives an element of value `v`. */
  function Paint(v: real, colored: bool): (c: Color)
    ensures !colored ==> c == "grey"
    ensures colored ==> (c == "green" <==> v > 0.0) && (c == "red" <==> v <= 0.0)
  {
    if !colored then "grey" else if v > 0.0 then "green" else "red"
  }

  /** The element once its value is attached and its colour painted. */
  function Painted(e: Element, v: real, colored: bool): Element {
    e.(data := v, color := Paint(v, colored))
  }

  /** The loop of `reset_decision_ui` over `names`. */
  function PaintAll(els: map<Name, Element>, names: seq<Name>, values: map<Name, real>, colored: bool)
    : (r: Result<map<Name, Element>>)
    requires forall n :: n in names ==> n in els
    ensures r.Ok? <==> forall n :: n in names ==> n in values
    ensures r.Err? ==> r.error == KeyError
    ensures r.Ok? ==> r.value.Keys == els.Keys
    ensures r.Ok? ==> forall n :: n in els ==>
      r.value[n] == if n in names then Painted(els[n], values[n], colored) else els[n]
  {
    if |names| == 0 then Ok(els)
    else if names[0] !in values then Err(KeyError)
    else
      var n0 := names[0];
      var els1 := els[n0 := Painted(els[n0], values[n0], colored)];
      assert forall n :: n in names[1..] ==> n in names;
      var r := PaintAll(els1, names[1..], values, colored);
      assert r.Ok? ==> forall n :: n in names ==> n in values by {
        if r.Ok? {
          forall n | n in names ensures n in values {
            if n != n0 {
              var i :| 0 <= i < |names| && names[i] == n;
              assert names[1..][i - 1] == n;
            }
          }
        }
      }
      r
  }

  /** `reset_decision_ui`: every element takes its stimulus value and is
      painted grey, or green for a positive value and red otherwise. A missing
      value raises KeyError; nothing but the elements changes. */
  function ResetDecisionUi(u: Ui, values: map<Name, real>, colored: bool): (r: Result<Ui>)
    requires Indexed(u)
    ensures r.Ok? <==> forall n :: n in u.elements ==> n in values
    ensures r.Err? ==> r.error == KeyError
    ensures r.Ok? ==> r.value == u.(elements := r.value.elements)
    ensures r.Ok? ==> r.value.elements.Keys == u.elements.Keys
    ensures r.Ok? ==> forall n :: n in u.elements ==>
      r.value.elements[n] == Painted(u.elements[n], values[n], colored)
  {
    var els :- PaintAll(u.elements, u.order, values, colored);
    Ok(u.(elements := els))
  }

  /** Painting again with the same values changes nothing. */
  lemma ResetIdempotent(u: Ui, values: map<Name, real>, colored: bool)
    requires Indexed(u)
    requires ResetDecisionUi(u, values, colored).Ok?
    ensures var u1 := ResetDecisionUi(u, values, colored).value;
      Indexed(u1) && ResetDecisionUi(u1, values, colored) == Ok(u1)
  {
    var u1 := ResetDecisionUi(u, values, colored).value;
    assert Indexed(u1);
    var u2 := ResetDecisionUi(u1, values, colored).value;
    RepaintedSame(u1.elements, u2.elements, values, colored);
  }

  /** Painting every element of an already painted map with the same values
      gives back the same map. */
  lemma RepaintedSame(els: map<Name, Element>, again: map<Name, Element>, values: map<Name, real>, colored: bool)
    requires again.Keys == els.Keys
    requires forall n :: n in els ==> n in values && els[n] == Painted(els[n], values[n], colored)
    requires forall n :: n in els ==> again[n] == Painted(els[n], values[n], colored)
    ensures again == els
  {
  }

  /** The elements painted green. */
  ghost function GreenNames(u: Ui): set<Name> {
    set n | n in u.elements && u.elements[n].color == "green"
  }

  /** The count of green elements in the element loop of `make_decision`. */
  function CountGreens(els: map<Name, Element>, names: seq<Name>): (c: nat)
    requires forall n :: n in names ==> n in els
    ensures c <= |names|
  {
    if |names| == 0 then 0
    else (if els[names[0]].color == "green" then 1 else 0) + CountGreens(els, names[1..])
  }

  /** Counting along the element order counts each green element once. */
  lemma {:induction false} CountGreensIsCount(u: Ui)
    requires Indexed(u)
    ensures CountGreens(u.elements, u.order) == |GreenNames(u)|
  {
    CountGreensIn(u.elements, u.order, GreenNames(u));
    CountInDistinct(u.order, GreenNames(u));
  }

  lemma {:induction false} CountGreensIn(els: map<Name, Element>, names: seq<Name>, gs: set<Name>)
    requires forall n :: n in names ==> n in els
    requires forall n :: n in els ==> (n in gs <==> els[n].color == "green")
    ensures CountGreens(els, names) == CountIn(names, gs)
  {
    if |names| > 0 {
      assert forall n :: n in names[1..] ==> n in names;
      CountGreensIn(els, names[1..], gs);
    }
  }

  /** The colour `make_decision` looks for: red when at least half of the
      `n` elements are green, nothing when none is, green otherwise. */
  function TopDownColor(greens: nat, n: nat): (r: Option<Color>)
    ensures r == Some("red") <==> 2 * greens >= n
    ensures r == None <==> 2 * greens < n && greens == 0
    ensures r == Some("green") <==> 0 < greens && 2 * greens < n
  {
    if 2 * greens >= n then Some("red") else if greens == 0 then None else Some("green")
  }

  /** On a surface painted only red and green, the colour looked for is the
      rarer one: at most half of the elements carry it. */
  lemma LooksForRarerColor(u: Ui)
    requires Indexed(u)
    requires forall n :: n in u.elements ==> u.elements[n].color == "green" || u.elements[n].color == "red"
    ensures var f := TopDownColor(CountGreens(u.elements, u.order), |u.order|);
      f.Some? ==> 2 * |set n | n in u.elements && u.elements[n].color == f.value| <= |u.order|
  {
    var f := TopDownColor(CountGreens(u.elements, u.order), |u.order|);
    CountGreensIsCount(u);
    OrderSize(u);
    var gs := GreenNames(u);
    if f == Some("red") {
      var rs := set n | n in u.elements && u.elements[n].color == "red";
      assert rs == u.elements.Keys - gs;
      assert gs <= u.elements.Keys;
      assert |u.elements.Keys - gs| == |u.elements.Keys| - |gs|;
    } else if f == Some("green") {
      assert (set n | n in u.elements && u.elements[n].color == f.value) == gs;
    }
  }

  /** Elements counted for (value above 0) and against. */
  function Pluses(values: map<Name, real>, chosen: seq<Name>): (c: nat)
    requires forall n :: n in chosen ==> n in values
    ensures c <= |chosen|
  {
    if |chosen| == 0 then 0
    else (if values[chosen[0]] > 0.0 then 1 else 0) + Pluses(values, chosen[1..])
  }

  function Minuses(values: map<Name, real>, chosen: seq<Name>): (c: nat)
    requires forall n :: n in chosen ==> n in values
    ensures c <= |chosen|
  {
    if |chosen| == 0 then 0
    else (if values[chosen[0]] <= 0.0 then 1 else 0) + Minuses(values, chosen[1..])
  }

  /** Every looked-at element counts exactly once, on one side. */
  lemma {:induction false} TallyTotal(values: map<Name, real>, chosen: seq<Name>)
    requires forall n :: n in chosen ==> n in values
    ensures Pluses(values, chosen) + Minuses(values, chosen) == |chosen|
  {
    if |chosen| > 0 {
      assert forall n :: n in chosen[1..] ==> n in chosen;
      TallyTotal(values, chosen[1..]);
    }
  }

  /** `pluses >= n/2 or minuses >= n/2` with Python's true division. */
  predicate Majority(n: nat, pluses: nat, minuses: nat) {
    2 * pluses >= n || 2 * minuses >= n
  }

  /** No element outside `done` has colour `col`. */
  ghost predicate Exhausted(u: Ui, done: seq<Name>, col: Color) {
    forall n :: n in u.elements && n !in done ==> u.elements[n].color != col
  }

  /** The `unfound` count of `make_decision`: entries of the ranking other
      than the pick whose element has colour `col`. */
  function Unfound(u: Ui, c: seq<Scored>, next: Name, col: Color): (k: nat)
    requires forall x :: x in c ==> x.name in u.elements
  {
    if |c| == 0 then 0
    else
      assert c[0] in c && forall x :: x in c[1..] ==> x in c;
      (if c[0].name != next && u.elements[c[0].name].color == col then 1 else 0) + Unfound(u, c[1..], next, col)
  }

  lemma {:induction false} UnfoundNone(u: Ui, c: seq<Scored>, next: Name, col: Color)
    requires forall x :: x in c ==> x.name in u.elements
    ensures Unfound(u, c, next, col) == 0 <==>
      forall i :: 0 <= i < |c| ==> c[i].name == next || u.elements[c[i].name].color != col
  {
    if |c| > 0 {
      assert c[0] in c && forall x :: x in c[1..] ==> x in c;
      UnfoundNone(u, c[1..], next, col);
      assert forall i :: 1 <= i < |c| ==> c[i] == c[1..][i - 1];
    }
  }

  /** Over a ranking of the unsearched elements, a zero count means that the
      colour is gone from everything not yet searched once the pick is. */
  lemma UnfoundMeansExhausted(u: Ui, searched: seq<Name>, c: seq<Scored>, next: Name, col: Color)
    requires RanksUnsearched(u, searched, c)
    ensures forall x :: x in c ==> x.name in u.elements
    ensures Unfound(u, c, next, col) == 0 <==> Exhausted(u, searched + [next], col)
  {
    UnfoundNone(u, c, next, col);
    if Unfound(u, c, next, col) == 0 {
      forall n | n in u.elements && n !in searched + [next] ensures u.elements[n].color != col {
        assert HasName(c, n);
        var i :| 0 <= i < |c| && c[i].name == n;
      }
    } else {
      var i :| 0 <= i < |c| && c[i].name != next && u.elements[c[i].name].color == col;
      assert c[i] in c;
      assert c[i].name !in searched + [next];
    }
  }

  /** What `make_decision` settles at one pass before the stop tests: the
      strongest unsearched element, its EMMA look, and its stimulus value. */
  datatype Look = Look(next: Name, time: real, moved: bool, value: real, stop: bool)

  /** `look` is what one pass of `make_decision` sees: the strongest unsearched
      element, looked at from `eye`, its value, and whether the loop stops
      right after it. */
  ghost predicate Picked(u: Ui, m: Maths, values: map<Name, real>, eye: Name, searched: seq<Name>,
                         feature: Option<Color>, pluses: nat, minuses: nat, look: Look)
    requires Indexed(u)
  {
    && look.next in u.elements && look.next !in searched
    && look.next in values && look.value == values[look.next]
    && Looked(u, m, eye, look.next, look.moved, look.time)
    && Candidates(u, m, eye, feature, searched).Ok?
    && StrongestPick(Candidates(u, m, eye, feature, searched).value, look.next)
    && (look.stop <==> Stops(u, values, feature, searched, pluses, minuses, look.next))
  }

  /** One pass up to the stop tests. Bottom-up errors come first, then an
      empty ranking (ValueError), the EMMA look, and a missing value (KeyError). */
  function DecisionChoice(u: Ui, m: Maths, values: map<Name, real>, eye: Name, searched: seq<Name>,
                          feature: Option<Color>, pluses: nat, minuses: nat): (r: Result<Look>)
    requires Indexed(u)
    ensures |u.order| > 0 && eye !in u.elements ==> r == Err(KeyError)
    ensures r.Ok? ==> Picked(u, m, values, eye, searched, feature, pluses, minuses, r.value)
    ensures && eye in u.elements && Timeable(u) && Rankable(u, m)
            && Distinct(searched) && |searched| < |u.order|
            && (forall n :: n in u.elements ==> n in values)
            ==> r.Ok?
    ensures && eye in u.elements && Timeable(u) && Rankable(u, m)
            && Distinct(searched) && |searched| < |u.order| && r.Err?
            ==> r.error == KeyError && exists n :: n in u.elements && n !in values
  {
    assert Distinct(searched) && |searched| < |u.order| ==> exists n :: n in u.elements && n !in searched by {
      if Distinct(searched) && |searched| < |u.order| {
        SomeUnsearched(u, searched);
      }
    }
    var bu := BottomUp(u, m, eye);
    if bu.Err? then Err(bu.error)
    else
      var cs := Candidates(u, m, eye, feature, searched);
      assert cs.Ok?;
      var c := cs.value;
      assert (exists n :: n in u.elements && n !in searched) ==> |c| > 0 by {
        if exists n :: n in u.elements && n !in searched {
          var n :| n in u.elements && n !in searched;
          assert HasName(c, n);
        }
      }
      if |c| == 0 then Err(ValueError)
      else
        var next := Strongest(c);
        RankedMember(u, searched, c, next);
        var fx :- EmmaTime(u, m, next, Some(eye));
        assert Looked(u, m, eye, next, fx.moved, fx.time);
        if next !in values then Err(KeyError)
        else
          UnfoundMeansExhausted(u, searched, c, next, if feature.Some? then feature.value else "");
          var gone := feature.Some? && Unfound(u, c, next, feature.value) == 0;
          assert gone <==> feature.Some? && Exhausted(u, searched + [next], feature.value);
          var stop := Majority(|u.order|, Plus(pluses, values[next]), Minus(minuses, values[next])) || gone;
          Ok(Look(next, fx.time, fx.moved, values[next], stop))
  }

  function Plus(pluses: nat, v: real): nat {
    pluses + if v > 0.0 then 1 else 0
  }

  function Minus(minuses: nat, v: real): nat {
    minuses + if v <= 0.0 then 1 else 0
  }

  /** The loop stops right after picking `next`: a side holds a majority, or
      nothing unsearched has the looked-for colour. */
  ghost predicate Stops(u: Ui, values: map<Name, real>, feature: Option<Color>, done: seq<Name>,
                        pluses: nat, minuses: nat, next: Name)
    requires next in values
  {
    || Majority(|u.order|, Plus(pluses, values[next]), Minus(minuses, values[next]))
    || (feature.Some? && Exhausted(u, done + [next], feature.value))
  }

  /** The stop rule, step by step: each chosen element has a value; the run
      stops right after the first pick that gives a side a majority or leaves
      no unsearched element of the looked-for colour, and otherwise only
      when everything is searched; every pick before the last moved the eye. */
  ghost predicate Decided(u: Ui, values: map<Name, real>, feature: Option<Color>, done: seq<Name>,
                          pluses: nat, minuses: nat, chosen: seq<Name>, moves: seq<bool>)
    decreases |chosen|
  {
    && |moves| == |chosen|
    && (|chosen| == 0 ==> |done| == |u.order|)
    && (|chosen| > 0 ==>
          && chosen[0] in values
          && if Stops(u, values, feature, done, pluses, minuses, chosen[0]) then |chosen| == 1
             else
               && moves[0]
               && Decided(u, values, feature, done + [chosen[0]],
                          Plus(pluses, values[chosen[0]]), Minus(minuses, values[chosen[0]]),
                          chosen[1..], moves[1..]))
  }

  /** A side holds a majority after the first `k` picks. */
  predicate MajorityAfter(n: nat, values: map<Name, real>, pluses: nat, minuses: nat, chosen: seq<Name>, k: nat)
    requires k <= |chosen|
    requires forall x :: x in chosen ==> x in values
  {
    assert forall x :: x in chosen[..k] ==> x in chosen;
    Majority(n, pluses + Pluses(values, chosen[..k]), minuses + Minuses(values, chosen[..k]))
  }

  /** Every pick of a decided run has a value, and every pick but the last
      moved the eye. */
  lemma {:induction false} DecidedPicks(u: Ui, values: map<Name, real>, feature: Option<Color>, done: seq<Name>,
                                        pluses: nat, minuses: nat, chosen: seq<Name>, moves: seq<bool>)
    requires Decided(u, values, feature, done, pluses, minuses, chosen, moves)
    ensures forall n :: n in chosen ==> n in values
    ensures |moves| == |chosen|
    ensures forall i :: 0 <= i < |moves| - 1 ==> moves[i]
    decreases |chosen|
  {
    if |chosen| > 0 && !Stops(u, values, feature, done, pluses, minuses, chosen[0]) {
      var c0 := chosen[0];
      DecidedPicks(u, values, feature, done + [c0], Plus(pluses, values[c0]), Minus(minuses, values[c0]),
                   chosen[1..], moves[1..]);
      assert forall n :: n in chosen ==> n == c0 || n in chosen[1..];
      assert forall i :: 1 <= i < |moves| ==> moves[i] == moves[1..][i - 1];
    }
  }

  /** A decided run ends with a majority, with the looked-for colour gone,
      or with everything searched. */
  lemma {:induction false} DecidedEnds(u: Ui, values: map<Name, real>, feature: Option<Color>, done: seq<Name>,
                                       pluses: nat, minuses: nat, chosen: seq<Name>, moves: seq<bool>)
    requires Decided(u, values, feature, done, pluses, minuses, chosen, moves)
    ensures forall n :: n in chosen ==> n in values
    ensures || |done| + |chosen| == |u.order|
            || Majority(|u.order|, pluses + Pluses(values, chosen), minuses + Minuses(values, chosen))
            || (feature.Some? && Exhausted(u, done + chosen, feature.value))
    decreases |chosen|
  {
    DecidedPicks(u, values, feature, done, pluses, minuses, chosen, moves);
    if |chosen| > 0 {
      var c0 := chosen[0];
      if Stops(u, values, feature, done, pluses, minuses, c0) {
        assert chosen == [c0];
      } else {
        var rest := chosen[1..];
        DecidedEnds(u, values, feature, done + [c0], Plus(pluses, values[c0]), Minus(minuses, values[c0]),
                    rest, moves[1..]);
        assert done + [c0] + rest == done + chosen;
      }
    }
  }

  /** No pick before the last gives a side a majority. */
  lemma {:induction false} DecidedNoEarlyMajority(u: Ui, values: map<Name, real>, feature: Option<Color>,
                                                  done: seq<Name>, pluses: nat, minuses: nat,
                                                  chosen: seq<Name>, moves: seq<bool>)
    requires Decided(u, values, feature, done, pluses, minuses, chosen, moves)
    ensures forall n :: n in chosen ==> n in values
    ensures forall k :: 1 <= k < |chosen| ==> !MajorityAfter(|u.order|, values, pluses, minuses, chosen, k)
    decreases |chosen|
  {
    DecidedPicks(u, values, feature, done, pluses, minuses, chosen, moves);
    if |chosen| > 1 {
      var c0 := chosen[0];
      var rest := chosen[1..];
      var p, q := Plus(pluses, values[c0]), Minus(minuses, values[c0]);
      assert !Stops(u, values, feature, done, pluses, minuses, c0);
      DecidedNoEarlyMajority(u, values, feature, done + [c0], p, q, rest, moves[1..]);
      forall k | 1 <= k < |chosen| ensures !MajorityAfter(|u.order|, values, pluses, minuses, chosen, k) {
        assert chosen[..k][0] == c0 && chosen[..k][1..] == rest[..k - 1];
        if k > 1 {
          assert !MajorityAfter(|u.order|, values, p, q, rest, k - 1);
        } else {
          assert rest[..0] == [];
        }
      }
    }
  }

  /** What a run of `make_decision`'s loop guarantees. */
  ghost predicate DecisionRun(u: Ui, m: Maths, values: map<Name, real>, eye: Name, searched: seq<Name>,
                              feature: Option<Color>, pluses: nat, minuses: nat, run: Run)
    requires Indexed(u)
  {
    && Walked(u, m, eye, searched, false, run)
    && StrongestSteps(u, m, feature, searched, run.eyes, run.chosen)
    && Decided(u, values, feature, searched, pluses, minuses, run.chosen, run.moves)
  }

  /** The loop of `make_decision`. The eye follows the pick when EMMA moved
      it; when it did not, `make_decision` reads the undefined `force_fixation`,
      which raises NameError. */
  function DecisionLoop(u: Ui, m: Maths, values: map<Name, real>, eye: Name, searched: seq<Name>,
                        feature: Option<Color>, pluses: nat, minuses: nat): (r: Result<Run>)
    requires Indexed(u)
    requires Distinct(searched) && |searched| <= |u.order|
    ensures |searched| == |u.order| ==> r == Ok(Idle())
    ensures |searched| < |u.order| && eye !in u.elements ==> r == Err(KeyError)
    ensures r.Ok? ==> DecisionRun(u, m, values, eye, searched, feature, pluses, minuses, r.value)
    ensures eye in u.elements && eye in searched && Decidable(u, m, values) ==> r.Ok?
    decreases |u.order| - |searched|, 1
  {
    if |searched| == |u.order| then
      DecisionIdle(u, m, values, eye, searched, feature, pluses, minuses);
      Ok(Idle())
    else
      var look :- DecisionChoice(u, m, values, eye, searched, feature, pluses, minuses);
      DecisionAfter(u, m, values, eye, searched, feature, pluses, minuses, look)
  }

  /** Every EMMA look from one element at a different one moves the eye. */
  ghost predicate AlwaysMoves(u: Ui, m: Maths) {
    forall a, b :: a in u.elements && b in u.elements && a != b && EmmaTime(u, m, b, Some(a)).Ok? ==>
      EmmaTime(u, m, b, Some(a)).value.moved
  }

  /** Nothing stops the decision loop early: EMMA can time every look, every
      element can be ranked from every element, every look at a different
      element moves the eye, and every element has a value. */
  ghost predicate Decidable(u: Ui, m: Maths, values: map<Name, real>)
    requires Indexed(u)
  {
    && Timeable(u) && Rankable(u, m) && AlwaysMoves(u, m)
    && (forall n :: n in u.elements ==> n in values)
  }

  /** The rest of one pass of the loop, once `look` is settled: the stop
      tests, the NameError of an eye that did not move, and the next pass. */
  function DecisionAfter(u: Ui, m: Maths, values: map<Name, real>, eye: Name, searched: seq<Name>,
                         feature: Option<Color>, pluses: nat, minuses: nat, look: Look): (r: Result<Run>)
    requires Indexed(u)
    requires Distinct(searched) && |searched| < |u.order|
    requires Picked(u, m, values, eye, searched, feature, pluses, minuses, look)
    ensures r.Ok? ==> DecisionRun(u, m, values, eye, searched, feature, pluses, minuses, r.value)
    ensures eye in u.elements && eye in searched && Decidable(u, m, values) ==> r.Ok?
    decreases |u.order| - |searched|, 0
  {
    var next := look.next;
    DistinctConcat(searched, [next]);
    if look.stop then
      DecisionLast(u, m, values, eye, searched, feature, pluses, minuses, next, look.moved, look.time);
      Ok(Step(look.time, next, eye, look.moved, Idle()))
    else if !look.moved then Err(NameError)
    else
      var rest :- DecisionLoop(u, m, values, next, searched + [next], feature,
                               Plus(pluses, look.value), Minus(minuses, look.value));
      DecisionCons(u, m, values, eye, searched, feature, pluses, minuses, next, false, look.moved, look.time, rest);
      Ok(Step(look.time, next, eye, look.moved, rest))
  }

  /** With everything searched the loop does nothing. */
  lemma DecisionIdle(u: Ui, m: Maths, values: map<Name, real>, eye: Name, searched: seq<Name>,
                     feature: Option<Color>, pluses: nat, minuses: nat)
    requires Indexed(u)
    requires Distinct(searched) && |searched| == |u.order|
    ensures DecisionRun(u, m, values, eye, searched, feature, pluses, minuses, Idle())
  {
    assert searched + [] == searched;
  }

  /** A run that stops at its first pick. */
  lemma DecisionLast(u: Ui, m: Maths, values: map<Name, real>, eye: Name, searched: seq<Name>,
                     feature: Option<Color>, pluses: nat, minuses: nat,
                     next: Name, moved: bool, time: real)
    requires Indexed(u)
    requires next in u.elements && next !in searched && |searched| < |u.order|
    requires Distinct(searched + [next])
    requires next in values && Looked(u, m, eye, next, moved, time)
    requires Candidates(u, m, eye, feature, searched).Ok?
    requires StrongestPick(Candidates(u, m, eye, feature, searched).value, next)
    requires Stops(u, values, feature, searched, pluses, minuses, next)
    ensures DecisionRun(u, m, values, eye, searched, feature, pluses, minuses, Step(time, next, eye, moved, Idle()))
  {
    DecisionCons(u, m, values, eye, searched, feature, pluses, minuses, next, true, moved, time, Idle());
  }

  /** The guarantees of the decision loop carry over one more step in front. */
  lemma DecisionCons(u: Ui, m: Maths, values: map<Name, real>, eye: Name, searched: seq<Name>,
                     feature: Option<Color>, pluses: nat, minuses: nat,
                     next: Name, stop: bool, moved: bool, time: real, rest: Run)
    requires Indexed(u)
    requires next in u.elements && next !in searched && |searched| < |u.order|
    requires next in values && Looked(u, m, eye, next, moved, time)
    requires Candidates(u, m, eye, feature, searched).Ok?
    requires StrongestPick(Candidates(u, m, eye, feature, searched).value, next)
    requires stop <==> Stops(u, values, feature, searched, pluses, minuses, next)
    requires stop ==> rest == Idle() && Distinct(searched + [next])
    requires !stop ==>
      && moved
      && DecisionRun(u, m, values, next, searched + [next], feature,
                     Plus(pluses, values[next]), Minus(minuses, values[next]), rest)
    ensures DecisionRun(u, m, values, eye, searched, feature, pluses, minuses, Step(time, next, eye, moved, rest))
  {
    WalkStep(u, m, eye, searched, next, stop, moved, time, rest);
    StrongestStep(u, m, eye, searched, feature, next, stop, moved, time, rest);
    DecidedStep(u, values, feature, searched, pluses, minuses, next, stop, moved, time, eye, rest);
  }

  lemma WalkStep(u: Ui, m: Maths, eye: Name, searched: seq<Name>,
                 next: Name, stop: bool, moved: bool, time: real, rest: Run)
    requires Indexed(u)
    requires next in u.elements && next !in searched && |searched| < |u.order|
    requires Looked(u, m, eye, next, moved, time)
    requires stop ==> rest == Idle() && Distinct(searched + [next])
    requires !stop ==> moved && Walked(u, m, next, searched + [next], false, rest)
    ensures Walked(u, m, eye, searched, false, Step(time, next, eye, moved, rest))
  {
    WalkedCons(u, m, eye, searched, false, next, moved, time, rest);
  }

  lemma StrongestStep(u: Ui, m: Maths, eye: Name, searched: seq<Name>, feature: Option<Color>,
                      next: Name, stop: bool, moved: bool, time: real, rest: Run)
    requires Indexed(u)
    requires Candidates(u, m, eye, feature, searched).Ok?
    requires StrongestPick(Candidates(u, m, eye, feature, searched).value, next)
    requires stop ==> rest == Idle()
    requires !stop ==> StrongestSteps(u, m, feature, searched + [next], rest.eyes, rest.chosen)
    ensures var run := Step(time, next, eye, moved, rest);
      StrongestSteps(u, m, feature, searched, run.eyes, run.chosen)
  {
    StrongestStepsCons(u, m, feature, searched, time, next, eye, moved, rest);
  }

  lemma DecidedStep(u: Ui, values: map<Name, real>, feature: Option<Color>, searched: seq<Name>,
                    pluses: nat, minuses: nat, next: Name, stop: bool, moved: bool, time: real,
                    eye: Name, rest: Run)
    requires next in values
    requires stop <==> Stops(u, values, feature, searched, pluses, minuses, next)
    requires stop ==> rest == Idle() && |searched| < |u.order|
    requires !stop ==> moved && Decided(u, values, feature, searched + [next],
                                        Plus(pluses, values[next]), Minus(minuses, values[next]),
                                        rest.chosen, rest.moves)
    ensures var run := Step(time, next, eye, moved, rest);
      Decided(u, values, feature, searched, pluses, minuses, run.chosen, run.moves)
  {
    DecidedCons(u, values, feature, searched, pluses, minuses, next, stop, moved, rest.chosen, rest.moves);
  }

  lemma DecidedCons(u: Ui, values: map<Name, real>, feature: Option<Color>, searched: seq<Name>,
                    pluses: nat, minuses: nat, next: Name, stop: bool, moved: bool, chosen: seq<Name>, moves: seq<bool>)
    requires next in values
    requires stop <==> Stops(u, values, feature, searched, pluses, minuses, next)
    requires stop ==> chosen == [] && moves == [] && |searched| < |u.order|
    requires !stop ==>
      && moved
      && Decided(u, values, feature, searched + [next],
                 Plus(pluses, values[next]), Minus(minuses, values[next]), chosen, moves)
    ensures Decided(u, values, feature, searched, pluses, minuses, [next] + chosen, [moved] + moves)
  {
    assert ([next] + chosen)[0] == next && ([moved] + moves)[0] == moved;
    assert ([next] + chosen)[1..] == chosen && ([moved] + moves)[1..] == moves;
  }

  /** The start `make_decision` always uses. */
  const Start: Name := "e1"

  /** `make_decision`: count the greens, pick the colour to look for, and run
      the loop from "e1". It returns the time and the scanpath; here also
      what was searched and the run. A one-element surface is left at once;
      an empty one has nothing to pick from. */
  function MakeDecision(u: Ui, m: Maths, values: map<Name, real>): (r: Result<Outcome>)
    requires Indexed(u)
    ensures |u.order| == 0 ==> r == Err(ValueError)
    ensures |u.order| == 1 ==> r == Ok(Outcome(0.0, [Start], [Start], Idle()))
    ensures |u.order| > 1 && Start !in u.elements ==> r == Err(KeyError)
    ensures r.Ok? ==> DecisionOutcome(u, m, values, r.value)
    ensures |u.order| > 1 && Start in u.elements && Decidable(u, m, values) ==> r.Ok?
  {
    var feature := TopDownColor(CountGreens(u.elements, u.order), |u.order|);
    if |u.order| == 0 then Err(ValueError)
    else
      var run :- DecisionLoop(u, m, values, Start, [Start], feature, 0, 0);
      DecisionOutcomeOf(u, m, values, run);
      Ok(Outcome(run.time, Scanpath(Start, run), [Start] + run.chosen, run))
  }

  lemma DecisionOutcomeOf(u: Ui, m: Maths, values: map<Name, real>, run: Run)
    requires Indexed(u)
    requires DecisionRun(u, m, values, Start, [Start], TopDownColor(CountGreens(u.elements, u.order), |u.order|),
                         0, 0, run)
    ensures DecisionOutcome(u, m, values, Outcome(run.time, Scanpath(Start, run), [Start] + run.chosen, run))
    ensures run == Idle() ==> Outcome(run.time, Scanpath(Start, run), [Start] + run.chosen, run)
                              == Outcome(0.0, [Start], [Start], Idle())
  {
    if run == Idle() {
      assert Select(run.chosen, run.moves) == [];
    }
  }

  /** What `make_decision` returns when it succeeds: the time and scanpath of
      a decision run from "e1" looking for the colour `TopDownColor` picks,
      with no element counted yet. */
  ghost predicate DecisionOutcome(u: Ui, m: Maths, values: map<Name, real>, o: Outcome)
    requires Indexed(u)
  {
    && o.searched == [Start] + o.run.chosen
    && |o.run.moves| == |o.run.chosen|
    && o.scanpath == Scanpath(Start, o.run)
    && o.time == o.run.time
    && DecisionRun(u, m, values, Start, [Start], TopDownColor(CountGreens(u.elements, u.order), |u.order|),
                   0, 0, o.run)
  }

  /** The stop rule of a finished `make_decision`: every element looked at
      after the start has a value and counts once on one side; no prefix of
      the picks but the whole gave a side half the elements; and the search
      ended with such a majority, with the looked-for colour gone from what
      is left, or with every element searched. */
  lemma DecisionStopsWhen(u: Ui, m: Maths, values: map<Name, real>, o: Outcome)
    requires Indexed(u)
    requires DecisionOutcome(u, m, values, o)
    ensures forall n :: n in o.run.chosen ==> n in values
    ensures Pluses(values, o.run.chosen) + Minuses(values, o.run.chosen) == |o.searched| - 1
    ensures forall k :: 1 <= k < |o.run.chosen| ==> !MajorityAfter(|u.order|, values, 0, 0, o.run.chosen, k)
    ensures var feature := TopDownColor(CountGreens(u.elements, u.order), |u.order|);
      || |o.searched| == |u.order|
      || Majority(|u.order|, Pluses(values, o.run.chosen), Minuses(values, o.run.chosen))
      || (feature.Some? && Exhausted(u, o.searched, feature.value))
  {
    var feature := TopDownColor(CountGreens(u.elements, u.order), |u.order|);
    assert Decided(u, values, feature, [Start], 0, 0, o.run.chosen, o.run.moves) by {
      assert DecisionRun(u, m, values, Start, [Start], feature, 0, 0, o.run);
    }
    DecidedFromStart(u, values, feature, o.run.chosen, o.run.moves);
  }

  /** The stop rule of a decided run from the start with nothing counted. */
  lemma DecidedFromStart(u: Ui, values: map<Name, real>, feature: Option<Color>, chosen: seq<Name>, moves: seq<bool>)
    requires Decided(u, values, feature, [Start], 0, 0, chosen, moves)
    ensures forall n :: n in chosen ==> n in values
    ensures Pluses(values, chosen) + Minuses(values, chosen) == |chosen|
    ensures forall k :: 1 <= k < |chosen| ==> !MajorityAfter(|u.order|, values, 0, 0, chosen, k)
    ensures || 1 + |chosen| == |u.order|
            || Majority(|u.order|, Pluses(values, chosen), Minuses(values, chosen))
            || (feature.Some? && Exhausted(u, [Start] + chosen, feature.value))
  {
    DecidedEnds(u, values, feature, [Start], 0, 0, chosen, moves);
    DecidedNoEarlyMajority(u, values, feature, [Start], 0, 0, chosen, moves);
    TallyTotal(values, chosen);
  }
}

=== FILE: layout.dfy ===
/** The layout model of `ui.py`: rectangular elements keyed by name, the
    surface that grows to hold them, the edit operations, the nearest-element
    scan and the long-term-memory tables used for recall. */
module Layout {
  import opened Wrappers
  import opened Numerics
  import opened Seqs

  /** Element names. Python treats the empty string as "no name" in its
      `if not name` tests, so names are modelled as non-empty. */
  type Name = s: string | |s| > 0 witness "e"

  type Color = string

  datatype Point = Point(x: int, y: int)

  /** One rectangle. `data` is the stimulus value the decision tasks attach. */
  datatype Element = Element(
    x: int, y: int, xSize: int, ySize: int,
    color: Color, data: real, frequency: real)

  /** Centre of an element, each coordinate rounded half-to-even as Python's
      `round(x + x_size/2)` does. */
  function Loc(e: Element): (p: Point)
    ensures -1 <= 2 * p.x - (2 * e.x + e.xSize) <= 1
    ensures -1 <= 2 * p.y - (2 * e.y + e.ySize) <= 1
    ensures 2 * p.x - (2 * e.x + e.xSize) != 0 ==> p.x % 2 == 0
    ensures 2 * p.y - (2 * e.y + e.ySize) != 0 ==> p.y % 2 == 0
  {
    Point(RoundHalf(2 * e.x + e.xSize), RoundHalf(2 * e.y + e.ySize))
  }

  function MaxSize(e: Element): int {
    Max(e.xSize, e.ySize)
  }

  /** Squared Euclidean distance; comparisons of `math.sqrt` distances are
      made on these exact integers. */
  function Dist2(p: Point, q: Point): nat {
    (p.x - q.x) * (p.x - q.x) + (p.y - q.y) * (p.y - q.y)
  }

  /** Two centres are at distance 0 exactly when they coincide. */
  lemma Dist2Zero(p: Point, q: Point)
    ensures Dist2(p, q) == 0 <==> p == q
  {
    var dx, dy := p.x - q.x, p.y - q.y;
    if dx != 0 {
      assert dx * dx > 0;
    }
    if dy != 0 {
      assert dy * dy > 0;
    }
  }

  /** A recall strength: a number, or a label still to be resolved. */
  datatype Expertise = Label(text: string) | Strength(level: real)

  /** The surface ("ui" object). `order` is the dictionary's insertion order. */
  datatype Ui = Ui(
    xSize: int,
    ySize: int,
    userDistance: int,
    order: seq<Name>,
    elements: map<Name, Element>,
    eyeLoc: Option<Name>,
    ltmPos: map<Name, Expertise>,
    ltmPosFact: map<Name, Point>,
    ltmColor: map<Name, Expertise>,
    ltmColorFact: map<Name, Color>)

  /** The order lists each key of the element map exactly once. */
  ghost predicate Indexed(u: Ui) {
    && Distinct(u.order)
    && (forall n :: n in u.elements <==> n in u.order)
  }

  /** The order is as long as the element map is large. */
  lemma OrderSize(u: Ui)
    requires Indexed(u)
    ensures |u.order| == |u.elements.Keys|
  {
    CountInDistinct(u.order, u.elements.Keys);
    CountAll(u.order, u.elements.Keys);
  }

  /** What every operation of the surface keeps: the elements are indexed,
      and the eye rests on an element as soon as there is one. */
  ghost predicate WellFormed(u: Ui) {
    && Indexed(u)
    && (u.eyeLoc.Some? ==> u.eyeLoc.value in u.elements)
    && (|u.order| > 0 ==> u.eyeLoc.Some?)
  }

  /** The viewing distance is twice the longer side of the surface. */
  ghost predicate Calibrated(u: Ui) {
    u.userDistance == 2 * Max(u.xSize, u.ySize)
  }

  /** Every element fits inside the surface. */
  ghost predicate Covers(u: Ui) {
    forall n :: n in u.elements ==>
      u.xSize >= u.elements[n].x + u.elements[n].xSize &&
      u.ySize >= u.elements[n].y + u.elements[n].ySize
  }

  function NewUi(xSize: int, ySize: int): (u: Ui)
    ensures WellFormed(u) && Calibrated(u)
    ensures u.elements == map[] && u.eyeLoc == None
    ensures u.xSize == xSize && u.ySize == ySize
  {
    Ui(xSize, ySize, 2 * Max(xSize, ySize), [], map[], None, map[], map[], map[], map[])
  }

  function Extent(e: Element, horizontal: bool): int {
    if horizontal then e.x + e.xSize else e.y + e.ySize
  }

  /** The running maximum of `calibrate_UI_size`, which starts at 0. */
  function MaxExtent(els: map<Name, Element>, names: seq<Name>, horizontal: bool): (r: int)
    requires forall n :: n in names ==> n in els
    ensures r >= 0
    ensures forall n :: n in names ==> r >= Extent(els[n], horizontal)
    ensures r == 0 || exists n :: n in names && r == Extent(els[n], horizontal)
  {
    if |names| == 0 then 0
    else
      var rest := MaxExtent(els, names[1..], horizontal);
      var here := Extent(els[names[0]], horizontal);
      if here > rest then here else rest
  }

  /** `calibrate_UI_size`: grow each side to the furthest element edge, and
      recompute the viewing distance whenever a side changes. */
  function CalibrateUiSize(u: Ui): (r: Ui)
    requires Indexed(u)
    ensures r.xSize >= u.xSize && r.ySize >= u.ySize
    ensures Covers(r)
    ensures Calibrated(u) || r.xSize != u.xSize || r.ySize != u.ySize ==> Calibrated(r)
    ensures r == u.(xSize := r.xSize, ySize := r.ySize, userDistance := r.userDistance)
  {
    var maxX := MaxExtent(u.elements, u.order, true);
    var maxY := MaxExtent(u.elements, u.order, false);
    var u1 := if maxX > u.xSize then u.(xSize := maxX, userDistance := 2 * Max(maxX, u.ySize)) else u;
    if maxY > u1.ySize then u1.(ySize := maxY, userDistance := 2 * Max(u1.xSize, maxY)) else u1
  }

  /** `v` is the far edge of some element along one axis. */
  ghost predicate IsEdge(els: map<Name, Element>, v: int, horizontal: bool) {
    exists n :: n in els && v == Extent(els[n], horizontal)
  }

  /** The grown surface is no larger than it has to be: each side is the old
      side, 0, or the far edge of some element. */
  lemma CalibrateUiSizeTight(u: Ui)
    requires Indexed(u)
    ensures var r := CalibrateUiSize(u);
      && (r.xSize == u.xSize || r.xSize == 0 || IsEdge(u.elements, r.xSize, true))
      && (r.ySize == u.ySize || r.ySize == 0 || IsEdge(u.elements, r.ySize, false))
  {
    var maxX := MaxExtent(u.elements, u.order, true);
    var maxY := MaxExtent(u.elements, u.order, false);
    var r := CalibrateUiSize(u);
    assert r.xSize == u.xSize || r.xSize == maxX;
    assert r.ySize == u.ySize || r.ySize == maxY;
    if maxX != 0 {
      var n :| n in u.order && maxX == Extent(u.elements[n], true);
      assert n in u.elements;
      assert IsEdge(u.elements, maxX, true);
    }
    if maxY != 0 {
      var n :| n in u.order && maxY == Extent(u.elements[n], false);
      assert n in u.elements;
      assert IsEdge(u.elements, maxY, false);
    }
  }

  /** `add_element`: store under the name (replacing an element of the same
      name in place), grow the surface, and rest the eye on the first element. */
  function AddElement(u: Ui, name: Name, x: int, y: int, xSize: int, ySize: int,
                      color: Color, frequency: real): (r: Ui)
    requires WellFormed(u)
    ensures WellFormed(r)
    ensures r.elements == u.elements[name := Element(x, y, xSize, ySize, color, 0.0, frequency)]
    ensures name in u.elements ==> r.order == u.order
    ensures name !in u.elements ==> r.order == u.order + [name]
    ensures r.eyeLoc == if u.eyeLoc.None? then Some(name) else u.eyeLoc
    ensures Covers(r) && r.xSize >= u.xSize && r.ySize >= u.ySize
    ensures Calibrated(u) ==> Calibrated(r)
  {
    var e := Element(x, y, xSize, ySize, color, 0.0, frequency);
    var order := if name in u.elements then u.order else u.order + [name];
    assert Distinct(order);
    var u1 := CalibrateUiSize(u.(elements := u.elements[name := e], order := order));
    if u1.eyeLoc.None? then u1.(eyeLoc := Some(name)) else u1
  }

  /** `add_element` with the geometry, colour and frequency taken from `g`. */
  function Add(u: Ui, name: Name, g: Element): Ui
    requires WellFormed(u)
  {
    AddElement(u, name, g.x, g.y, g.xSize, g.ySize, g.color, g.frequency)
  }

  /** Adding under an existing name keeps only the newer element. */
  lemma AddElementReplaces(u: Ui, name: Name, g1: Element, g2: Element)
    requires WellFormed(u)
    ensures Add(Add(u, name, g1), name, g2).elements == Add(u, name, g2).elements
    ensures Add(Add(u, name, g1), name, g2).order == Add(u, name, g2).order
    ensures Add(Add(u, name, g1), name, g2).eyeLoc == Add(u, name, g2).eyeLoc
  {
    var e1 := Element(g1.x, g1.y, g1.xSize, g1.ySize, g1.color, 0.0, g1.frequency);
    var e2 := Element(g2.x, g2.y, g2.xSize, g2.ySize, g2.color, 0.0, g2.frequency);
    MapUpdateTwice(u.elements, name, e1, e2);
  }

  lemma MapUpdateTwice<K, V>(m: map<K, V>, k: K, v1: V, v2: V)
    ensures m[k := v1][k := v2] == m[k := v2]
  {
  }

  /** `swap_elements`: exchange the positions (not the sizes) of two elements. */
  function SwapElements(u: Ui, a: Name, b: Name): (r: Result<Ui>)
    ensures r.Ok? <==> a in u.elements && b in u.elements
    ensures r.Ok? ==>
      var v := r.value;
      && v.order == u.order && v.elements.Keys == u.elements.Keys
      && v.xSize == u.xSize && v.ySize == u.ySize && v.eyeLoc == u.eyeLoc
      && v.elements[a].x == u.elements[b].x && v.elements[a].y == u.elements[b].y
      && v.elements[b].x == u.elements[a].x && v.elements[b].y == u.elements[a].y
      && (forall n :: n in u.elements ==>
            v.elements[n] == u.elements[n].(x := v.elements[n].x, y := v.elements[n].y))
      && (forall n :: n in u.elements && n != a && n != b ==> v.elements[n] == u.elements[n])
  {
    if a !in u.elements || b !in u.elements then Err(KeyError)
    else
      var ea := u.elements[a];
      var eb := u.elements[b];
      var els := u.elements[a := ea.(x := eb.x, y := eb.y)];
      Ok(u.(elements := els[b := els[b].(x := ea.x, y := ea.y)]))
  }

  /** Swapping the same pair twice restores the layout. */
  lemma SwapTwiceRestores(u: Ui, a: Name, b: Name)
    requires a in u.elements && b in u.elements
    ensures SwapElements(u, a, b).Ok?
    ensures SwapElements(SwapElements(u, a, b).value, a, b) == Ok(u)
  {
    var v := SwapElements(u, a, b).value;
    var w := SwapElements(v, a, b).value;
    assert w.elements.Keys == u.elements.Keys;
    forall n | n in u.elements
      ensures w.elements[n] == u.elements[n]
    {
      if n == a || n == b {
        assert w.elements[n].x == u.elements[n].x && w.elements[n].y == u.elements[n].y;
      }
    }
    assert w.elements == u.elements;
  }

  /** The value given to `modify_element`: a coordinate or size, or a colour. */
  datatype FieldValue = Coord(n: int) | Colour(c: Color)

  predicate KnownField(field: string) {
    field in {"x", "y", "x_size", "y_size", "color"}
  }

  function SetField(e: Element, field: string, val: FieldValue): Element
    requires KnownField(field)
    requires (field == "color") == val.Colour?
  {
    match field
    case "x" => e.(x := val.n)
    case "y" => e.(y := val.n)
    case "x_size" => e.(xSize := val.n)
    case "y_size" => e.(ySize := val.n)
    case _ => e.(color := val.c)
  }

  /** `modify_element`: set one field of one element; an unknown field name
      changes nothing and does not even look the element up. A typed element
      cannot hold a colour as a coordinate or a number as a colour, so such a
      value is refused with TypeError where Python would store it. */
  function ModifyElement(u: Ui, name: Name, field: string, val: FieldValue): (r: Result<Ui>)
    ensures !KnownField(field) ==> r == Ok(u)
    ensures KnownField(field) && name !in u.elements ==> r == Err(KeyError)
    ensures KnownField(field) && name in u.elements ==>
      (r == Err(TypeError) <==> (field == "color") != val.Colour?)
    ensures r.Ok? && KnownField(field) ==>
      var v := r.value;
      && v == u.(elements := v.elements)
      && v.elements.Keys == u.elements.Keys
      && (forall n :: n in u.elements && n != name ==> v.elements[n] == u.elements[n])
      && (field == "x" ==> val.Coord? && v.elements[name] == u.elements[name].(x := val.n))
      && (field == "y" ==> val.Coord? && v.elements[name] == u.elements[name].(y := val.n))
      && (field == "x_size" ==> val.Coord? && v.elements[name] == u.elements[name].(xSize := val.n))
      && (field == "y_size" ==> val.Coord? && v.elements[name] == u.elements[name].(ySize := val.n))
      && (field == "color" ==> val.Colour? && v.elements[name] == u.elements[name].(color := val.c))
  {
    if !KnownField(field) then Ok(u)
    else if name !in u.elements then Err(KeyError)
    else if (field == "color") != val.Colour? then Err(TypeError)
    else Ok(u.(elements := u.elements[name := SetField(u.elements[name], field, val)]))
  }

  /** Modifying twice with the same arguments is the same as modifying once. */
  lemma ModifyIdempotent(u: Ui, name: Name, field: string, val: FieldValue)
    requires ModifyElement(u, name, field, val).Ok?
    ensures ModifyElement(ModifyElement(u, name, field, val).value, name, field, val)
         == ModifyElement(u, name, field, val)
  {
    if KnownField(field) {
      var v := ModifyElement(u, name, field, val).value;
      assert v.elements[name := SetField(v.elements[name], field, val)] == v.elements;
    }
  }

  /** The labels `learn_element_pos/color` translate into strengths. */
  function ResolveExpertise(ex: Expertise): (r: Expertise)
    ensures ex == Label("intermediate") ==> r == Strength(-0.75)
    ensures ex == Label("expert") ==> r == Strength(1.0)
    ensures ex.Strength? || (ex.text != "intermediate" && ex.text != "expert") ==> r == ex
  {
    match ex
    case Label(t) => if t == "intermediate" then Strength(-0.75) else if t == "expert" then Strength(1.0) else ex
    case Strength(_) => ex
  }

  /** `learn_element_pos`: remember the element's current centre. */
  function LearnElementPos(u: Ui, name: Name, ex: Expertise): (r: Result<Ui>)
    ensures r.Ok? <==> name in u.elements
    ensures r.Err? ==> r.error == KeyError
    ensures r.Ok? ==>
      && r.value == u.(ltmPos := r.value.ltmPos, ltmPosFact := r.value.ltmPosFact)
      && name in r.value.ltmPosFact && r.value.ltmPosFact[name] == Loc(u.elements[name])
      && name in r.value.ltmPos && r.value.ltmPos[name] == ResolveExpertise(ex)
      && (forall n :: n != name ==> (n in r.value.ltmPos <==> n in u.ltmPos))
      && (forall n :: n != name && n in u.ltmPos ==> r.value.ltmPos[n] == u.ltmPos[n])
      && (forall n :: n != name ==> (n in r.value.ltmPosFact <==> n in u.ltmPosFact))
      && (forall n :: n != name && n in u.ltmPosFact ==> r.value.ltmPosFact[n] == u.ltmPosFact[n])
  {
    if name !in u.elements then Err(KeyError)
    else Ok(u.(ltmPos := u.ltmPos[name := ResolveExpertise(ex)],
               ltmPosFact := u.ltmPosFact[name := Loc(u.elements[name])]))
  }

  /** `learn_element_color`: remember the element's current colour. */
  function LearnElementColor(u: Ui, name: Name, ex: Expertise): (r: Result<Ui>)
    ensures r.Ok? <==> name in u.elements
    ensures r.Err? ==> r.error == KeyError
    ensures r.Ok? ==>
      && r.value == u.(ltmColor := r.value.ltmColor, ltmColorFact := r.value.ltmColorFact)
      && name in r.value.ltmColorFact && r.value.ltmColorFact[name] == u.elements[name].color
      && name in r.value.ltmColor && r.value.ltmColor[name] == ResolveExpertise(ex)
      && (forall n :: n != name ==> (n in r.value.ltmColor <==> n in u.ltmColor))
      && (forall n :: n != name && n in u.ltmColor ==> r.value.ltmColor[n] == u.ltmColor[n])
      && (forall n :: n != name ==> (n in r.value.ltmColorFact <==> n in u.ltmColorFact))
      && (forall n :: n != name && n in u.ltmColorFact ==> r.value.ltmColorFact[n] == u.ltmColorFact[n])
  {
    if name !in u.elements then Err(KeyError)
    else Ok(u.(ltmColor := u.ltmColor[name := ResolveExpertise(ex)],
               ltmColorFact := u.ltmColorFact[name := u.elements[name].color]))
  }

  /** `recall_time`: 1.06·exp(−1.53·strength); an unresolved label cannot be
      multiplied and raises TypeError. */
  function RecallTime(m: Maths, ex: Expertise): (r: Result<real>)
    ensures r.Ok? <==> ex.Strength?
    ensures Sane(m) && r.Ok? ==> r.value > 0.0
  {
    match ex
    case Strength(v) => Ok(1.06 * m.exp(-1.53 * v))
    case Label(_) => Err(TypeError)
  }

  /** Squared distances from `p` to the centres of `names`. */
  function DistsFrom(u: Ui, p: Point, names: seq<Name>): (ds: seq<nat>)
    requires forall n :: n in names ==> n in u.elements
    ensures |ds| == |names|
    ensures forall i :: 0 <= i < |names| ==> ds[i] == Dist2(p, Loc(u.elements[names[i]]))
  {
    seq(|names|, i requires 0 <= i < |names| => Dist2(p, Loc(u.elements[names[i]])))
  }

  /** Position `k` holds the first of the names whose centre is nearest to `p`. */
  ghost predicate FirstNearest(u: Ui, p: Point, names: seq<Name>, k: int)
    requires forall n :: n in names ==> n in u.elements
  {
    var ds := DistsFrom(u, p, names);
    && 0 <= k < |names|
    && (forall i :: 0 <= i < |names| ==> ds[k] <= ds[i])
    && (forall i :: 0 <= i < k ==> ds[k] < ds[i])
  }

  /** `n` is the first of `names` whose centre is nearest to `p`. */
  ghost predicate NearestAmong(u: Ui, p: Point, names: seq<Name>, n: Name)
    requires forall n :: n in names ==> n in u.elements
  {
    exists k :: FirstNearest(u, p, names, k) && names[k] == n
  }

  /** Index of the first element of `names` whose centre is nearest to `p`. */
  function ClosestIndex(u: Ui, p: Point, names: seq<Name>): (k: nat)
    requires |names| > 0
    requires forall n :: n in names ==> n in u.elements
    ensures k < |names|
    ensures FirstNearest(u, p, names, k)
  {
    FirstMinIndex(DistsFrom(u, p, names))
  }

  /** `closest_element`: the first candidate (all elements when none are given)
      whose centre is nearest to `p`, or None when there is no candidate. */
  function ClosestElement(u: Ui, p: Point, candidates: seq<Name>): (r: Result<Option<Name>>)
    requires WellFormed(u)
    ensures var names := if |candidates| == 0 then u.order else candidates;
      && (r.Ok? <==> forall n :: n in names ==> n in u.elements)
      && (r.Ok? ==> (r.value.None? <==> |names| == 0))
      && (r.Ok? && r.value.Some? ==> NearestAmong(u, p, names, r.value.value))
  {
    var names := if |candidates| == 0 then u.order else candidates;
    if exists n :: n in names && n !in u.elements then Err(KeyError)
    else if |names| == 0 then Ok(None)
    else
      var k := ClosestIndex(u, p, names);
      assert names[k] == names[k];
      Ok(Some(names[k]))
  }
}

=== FILE: numerics.dfy ===
/** Numeric primitives of the model: the transcendental functions the Python
    code takes from `math`, left uninterpreted, and Python's `round`. */
module Numerics {

  /** The floating-point functions the model never evaluates. `invSqrt(x)` is
      `1/math.sqrt(x)`, `log2(x)` is `math.log(x, 2)`. */
  datatype Maths = Maths(
    sqrt: real -> real,
    invSqrt: real -> real,
    atan: real -> real,
    exp: real -> real,
    ln: real -> real,
    log2: real -> real)

  /** The only facts about the functions that the proofs use. */
  ghost predicate Sane(m: Maths) {
    && m.sqrt(0.0) == 0.0
    && (forall x: real :: x > 0.0 ==> m.sqrt(x) > 0.0)
    && (forall x: real :: x > 0.0 ==> m.invSqrt(x) > 0.0)
    && (forall x: real :: x >= 0.0 ==> m.atan(x) >= 0.0)
    && (forall x: real :: m.exp(x) > 0.0)
    && (forall x: real :: 0.0 < x < 1.0 ==> m.ln(x) < 0.0)
    && (forall x: real :: x >= 1.0 ==> m.log2(x) >= 0.0)
  }

  /** `math.pi` */
  const Pi: real := 3.141592653589793

  /** Python's `round(k / 2)`: nearest integer, ties to the even one. */
  function RoundHalf(k: int): (r: int)
    ensures -1 <= 2 * r - k <= 1
    ensures 2 * r - k != 0 ==> r % 2 == 0
  {
    if k % 2 == 0 then k / 2
    else if (k / 2) % 2 == 0 then k / 2
    else k / 2 + 1
  }

  /** The two conditions above pin the rounded value down completely. */
  lemma RoundHalfUnique(k: int, r: int)
    requires -1 <= 2 * r - k <= 1
    requires 2 * r - k != 0 ==> r % 2 == 0
    ensures r == RoundHalf(k)
  {
    if k % 2 == 0 {
      assert 2 * r - k != 1 && 2 * r - k != -1;
    }
  }

  function Max(a: int, b: int): int {
    if a >= b then a else b
  }

  function Min(a: int, b: int): int {
    if a <= b then a else b
  }
}

/** Sequence helpers shared by the search loops. */
module Seqs {

  ghost predicate Distinct<T>(s: seq<T>) {
    forall i, j :: 0 <= i < j < |s| ==> s[i] != s[j]
  }

  /** Dropping the head of a duplicate-free sequence keeps it duplicate-free,
      and the head does not occur again. */
  lemma DistinctTail<T>(s: seq<T>)
    requires Distinct(s) && |s| > 0
    ensures Distinct(s[1..]) && s[0] !in s[1..]
  {
    forall i | 0 <= i < |s[1..]| ensures s[1..][i] != s[0] {
      assert s[1..][i] == s[i + 1];
    }
  }

  /** Joining two duplicate-free sequences with no common entry. */
  lemma DistinctConcat<T>(a: seq<T>, b: seq<T>)
    requires Distinct(a) && Distinct(b)
    requires forall x :: x in a ==> x !in b
    ensures Distinct(a + b)
  {
    forall i, j | 0 <= i < j < |a + b| ensures (a + b)[i] != (a + b)[j] {
      if j < |a| {
      } else if i >= |a| {
        assert (a + b)[i] == b[i - |a|] && (a + b)[j] == b[j - |a|];
      } else {
        assert (a + b)[i] in a && (a + b)[j] == b[j - |a|];
      }
    }
  }

  /** Indexing into a concatenation. */
  lemma AppendAt<T>(a: seq<T>, b: seq<T>, i: int)
    requires 0 <= i < |a| + |b|
    ensures (a + b)[i] == if i < |a| then a[i] else b[i - |a|]
  {
  }

  lemma AppendAssoc<T>(a: seq<T>, b: seq<T>, c: seq<T>)
    ensures (a + b) + c == a + (b + c)
  {
  }

  /** Indexing the tail of a sequence. */
  lemma TailAt<T>(s: seq<T>, i: int)
    requires 0 < i < |s|
    ensures s[1..][i - 1] == s[i]
  {
  }

  /** The empty prefix adds nothing. */
  lemma EmptyPrefix<T>(done: seq<T>, s: seq<T>)
    ensures done + s[..0] == done
  {
    assert s[..0] == [];
  }

  /** Moving the head of `s` onto the end of `done`. */
  lemma PrefixShift<T>(done: seq<T>, s: seq<T>, i: int)
    requires 0 < i <= |s|
    ensures done + [s[0]] + s[1..][..i - 1] == done + s[..i]
  {
    assert [s[0]] + s[1..][..i - 1] == s[..i];
  }

  /** `s` is `t` with some entries left out and the others kept in order. */
  ghost predicate Subseq<T>(s: seq<T>, t: seq<T>)
    decreases |t|
  {
    if |s| == 0 then true
    else if |t| == 0 then false
    else (s[0] == t[0] && Subseq(s[1..], t[1..])) || Subseq(s, t[1..])
  }

  /** Keeping or dropping the head of `t` in front of a subsequence of its tail. */
  lemma SubseqCons<T>(x: T, keep: bool, s: seq<T>, t: seq<T>)
    requires Subseq(s, t)
    ensures Subseq((if keep then [x] else []) + s, [x] + t)
  {
    var t1 := [x] + t;
    assert t1[1..] == t;
    if keep {
      assert ([x] + s)[1..] == s;
    } else {
      assert [] + s == s;
    }
  }

  /** The entries of `xs` whose flag is set, in order. */
  function Select<T>(xs: seq<T>, flags: seq<bool>): (r: seq<T>)
    requires |xs| == |flags|
    ensures |r| <= |xs|
    ensures forall x :: x in r ==> x in xs
    ensures Subseq(r, xs)
  {
    if |xs| == 0 then []
    else
      var rest := Select(xs[1..], flags[1..]);
      SubseqCons(xs[0], flags[0], rest, xs[1..]);
      assert [xs[0]] + xs[1..] == xs;
      (if flags[0] then [xs[0]] else []) + rest
  }

  lemma SelectAppend<T>(xs: seq<T>, flags: seq<bool>, x: T, f: bool)
    requires |xs| == |flags|
    ensures Select(xs + [x], flags + [f]) == Select(xs, flags) + (if f then [x] else [])
  {
    if |xs| == 0 {
      assert xs + [x] == [x];
    } else {
      assert (xs + [x])[1..] == xs[1..] + [x];
      assert (flags + [f])[1..] == flags[1..] + [f];
      SelectAppend(xs[1..], flags[1..], x, f);
    }
  }

  /** Number of entries of `s` that lie in `ks`. */
  function CountIn<T>(s: seq<T>, ks: set<T>): (c: nat)
    ensures c <= |s|
  {
    if |s| == 0 then 0 else (if s[0] in ks then 1 else 0) + CountIn(s[1..], ks)
  }

  /** In a duplicate-free sequence, counting the members of a set it covers
      gives the size of the set. */
  lemma {:induction false} CountInDistinct<T>(s: seq<T>, ks: set<T>)
    requires Distinct(s)
    requires forall k :: k in ks ==> k in s
    ensures CountIn(s, ks) == |ks|
  {
    if |s| == 0 {
      assert ks == {};
    } else {
      var rest := ks - {s[0]};
      assert forall k :: k in rest ==> k in s[1..] by {
        forall k | k in rest ensures k in s[1..] {
          var i :| 0 <= i < |s| && s[i] == k;
          assert i != 0;
          assert s[1..][i - 1] == k;
        }
      }
      assert Distinct(s[1..]) by {
        forall i, j | 0 <= i < j < |s[1..]| ensures s[1..][i] != s[1..][j] {
          assert s[1..][i] == s[i + 1] && s[1..][j] == s[j + 1];
        }
      }
      CountInDistinct(s[1..], rest);
      assert s[0] !in s[1..] by {
        forall i | 0 <= i < |s[1..]| ensures s[1..][i] != s[0] {
          assert s[1..][i] == s[i + 1];
        }
      }
      CountInSkip(s[1..], ks, s[0]);
      if s[0] in ks {
        assert |rest| == |ks| - 1;
      } else {
        assert rest == ks;
      }
    }
  }

  /** Removing from the set something the sequence does not hold leaves the count unchanged. */
  lemma {:induction false} CountInSkip<T>(s: seq<T>, ks: set<T>, x: T)
    requires x !in s
    ensures CountIn(s, ks) == CountIn(s, ks - {x})
  {
    if |s| > 0 {
      assert x !in s[1..] by {
        forall i | 0 <= i < |s[1..]| ensures s[1..][i] != x {
          assert s[1..][i] == s[i + 1];
        }
      }
      CountInSkip(s[1..], ks, x);
    }
  }

  /** Every entry of a sequence that lies in `ks` is counted. */
  lemma {:induction false} CountAll<T>(s: seq<T>, ks: set<T>)
    requires forall x :: x in s ==> x in ks
    ensures CountIn(s, ks) == |s|
  {
    if |s| > 0 {
      assert forall x :: x in s[1..] ==> x in s;
      CountAll(s[1..], ks);
    }
  }

  /** A duplicate-free sequence drawn from a set as large as itself lists
      the whole set. */
  lemma {:induction false} DistinctCovers<T>(s: seq<T>, ks: set<T>)
    requires Distinct(s) && |s| == |ks|
    requires forall x :: x in s ==> x in ks
    ensures forall k :: k in ks ==> k in s
  {
    var seen := set x | x in s;
    DistinctCard(s);
    assert seen <= ks;
    if exists k :: k in ks && k !in s {
      var k :| k in ks && k !in s;
      assert seen <= ks - {k};
      SubsetCard(seen, ks - {k});
      assert false;
    }
  }

  lemma {:induction false} DistinctCard<T>(s: seq<T>)
    requires Distinct(s)
    ensures |set x | x in s| == |s|
  {
    if |s| > 0 {
      DistinctTail(s);
      DistinctCard(s[1..]);
      assert (set x | x in s) == {s[0]} + (set x | x in s[1..]);
    }
  }

  lemma {:induction false} SubsetCard<T>(a: set<T>, b: set<T>)
    requires a <= b
    ensures |a| <= |b|
  {
    if a != {} {
      var x :| x in a;
      SubsetCard(a - {x}, b - {x});
    }
  }

  /** Index of the first smallest entry: what a left-to-right scan that only
      replaces its candidate on a strictly smaller value returns. */
  function FirstMinIndex(ds: seq<int>): (k: nat)
    requires |ds| > 0
    ensures k < |ds|
    ensures forall i :: 0 <= i < |ds| ==> ds[k] <= ds[i]
    ensures forall i :: 0 <= i < k ==> ds[k] < ds[i]
  {
    if |ds| == 1 then 0
    else
      var k := FirstMinIndex(ds[..|ds| - 1]);
      if ds[|ds| - 1] < ds[k] then |ds| - 1 else k
  }

  /** Index of the first largest entry: Python's `max` with a key keeps the
      first of several equal maxima. */
  function FirstMaxIndex(vs: seq<real>): (k: nat)
    requires |vs| > 0
    ensures k < |vs|
    ensures forall i :: 0 <= i < |vs| ==> vs[i] <= vs[k]
    ensures forall i :: 0 <= i < k ==> vs[i] < vs[k]
  {
    if |vs| == 1 then 0
    else
      var k := FirstMaxIndex(vs[..|vs| - 1]);
      if vs[|vs| - 1] > vs[k] then |vs| - 1 else k
  }
}

=== FILE: qtable.dfy ===
/** The tabular Q-function of the learning decision agent (`decision2.py`):
    rows created lazily per state, the bootstrapped update of the previous
    transition, the terminal TD(0) update, and the greedy pick. The state type
    is left open; the agent uses its visual matrix. */
module QTable {
  import opened Wrappers
  import opened Seqs

  /** An action: an element name, "accept" or "reject". */
  type Action = string

  /** The action values of one state. */
  type Row = map<Action, real>

  /** The row holds exactly the agent's actions. */
  ghost predicate RowOver(row: Row, actions: seq<Action>) {
    forall a :: a in row <==> a in actions
  }

  /** Every row of the table holds exactly the agent's actions. */
  ghost predicate TableOver<S>(q: map<S, Row>, actions: seq<Action>) {
    forall s :: s in q ==> RowOver(q[s], actions)
  }

  /** The row a state gets when it is first entered. */
  function ZeroRow(actions: seq<Action>): (row: Row)
    ensures RowOver(row, actions)
    ensures forall a :: a in row ==> row[a] == 0.0
  {
    map a | a in actions :: 0.0
  }

  /** `set_state`: enter the state into the table, with every action at 0.0
      when it is new; nothing already in the table changes. */
  function SetState<S>(q: map<S, Row>, actions: seq<Action>, s: S): (r: map<S, Row>)
    ensures r.Keys == q.Keys + {s}
    ensures forall t :: t in q ==> r[t] == q[t]
    ensures s !in q ==> RowOver(r[s], actions) && forall a :: a in r[s] ==> r[s][a] == 0.0
  {
    if s in q then q else q[s := ZeroRow(actions)]
  }

  /** Entering a state twice is entering it once, and a table over the
      actions stays one. */
  lemma SetStateIdempotent<S>(q: map<S, Row>, actions: seq<Action>, s: S)
    ensures SetState(SetState(q, actions, s), actions, s) == SetState(q, actions, s)
    ensures TableOver(q, actions) ==> TableOver(SetState(q, actions, s), actions)
  {
  }

  /** The values of `actions` in the row, in action order. */
  function Values(row: Row, actions: seq<Action>): (vs: seq<real>)
    requires forall a :: a in actions ==> a in row
    ensures |vs| == |actions|
    ensures forall i :: 0 <= i < |actions| ==> vs[i] == row[actions[i]]
  {
    seq(|actions|, i requires 0 <= i < |actions| => row[actions[i]])
  }

  /** `a` is the first action, in action order, of largest value. */
  ghost predicate FirstBest(row: Row, actions: seq<Action>, a: Action)
    requires forall x :: x in actions ==> x in row
  {
    exists k :: FirstBestAt(row, actions, k) && actions[k] == a
  }

  ghost predicate FirstBestAt(row: Row, actions: seq<Action>, k: int)
    requires forall x :: x in actions ==> x in row
  {
    && 0 <= k < |actions|
    && (forall i :: 0 <= i < |actions| ==> row[actions[i]] <= row[actions[k]])
    && (forall i :: 0 <= i < k ==> row[actions[i]] < row[actions[k]])
  }

  /** The greedy branch of `choose_action_epsilon_greedy`: `max` over the
      row's items keeps the first largest in insertion order, which is the
      action order. */
  function Greedy(row: Row, actions: seq<Action>): (a: Action)
    requires |actions| > 0
    requires forall x :: x in actions ==> x in row
    ensures a in actions
    ensures FirstBest(row, actions, a)
  {
    var k := FirstMaxIndex(Values(row, actions));
    assert FirstBestAt(row, actions, k);
    actions[k]
  }

  /** Only one action can be the first best: the greedy pick is determined by
      the row alone. */
  lemma GreedyUnique(row: Row, actions: seq<Action>, a: Action)
    requires |actions| > 0
    requires forall x :: x in actions ==> x in row
    requires FirstBest(row, actions, a)
    ensures a == Greedy(row, actions)
  {
    var k :| FirstBestAt(row, actions, k) && actions[k] == a;
    var g :| FirstBestAt(row, actions, g) && actions[g] == Greedy(row, actions);
  }

  /** The largest value in the row: `max(row.items(), key=itemgetter(1))[1]`. */
  function BestValue(row: Row, actions: seq<Action>): (v: real)
    requires |actions| > 0
    requires forall x :: x in actions ==> x in row
    ensures forall a :: a in actions ==> row[a] <= v
    ensures v == row[Greedy(row, actions)]
  {
    row[Greedy(row, actions)]
  }

  /** One step of the learning rule: move `prior` towards `target` by the
      fraction `alpha`. */
  function Blend(prior: real, target: real, alpha: real): real {
    prior + alpha * (target - prior)
  }

  /** The bootstrapped target of the learning rule: the reward plus the
      discounted value of what follows. */
  function Target(reward: real, gamma: real, next: real): real {
    reward + gamma * next
  }

  /** With a rate in [0, 1] the new value lies between the prior value and the
      target; rate 0 keeps the prior value and rate 1 takes the target. */
  lemma BlendBetween(prior: real, target: real, alpha: real)
    requires 0.0 <= alpha <= 1.0
    ensures prior <= target ==> prior <= Blend(prior, target, alpha) <= target
    ensures target <= prior ==> target <= Blend(prior, target, alpha) <= prior
    ensures alpha == 0.0 ==> Blend(prior, target, alpha) == prior
    ensures alpha == 1.0 ==> Blend(prior, target, alpha) == target
  {
    var b := Blend(prior, target, alpha);
    assert b == prior + alpha * target - alpha * prior;
    if prior <= target {
      Scaled(alpha, prior, target);
    } else {
      Scaled(alpha, target, prior);
    }
  }

  /** Scaling the interval `[x, y]` by a fraction `a` shrinks it: the scaled
      width `a * y - a * x` lies between nothing and `y - x`. Every product
      here is of two variables, so the arithmetic stays linear in them. */
  lemma Scaled(a: real, x: real, y: real)
    requires 0.0 <= a <= 1.0 && x <= y
    ensures 0.0 <= a * y - a * x <= y - x
  {
    var z := y - x;
    var p := a * z;
    Fraction(a, z);
    Distrib(a, x, y, z);
    assert 0.0 <= p <= z;
    assert p == a * y - a * x;
  }

  /** A fraction of a non-negative amount lies between nothing and all of it. */
  lemma Fraction(alpha: real, d: real)
    requires 0.0 <= alpha <= 1.0 && d >= 0.0
    ensures 0.0 <= alpha * d <= d
  {
  }

  /** Multiplication distributes over a difference named `z`. */
  lemma Distrib(a: real, x: real, y: real, z: real)
    requires z == y - x
    ensures a * z == a * y - a * x
  {
  }

  /** `r` is `q` with the single entry `(s, a)` set to `v`. */
  ghost predicate OnlyChanged<S>(q: map<S, Row>, r: map<S, Row>, s: S, a: Action, v: real)
    requires s in q
  {
    && r.Keys == q.Keys
    && r[s] == q[s][a := v]
    && (forall t :: t in q && t != s ==> r[t] == q[t])
  }

  /** `update_q_learning`: with no previous action (the first step of an
      episode) nothing is learnt; otherwise the previous state-action value
      moves towards the reward plus the discounted best value of the current
      state, and nothing else changes. */
  function UpdateQLearning<S>(q: map<S, Row>, actions: seq<Action>, previousState: S,
                              previousAction: Option<Action>, current: S,
                              reward: real, alpha: real, gamma: real): (r: Result<map<S, Row>>)
    requires TableOver(q, actions)
    ensures r.Ok? ==> TableOver(r.value, actions)
    ensures previousAction.None? ==> r == Ok(q)
    ensures previousAction.Some? ==>
      (r.Ok? <==> previousState in q && previousAction.value in actions && current in q && |actions| > 0)
    ensures previousAction.Some? && r.Ok? ==>
      OnlyChanged(q, r.value, previousState, previousAction.value,
                  Blend(q[previousState][previousAction.value], Target(reward, gamma, BestValue(q[current], actions)), alpha))
  {
    if previousAction.None? then Ok(q)
    else if previousState !in q then Err(KeyError)
    else if previousAction.value !in q[previousState] then
      assert RowOver(q[previousState], actions);
      Err(KeyError)
    else if current !in q then Err(KeyError)
    else if |actions| == 0 then Err(ValueError)
    else
      var prior := q[previousState][previousAction.value];
      var next := BestValue(q[current], actions);
      var t := q[previousState := q[previousState][previousAction.value := Blend(prior, Target(reward, gamma, next), alpha)]];
      assert Blend(prior, Target(reward, gamma, next), alpha)
          == Blend(q[previousState][previousAction.value], Target(reward, gamma, BestValue(q[current], actions)), alpha);
      assert t[previousState] == q[previousState][previousAction.value := Blend(prior, Target(reward, gamma, next), alpha)];
      OnlyChangedKeepsTable(q, t, actions, previousState, previousAction.value, Blend(prior, Target(reward, gamma, next), alpha));
      Ok(t)
  }

  /** What a successful update did, as a lemma to apply to a named result. */
  lemma UpdateQLearningChanged<S>(q: map<S, Row>, actions: seq<Action>, previousState: S, previousAction: Action,
                                  current: S, reward: real, alpha: real, gamma: real, t: map<S, Row>)
    requires TableOver(q, actions)
    requires UpdateQLearning(q, actions, previousState, Some(previousAction), current, reward, alpha, gamma) == Ok(t)
    ensures previousState in q && previousAction in q[previousState] && current in q && |actions| > 0
    ensures OnlyChanged(q, t, previousState, previousAction,
                        Blend(q[previousState][previousAction], Target(reward, gamma, BestValue(q[current], actions)), alpha))
  {
    assert RowOver(q[previousState], actions);
  }

  /** `update_q_td`: the terminal update, towards the reward alone. */
  function UpdateQTd<S>(q: map<S, Row>, current: S, action: Action, reward: real, alpha: real)
    : (r: Result<map<S, Row>>)
    ensures r.Ok? <==> current in q && action in q[current]
    ensures r.Ok? ==> OnlyChanged(q, r.value, current, action, Blend(q[current][action], reward, alpha))
  {
    if current !in q || action !in q[current] then Err(KeyError)
    else Ok(q[current := q[current][action := Blend(q[current][action], reward, alpha)]])
  }

  /** For a rate in [0, 1] the terminal update leaves the entry between its
      old value and the reward. */
  lemma UpdateQTdBetween<S>(q: map<S, Row>, current: S, action: Action, reward: real, alpha: real)
    requires 0.0 <= alpha <= 1.0
    requires UpdateQTd(q, current, action, reward, alpha).Ok?
    ensures var prior := q[current][action];
      var v := UpdateQTd(q, current, action, reward, alpha).value[current][action];
      (prior <= reward ==> prior <= v <= reward) && (reward <= prior ==> reward <= v <= prior)
  {
    BlendBetween(q[current][action], reward, alpha);
  }

  /** Changing one entry of a row that already holds the action keeps a
      table over the actions one. */
  lemma OnlyChangedKeepsTable<S>(q: map<S, Row>, r: map<S, Row>, actions: seq<Action>, s: S, a: Action, v: real)
    requires TableOver(q, actions)
    requires s in q && a in q[s]
    requires OnlyChanged(q, r, s, a, v)
    ensures TableOver(r, actions)
  {
    assert RowOver(r[s], actions);
  }
}

=== FILE: search.dfy ===
/** The two search loops of `ui.py`: nearest-first exhaustive search and
    saliency-guided search with inhibition of return and long-term-memory
    recall. Both are written as recursion over the elements still to search. */
module Search {
  import opened Wrappers
  import opened Numerics
  import opened Seqs
  import opened Layout
  import opened Timing
  import opened Attention

  /** What a search loop did after its start: the elements chosen in turn,
      the fixation each was looked at from, whether EMMA moved the eye to
      it, the time charged for each look, and their total. */
  datatype Run = Run(time: real, chosen: seq<Name>, eyes: seq<Name>, moves: seq<bool>, times: seq<real>)

  /** A finished search: the total time and scanpath Python returns, the
      searched elements (the start, then the chosen ones) and the run. */
  datatype Outcome = Outcome(time: real, scanpath: seq<Name>, searched: seq<Name>, run: Run)

  /** A run that started with `searched` done and the eye on `eye`: it never
      repeats an element, only chooses elements, moves the eye as EMMA (or
      `force`) says, every look was timed by EMMA, and its time is the total
      of those looks. */
  ghost predicate Walked(u: Ui, m: Maths, eye: Name, searched: seq<Name>, force: bool, run: Run) {
    && EyeTrace(eye, run.chosen, run.eyes, run.moves, force)
    && Distinct(searched + run.chosen)
    && (forall n :: n in run.chosen ==> n in u.elements)
    && |searched| + |run.chosen| <= |u.order|
    && Timed(u, m, run.eyes, run.chosen, run.moves, run.times)
    && run.time == Total(run.times)
  }

  /** Every chosen element was looked at by EMMA from the fixation recorded
      for it, with the recorded outcome and time. */
  ghost predicate Timed(u: Ui, m: Maths, eyes: seq<Name>, chosen: seq<Name>, moves: seq<bool>, times: seq<real>)
    decreases |chosen|
  {
    && |eyes| == |chosen| == |moves| == |times|
    && (|chosen| > 0 ==>
          && Looked(u, m, eyes[0], chosen[0], moves[0], times[0])
          && Timed(u, m, eyes[1..], chosen[1..], moves[1..], times[1..]))
  }

  /** The sum of the times, first to last. */
  function Total(times: seq<real>): real
    decreases |times|
  {
    if |times| == 0 then 0.0 else times[0] + Total(times[1..])
  }

  /** The run stopped exactly when the target was chosen, or else when no
      element was left. */
  ghost predicate EndedAt(u: Ui, searched: seq<Name>, target: Option<Name>, run: Run) {
    && (|searched| + |run.chosen| == |u.order| ||
        (|run.chosen| > 0 && Some(run.chosen[|run.chosen| - 1]) == target))
    && (forall i :: 0 <= i < |run.chosen| - 1 ==> Some(run.chosen[i]) != target)
  }

  /** EMMA can time a look at any element from any element: the viewing
      distance is non-zero and every frequency is positive. */
  ghost predicate Timeable(u: Ui) {
    && u.userDistance != 0
    && (forall n :: n in u.elements ==> u.elements[n].frequency > 0.0)
  }

  /** A duplicate-free list shorter than the surface leaves some element out. */
  lemma SomeUnsearched(u: Ui, searched: seq<Name>)
    requires Indexed(u) && Distinct(searched) && |searched| < |u.order|
    ensures exists n :: n in u.elements && n !in searched
  {
    if forall n :: n in u.elements ==> n in searched {
      OrderSize(u);
      DistinctCard(searched);
      SubsetCard(u.elements.Keys, set x | x in searched);
      assert false;
    }
  }

  /** The run that does nothing. */
  function Idle(): Run {
    Run(0.0, [], [], [], [])
  }

  /** One step in front of a run. */
  function Step(time: real, next: Name, eye: Name, moved: bool, rest: Run): Run {
    Run(time + rest.time, [next] + rest.chosen, [eye] + rest.eyes, [moved] + rest.moves, [time] + rest.times)
  }

  /** The elements of `order` not yet in `done`, in element order. */
  function Unsearched(order: seq<Name>, done: seq<Name>): (r: seq<Name>)
    ensures |r| <= |order|
    ensures forall n :: n in r <==> n in order && n !in done
  {
    if |order| == 0 then []
    else (if order[0] in done then [] else [order[0]]) + Unsearched(order[1..], done)
  }

  /** The inner scan of `exhaustive_visual_search`: the first unsearched
      element, in element order, whose centre is nearest to that of the
      fixation `eye`. Looking up a fixation that is not an element raises
      KeyError, and so does timing the missing pick when nothing is left. */
  function NextNearest(u: Ui, eye: Name, done: seq<Name>): (r: Result<Name>)
    requires Indexed(u)
    ensures r.Ok? <==> eye in u.elements && exists n :: n in u.elements && n !in done
    ensures r.Err? ==> r.error == KeyError
    ensures r.Ok? ==> r.value in u.elements && r.value !in done
    ensures r.Ok? ==> NearestPick(u, eye, done, r.value)
  {
    var c := Unsearched(u.order, done);
    if eye !in u.elements || |c| == 0 then
      assert forall n :: n in u.elements && n !in done ==> n in c;
      Err(KeyError)
    else
      var k := ClosestIndex(u, Loc(u.elements[eye]), c);
      assert c[k] in c;
      assert NearestPick(u, eye, done, c[k]);
      Ok(c[k])
  }

  /** `n` is the first unsearched element, in element order, whose centre
      is nearest to that of the fixation `eye`. */
  ghost predicate NearestPick(u: Ui, eye: Name, done: seq<Name>, n: Name)
    requires Indexed(u) && eye in u.elements
  {
    NearestAmong(u, Loc(u.elements[eye]), Unsearched(u.order, done), n)
  }

  /** Each step of a nearest-first run: the pick is `NextNearest` from the
      current fixation over what is searched so far. */
  ghost predicate NearestSteps(u: Ui, done: seq<Name>, eyes: seq<Name>, chosen: seq<Name>)
    requires Indexed(u)
    requires |eyes| == |chosen|
    decreases |chosen|
  {
    |chosen| == 0 ||
    (NextNearest(u, eyes[0], done) == Ok(chosen[0]) &&
     NearestSteps(u, done + [chosen[0]], eyes[1..], chosen[1..]))
  }

  /** The empty run is a walk from any duplicate-free start that fits the
      board. */
  lemma IdleWalked(u: Ui, m: Maths, eye: Name, searched: seq<Name>, force: bool)
    requires Distinct(searched) && |searched| <= |u.order|
    ensures Walked(u, m, eye, searched, force, Idle())
  {
    assert searched + [] == searched;
  }

  /** Putting a step with a fresh element in front of a run keeps it a walk. */
  lemma WalkedCons(u: Ui, m: Maths, eye: Name, searched: seq<Name>, force: bool,
                   next: Name, moved: bool, time: real, rest: Run)
    requires next in u.elements && next !in searched
    requires |searched| < |u.order|
    requires Looked(u, m, eye, next, moved, time)
    requires Walked(u, m, if moved || force then next else eye, searched + [next], force, rest)
    ensures Walked(u, m, eye, searched, force, Step(time, next, eye, moved, rest))
  {
    var run := Step(time, next, eye, moved, rest);
    AppendAssoc(searched, [next], rest.chosen);
    EyeTraceCons(eye, next, moved, force, rest.chosen, rest.eyes, rest.moves);
    assert run.eyes[1..] == rest.eyes && run.chosen[1..] == rest.chosen;
    assert run.moves[1..] == rest.moves && run.times[1..] == rest.times;
    assert forall n :: n in run.chosen ==> n == next || n in rest.chosen;
  }

  /** Putting a step that is not the target in front of a run keeps its end. */
  lemma EndedAtCons(u: Ui, searched: seq<Name>, target: Option<Name>,
                    next: Name, eye: Name, moved: bool, time: real, rest: Run)
    requires Some(next) != target
    requires EndedAt(u, searched + [next], target, rest)
    ensures EndedAt(u, searched, target, Step(time, next, eye, moved, rest))
  {
    var run := Step(time, next, eye, moved, rest);
    forall i | 1 <= i < |run.chosen| - 1 ensures Some(run.chosen[i]) != target {
      assert run.chosen[i] == rest.chosen[i - 1];
    }
    if |rest.chosen| > 0 {
      assert run.chosen[|run.chosen| - 1] == rest.chosen[|rest.chosen| - 1];
    }
  }

  /** The loop of `exhaustive_visual_search` from the fixation `eye` with
      `searched` done: pick the nearest unsearched element, time the look
      with EMMA, stop at the target, and move the eye only when EMMA moved it. */
  function NearestLoop(u: Ui, m: Maths, eye: Name, searched: seq<Name>, target: Option<Name>): (r: Result<Run>)
    requires Indexed(u)
    requires Distinct(searched) && |searched| <= |u.order|
    ensures r.Ok? ==> NearestRun(u, m, eye, searched, target, r.value)
    ensures Timeable(u) && eye in u.elements ==> r.Ok?
    decreases |u.order| - |searched|
  {
    if |searched| == |u.order| then Ok(Idle())
    else
      SomeUnsearched(u, searched);
      var next :- NextNearest(u, eye, searched);
      var fx :- EmmaTime(u, m, next, Some(eye));
      assert Looked(u, m, eye, next, fx.moved, fx.time);
      DistinctConcat(searched, [next]);
      if Some(next) == target then
        NearestCons(u, m, eye, searched, target, next, fx.moved, fx.time, Idle());
        Ok(Step(fx.time, next, eye, fx.moved, Idle()))
      else
        var rest :- NearestLoop(u, m, if fx.moved then next else eye, searched + [next], target);
        NearestCons(u, m, eye, searched, target, next, fx.moved, fx.time, rest);
        Ok(Step(fx.time, next, eye, fx.moved, rest))
  }

  /** What a run of the nearest-first loop guarantees: it walks like every
      search, ends at the target or when nothing is left, and always takes
      the nearest unsearched element. */
  ghost predicate NearestRun(u: Ui, m: Maths, eye: Name, searched: seq<Name>, target: Option<Name>, run: Run)
    requires Indexed(u)
  {
    && Walked(u, m, eye, searched, false, run)
    && EndedAt(u, searched, target, run)
    && NearestSteps(u, searched, run.eyes, run.chosen)
  }

  /** The guarantees of the nearest-first loop carry over one more step in front. */
  lemma NearestCons(u: Ui, m: Maths, eye: Name, searched: seq<Name>, target: Option<Name>,
                    next: Name, moved: bool, time: real, rest: Run)
    requires Indexed(u)
    requires NextNearest(u, eye, searched) == Ok(next) && |searched| < |u.order|
    requires Looked(u, m, eye, next, moved, time)
    requires Some(next) == target ==> rest == Idle() && Distinct(searched + [next])
    requires Some(next) != target ==> NearestRun(u, m, if moved then next else eye, searched + [next], target, rest)
    ensures NearestRun(u, m, eye, searched, target, Step(time, next, eye, moved, rest))
  {
    if Some(next) == target {
      IdleWalked(u, m, if moved then next else eye, searched + [next], false);
    }
    WalkedCons(u, m, eye, searched, false, next, moved, time, rest);
    if Some(next) != target {
      EndedAtCons(u, searched, target, next, eye, moved, time, rest);
    }
    NearestStepsCons(u, eye, searched, next, rest.eyes, rest.chosen);
  }

  /** A nearest-first choice in front of nearest-first steps. */
  lemma NearestStepsCons(u: Ui, eye: Name, searched: seq<Name>, next: Name, eyes: seq<Name>, chosen: seq<Name>)
    requires Indexed(u) && |eyes| == |chosen|
    requires NextNearest(u, eye, searched) == Ok(next)
    requires NearestSteps(u, searched + [next], eyes, chosen)
    ensures NearestSteps(u, searched, [eye] + eyes, [next] + chosen)
  {
    assert ([eye] + eyes)[1..] == eyes && ([next] + chosen)[1..] == chosen;
  }

  /** The scanpath of a run from `start`: the start, then each element the
      eye moved to. */
  function Scanpath(start: Name, run: Run): (p: seq<Name>)
    requires |run.moves| == |run.chosen|
    ensures |p| >= 1 && p[0] == start
    ensures forall n :: n in p ==> n == start || n in run.chosen
  {
    [start] + Select(run.chosen, run.moves)
  }

  /** `exhaustive_visual_search`. The start defaults to the eye location. A
      start that is not an element is returned alone when the surface holds
      exactly one element, and raises KeyError otherwise. */
  function ExhaustiveVisualSearch(u: Ui, m: Maths, start: Option<Name>, target: Option<Name>): (r: Result<Outcome>)
    requires WellFormed(u)
    ensures var s := if start.Some? then start else u.eyeLoc;
      && (|u.order| == 0 ==> r == Err(KeyError))
      && (|u.order| == 1 && s.Some? ==> r == Ok(Outcome(0.0, [s.value], [s.value], Idle())))
      && (|u.order| > 1 && s.Some? && s.value !in u.elements ==> r == Err(KeyError))
      && (|u.order| > 1 && s.Some? && s.value in u.elements && Timeable(u) ==> r.Ok?)
      && (r.Ok? ==>
            && s.Some?
            && r.value.searched == [s.value] + r.value.run.chosen
            && |r.value.run.moves| == |r.value.run.chosen|
            && r.value.scanpath == Scanpath(s.value, r.value.run)
            && r.value.time == r.value.run.time
            && Walked(u, m, s.value, [s.value], false, r.value.run)
            && EndedAt(u, [s.value], target, r.value.run)
            && NearestSteps(u, [s.value], r.value.run.eyes, r.value.run.chosen))
  {
    var s := if start.Some? then start else u.eyeLoc;
    if |u.order| == 0 || s.None? then Err(KeyError)
    else if |u.order| == 1 then Ok(Outcome(0.0, [s.value], [s.value], Idle()))
    else if s.value !in u.elements then Err(KeyError)
    else
      var run :- NearestLoop(u, m, s.value, [s.value], target);
      Ok(Outcome(run.time, Scanpath(s.value, run), [s.value] + run.chosen, run))
  }

  /** Python treats a recall time as present when it is a non-zero number;
      recall takes over once the time spent reaches it. */
  predicate Recalls(rt: Option<real>, mt: real) {
    rt.Some? && rt.value != 0.0 && mt >= rt.value
  }

  /** The recall time of what long-term memory holds for the target, if it
      holds anything. */
  function RecallFor(m: Maths, memory: map<Name, Expertise>, target: Option<Name>): (r: Result<Option<real>>)
    ensures target.None? || target.value !in memory ==> r == Ok(None)
    ensures target.Some? && target.value in memory ==>
      && (r.Ok? <==> memory[target.value].Strength?)
      && (r.Ok? ==> r.value == Some(RecallTime(m, memory[target.value]).value))
  {
    if target.None? || target.value !in memory then Ok(None)
    else
      var t :- RecallTime(m, memory[target.value]);
      Ok(Some(t))
  }

  /** What learning an element's position leaves for the searches: recalling
      that element gives the recall time of the resolved strength (a
      TypeError for a label that does not resolve to one), and recalling any
      other element gives what it gave before. */
  lemma LearnedPosRecalled(u: Ui, m: Maths, e: Name, ex: Expertise)
    requires e in u.elements
    ensures LearnElementPos(u, e, ex).Ok?
    ensures var learned := LearnElementPos(u, e, ex).value.ltmPos;
      && RecallFor(m, learned, Some(e))
         == (if ResolveExpertise(ex).Strength? then Ok(Some(RecallTime(m, ResolveExpertise(ex)).value))
             else Err(TypeError))
      && forall n :: n != e ==> RecallFor(m, learned, Some(n)) == RecallFor(m, u.ltmPos, Some(n))
  {
  }

  /** The same for an element's colour and the colour recall; besides, once
      colour recall applies, a guided search for that element looks for the
      colour it had when it was learned. */
  lemma LearnedColorRecalled(u: Ui, m: Maths, e: Name, ex: Expertise)
    requires e in u.elements
    ensures LearnElementColor(u, e, ex).Ok?
    ensures var learned := LearnElementColor(u, e, ex).value.ltmColor;
      && RecallFor(m, learned, Some(e))
         == (if ResolveExpertise(ex).Strength? then Ok(Some(RecallTime(m, ResolveExpertise(ex)).value))
             else Err(TypeError))
      && forall n :: n != e ==> RecallFor(m, learned, Some(n)) == RecallFor(m, u.ltmColor, Some(n))
    ensures forall feature, rtCol, mt :: Recalls(rtCol, mt) ==>
      RecalledFeature(LearnElementColor(u, e, ex).value, Some(e), feature, rtCol, mt) == Ok(Some(u.elements[e].color))
  {
  }

  /** The colour asked for at a step of the guided search: once colour
      recall applies, the remembered colour of the target. */
  function RecalledFeature(u: Ui, target: Option<Name>, feature: Option<Color>,
                           rtCol: Option<real>, mt: real): (r: Result<Option<Color>>)
    ensures !Recalls(rtCol, mt) ==> r == Ok(feature)
    ensures Recalls(rtCol, mt) ==> (r.Ok? <==> target.Some? && target.value in u.ltmColorFact)
    ensures Recalls(rtCol, mt) && r.Ok? ==> r.value == Some(u.ltmColorFact[target.value])
  {
    if !Recalls(rtCol, mt) then Ok(feature)
    else if target.None? || target.value !in u.ltmColorFact then Err(KeyError)
    else Ok(Some(u.ltmColorFact[target.value]))
  }

  /** `n` carries the largest value of `c`, and no earlier entry ties with it. */
  ghost predicate StrongestPick(c: seq<Scored>, n: Name) {
    exists k :: 0 <= k < |c| && c[k].name == n
      && (forall i :: 0 <= i < |c| ==> c[i].value <= c[k].value)
      && (forall i :: 0 <= i < k ==> c[i].value < c[k].value)
  }

  /** Each chosen element was, when chosen, the strongest of the ranking seen
      from that step's eye location with everything chosen so far inhibited. */
  ghost predicate StrongestSteps(u: Ui, m: Maths, feature: Option<Color>, done: seq<Name>,
                                 eyes: seq<Name>, chosen: seq<Name>)
    requires Indexed(u)
    decreases |chosen|
  {
    && |eyes| == |chosen|
    && (|chosen| > 0 ==>
          && Candidates(u, m, eyes[0], feature, done).Ok?
          && StrongestPick(Candidates(u, m, eyes[0], feature, done).value, chosen[0])
          && StrongestSteps(u, m, feature, done + [chosen[0]], eyes[1..], chosen[1..]))
  }

  lemma StrongestStepsCons(u: Ui, m: Maths, feature: Option<Color>, done: seq<Name>,
                           time: real, next: Name, eye: Name, moved: bool, rest: Run)
    requires Indexed(u)
    requires Candidates(u, m, eye, feature, done).Ok?
    requires StrongestPick(Candidates(u, m, eye, feature, done).value, next)
    requires StrongestSteps(u, m, feature, done + [next], rest.eyes, rest.chosen)
    ensures var run := Step(time, next, eye, moved, rest);
      StrongestSteps(u, m, feature, done, run.eyes, run.chosen)
  {
    var run := Step(time, next, eye, moved, rest);
    assert run.eyes[0] == eye && run.chosen[0] == next;
    assert run.eyes[1..] == rest.eyes && run.chosen[1..] == rest.chosen;
  }

  /** One choice of `exhaustive_guided_visual_search` among the ranked
      candidates `c`: the one of largest activation, or, once position recall
      applies, the one nearest to the target's remembered position. Choosing
      from no candidates raises ValueError; recalling the position of a target
      long-term memory holds no position for raises KeyError. */
  function GuidedPick(u: Ui, c: seq<Scored>, target: Option<Name>, rtPos: Option<real>, mt: real): (r: Result<Name>)
    requires forall x :: x in c ==> x.name in u.elements
    ensures |c| == 0 ==> r == Err(ValueError)
    ensures |c| > 0 ==> (r.Err? <==> Recalls(rtPos, mt) && (target.None? || target.value !in u.ltmPosFact))
    ensures r.Err? ==> r.error == ValueError || r.error == KeyError
    ensures r.Ok? ==> HasName(c, r.value)
    ensures r.Ok? ==> PickRule(u, c, target, rtPos, mt, r.value)
    ensures r.Ok? && !Recalls(rtPos, mt) ==> StrongestPick(c, r.value)
    ensures r.Ok? && Recalls(rtPos, mt) ==>
      && target.Some? && target.value in u.ltmPosFact
      && NearestAmong(u, u.ltmPosFact[target.value], Names(c), r.value)
  {
    if |c| == 0 then Err(ValueError)
    else if !Recalls(rtPos, mt) then Ok(Strongest(c))
    else if target.None? || target.value !in u.ltmPosFact then Err(KeyError)
    else Ok(NearestCandidate(u, u.ltmPosFact[target.value], c))
  }

  /** The name of the strongest entry, the first of equal maxima. */
  function Strongest(c: seq<Scored>): (n: Name)
    requires |c| > 0
    ensures StrongestPick(c, n) && HasName(c, n)
  {
    var k := StrongestIndex(c);
    c[k].name
  }

  /** The name among the entries whose element is nearest to `p`, the first
      of equally near ones (`closest_element` over the entries' names). */
  function NearestCandidate(u: Ui, p: Point, c: seq<Scored>): (n: Name)
    requires |c| > 0
    requires forall x :: x in c ==> x.name in u.elements
    ensures forall x :: x in Names(c) ==> x in u.elements
    ensures NearestAmong(u, p, Names(c), n) && HasName(c, n)
  {
    var names := Names(c);
    assert forall n :: n in names ==> n in u.elements by {
      forall n | n in names ensures n in u.elements {
        var i :| 0 <= i < |names| && names[i] == n;
        assert c[i] in c;
      }
    }
    var k := ClosestIndex(u, p, names);
    assert NearestAmong(u, p, names, names[k]);
    names[k]
  }

  /** A name of a ranking of the unsearched elements is an unsearched element;
      when every element is searched the ranking is empty. */
  lemma RankedMember(u: Ui, searched: seq<Name>, c: seq<Scored>, n: Name)
    requires RanksUnsearched(u, searched, c)
    ensures HasName(c, n) ==> n in u.elements && n !in searched
    ensures |c| > 0 ==> exists e :: e in u.elements && e !in searched
  {
    if HasName(c, n) {
      var i :| 0 <= i < |c| && c[i].name == n;
      assert c[i] in c;
    }
    if |c| > 0 {
      assert c[0] in c;
    }
  }

  /** The loop of `exhaustive_guided_visual_search`: compute the activation
      seen from `eye`, switch to the remembered colour once colour recall
      applies, choose, time the look with EMMA, stop at the target, and move
      the eye when EMMA moved it or fixations are forced. `mt` is the time
      spent before this step. */
  function GuidedLoop(u: Ui, m: Maths, eye: Name, searched: seq<Name>, target: Option<Name>,
                      feature: Option<Color>, rtPos: Option<real>, rtCol: Option<real>,
                      force: bool, mt: real): (r: Result<Run>)
    requires Indexed(u)
    requires Distinct(searched) && |searched| <= |u.order|
    ensures r.Ok? ==> GuidedRun(u, m, eye, searched, target, feature, rtPos, rtCol, force, mt, r.value)
    ensures Timeable(u) && Rankable(u, m) && CanRecall(u, target, rtPos, rtCol) && eye in u.elements ==> r.Ok?
    decreases |u.order| - |searched|
  {
    if |searched| == |u.order| then Ok(Idle())
    else
      SomeUnsearched(u, searched);
      var ch :- GuidedChoice(u, m, eye, searched, target, feature, rtPos, rtCol, mt);
      var next := ch.next;
      DistinctConcat(searched, [next]);
      GuidedStepOf(u, m, target, feature, rtPos, rtCol, mt, searched, eye, ch.feature, next);
      NextFeatureOf(u, target, feature, rtCol, mt, ch.feature);
      if Some(next) == target then
        GuidedCons(u, m, eye, searched, target, feature, rtPos, rtCol, force, mt, ch, Idle());
        Ok(Step(ch.time, next, eye, ch.moved, Idle()))
      else
        var rest :- GuidedLoop(u, m, if ch.moved || force then next else eye, searched + [next],
                               target, ch.feature, rtPos, rtCol, force, mt + ch.time);
        GuidedCons(u, m, eye, searched, target, feature, rtPos, rtCol, force, mt, ch, rest);
        Ok(Step(ch.time, next, eye, ch.moved, rest))
  }

  /** Bottom-up activation can be computed from every element. */
  ghost predicate Rankable(u: Ui, m: Maths)
    requires Indexed(u)
  {
    forall e :: e in u.elements ==> BottomUp(u, m, e).Ok?
  }

  /** Whatever recall time is present can be acted on: long-term memory
      holds the target's position, or colour, for it. */
  ghost predicate CanRecall(u: Ui, target: Option<Name>, rtPos: Option<real>, rtCol: Option<real>) {
    && (rtPos.Some? ==> target.Some? && target.value in u.ltmPosFact)
    && (rtCol.Some? ==> target.Some? && target.value in u.ltmColorFact)
  }

  /** Every strength long-term memory holds for the target is numeric and
      comes with the remembered position, or colour. */
  ghost predicate Recallable(u: Ui, target: Option<Name>) {
    target.Some? ==>
      && (target.value in u.ltmPos ==> u.ltmPos[target.value].Strength? && target.value in u.ltmPosFact)
      && (target.value in u.ltmColor ==> u.ltmColor[target.value].Strength? && target.value in u.ltmColorFact)
  }

  /** One step of a guided run with `mt` spent before it: the colour asked
      for is `feature` or, once colour recall applies, the remembered one,
      and the pick is the `GuidedPick` of the candidates seen from `eye`
      with `done` inhibited. */
  ghost predicate GuidedStep(u: Ui, m: Maths, target: Option<Name>, feature: Option<Color>,
                             rtPos: Option<real>, rtCol: Option<real>, mt: real,
                             done: seq<Name>, eye: Name, next: Name)
    requires Indexed(u)
  {
    var feat := RecalledFeature(u, target, feature, rtCol, mt);
    && feat.Ok?
    && Candidates(u, m, eye, feat.value, done).Ok?
    && PickRule(u, Candidates(u, m, eye, feat.value, done).value, target, rtPos, mt, next)
  }

  /** The choice rule of the guided search over the ranked candidates `c`:
      the strongest, or, once position recall applies, the first one nearest
      to the target's remembered position. */
  ghost predicate PickRule(u: Ui, c: seq<Scored>, target: Option<Name>, rtPos: Option<real>, mt: real, next: Name)
    requires forall x :: x in c ==> x.name in u.elements
  {
    if Recalls(rtPos, mt) then
      && target.Some? && target.value in u.ltmPosFact
      && (forall x :: x in Names(c) ==> x in u.elements)
      && NearestAmong(u, u.ltmPosFact[target.value], Names(c), next)
    else StrongestPick(c, next)
  }

  /** The colour asked for after a step: the recalled one once it applies. */
  function NextFeature(u: Ui, target: Option<Name>, feature: Option<Color>, rtCol: Option<real>, mt: real): Option<Color> {
    var feat := RecalledFeature(u, target, feature, rtCol, mt);
    if feat.Ok? then feat.value else feature
  }

  /** A pick made by `GuidedPick` after the colour recall is a guided step. */
  lemma GuidedStepOf(u: Ui, m: Maths, target: Option<Name>, feature: Option<Color>,
                     rtPos: Option<real>, rtCol: Option<real>, mt: real,
                     done: seq<Name>, eye: Name, f: Option<Color>, next: Name)
    requires Indexed(u)
    requires RecalledFeature(u, target, feature, rtCol, mt) == Ok(f)
    requires Candidates(u, m, eye, f, done).Ok?
    requires GuidedPick(u, Candidates(u, m, eye, f, done).value, target, rtPos, mt) == Ok(next)
    ensures GuidedStep(u, m, target, feature, rtPos, rtCol, mt, done, eye, next)
  {
  }

  /** The colour after a step whose recall succeeded is the recalled one. */
  lemma NextFeatureOf(u: Ui, target: Option<Name>, feature: Option<Color>, rtCol: Option<real>, mt: real, f: Option<Color>)
    requires RecalledFeature(u, target, feature, rtCol, mt) == Ok(f)
    ensures NextFeature(u, target, feature, rtCol, mt) == f
  {
  }

  /** The time spent before each step of a run whose looks took `times`,
      with `mt` spent at its start. */
  function Clock(mt: real, times: seq<real>): (starts: seq<real>)
    ensures |starts| == |times|
    ensures |times| > 0 ==> starts[0] == mt
    decreases |times|
  {
    if |times| == 0 then [] else [mt] + Clock(mt + times[0], times[1..])
  }

  /** The time before step `i` is what was spent at the start plus the times
      of the looks before it. */
  lemma {:induction false} ClockAt(mt: real, times: seq<real>, i: nat)
    requires i < |times|
    ensures Clock(mt, times)[i] == mt + Total(times[..i])
    decreases i
  {
    if i == 0 {
      assert times[..0] == [];
    } else {
      ClockAt(mt + times[0], times[1..], i - 1);
      assert times[..i][1..] == times[1..][..i - 1];
    }
  }

  /** Each step of a guided run: step `i`, with `starts[i]` spent before it,
      is a `GuidedStep` from that step's eye location with everything chosen
      before it inhibited, and the colour asked for carries over from step
      to step. */
  ghost predicate GuidedSteps(u: Ui, m: Maths, target: Option<Name>, feature: Option<Color>,
                              rtPos: Option<real>, rtCol: Option<real>, starts: seq<real>,
                              done: seq<Name>, eyes: seq<Name>, chosen: seq<Name>)
    requires Indexed(u)
    decreases |chosen|
  {
    && |eyes| == |chosen| == |starts|
    && (|chosen| > 0 ==>
          && GuidedStep(u, m, target, feature, rtPos, rtCol, starts[0], done, eyes[0], chosen[0])
          && GuidedSteps(u, m, target, NextFeature(u, target, feature, rtCol, starts[0]), rtPos, rtCol,
                         starts[1..], done + [chosen[0]], eyes[1..], chosen[1..]))
  }

  /** A guided step in front of guided steps. */
  lemma GuidedStepsCons(u: Ui, m: Maths, target: Option<Name>, feature: Option<Color>,
                        rtPos: Option<real>, rtCol: Option<real>, mt: real, tail: seq<real>,
                        done: seq<Name>, eye: Name, next: Name, eyes: seq<Name>, chosen: seq<Name>)
    requires Indexed(u)
    requires GuidedStep(u, m, target, feature, rtPos, rtCol, mt, done, eye, next)
    requires GuidedSteps(u, m, target, NextFeature(u, target, feature, rtCol, mt), rtPos, rtCol, tail,
                         done + [next], eyes, chosen)
    ensures GuidedSteps(u, m, target, feature, rtPos, rtCol, [mt] + tail, done, [eye] + eyes, [next] + chosen)
  {
    assert ([mt] + tail)[1..] == tail;
    assert ([eye] + eyes)[1..] == eyes && ([next] + chosen)[1..] == chosen;
  }

  /** With no recall time present the guided steps are the strongest picks
      for the colour asked for at the start. */
  lemma {:induction false} GuidedStepsStrongest(u: Ui, m: Maths, target: Option<Name>, feature: Option<Color>,
                                                rtPos: Option<real>, rtCol: Option<real>, starts: seq<real>,
                                                done: seq<Name>, eyes: seq<Name>, chosen: seq<Name>)
    requires Indexed(u)
    requires GuidedSteps(u, m, target, feature, rtPos, rtCol, starts, done, eyes, chosen)
    ensures rtPos.None? && rtCol.None? ==> StrongestSteps(u, m, feature, done, eyes, chosen)
    decreases |chosen|
  {
    if rtPos.None? && rtCol.None? && |chosen| > 0 {
      assert NextFeature(u, target, feature, rtCol, starts[0]) == feature;
      GuidedStepsStrongest(u, m, target, feature, rtPos, rtCol, starts[1..], done + [chosen[0]], eyes[1..], chosen[1..]);
    }
  }

  /** `n` is an element outside `done` at least as near to the remembered
      position of the target as every other element outside `done`. */
  ghost predicate NearestRecalled(u: Ui, target: Option<Name>, done: seq<Name>, n: Name) {
    && target.Some? && target.value in u.ltmPosFact
    && n in u.elements && n !in done
    && (forall x :: x in u.elements && x !in done ==>
          Dist2(u.ltmPosFact[target.value], Loc(u.elements[n])) <= Dist2(u.ltmPosFact[target.value], Loc(u.elements[x])))
  }

  /** Once position recall applies, every pick of a guided run is an
      unsearched element nearest to the remembered position of the target. */
  lemma {:induction false} RecallPicksNearest(u: Ui, m: Maths, target: Option<Name>, feature: Option<Color>,
                                              rtPos: Option<real>, rtCol: Option<real>, starts: seq<real>,
                                              done: seq<Name>, eyes: seq<Name>, chosen: seq<Name>, i: nat)
    requires Indexed(u)
    requires GuidedSteps(u, m, target, feature, rtPos, rtCol, starts, done, eyes, chosen)
    requires i < |chosen| && Recalls(rtPos, starts[i])
    ensures NearestRecalled(u, target, done + chosen[..i], chosen[i])
    decreases i
  {
    if i == 0 {
      RecallFirst(u, m, target, feature, rtPos, rtCol, starts, done, eyes, chosen);
    } else {
      GuidedStepsHead(u, m, target, feature, rtPos, rtCol, starts, done, eyes, chosen);
      TailAt(starts, i);
      RecallPicksNearest(u, m, target, NextFeature(u, target, feature, rtCol, starts[0]), rtPos, rtCol,
                         starts[1..], done + [chosen[0]], eyes[1..], chosen[1..], i - 1);
      NearestRecalledShift(u, target, done, chosen, i);
    }
  }

  /** A nearest recalled pick stated after the first step is one stated from
      the start of the steps. */
  lemma NearestRecalledShift(u: Ui, target: Option<Name>, done: seq<Name>, chosen: seq<Name>, i: nat)
    requires 0 < i < |chosen|
    requires NearestRecalled(u, target, done + [chosen[0]] + chosen[1..][..i - 1], chosen[1..][i - 1])
    ensures NearestRecalled(u, target, done + chosen[..i], chosen[i])
  {
    TailAt(chosen, i);
    PrefixShift(done, chosen, i);
  }

  /** `RecallPicksNearest` at every step of a guided run. */
  lemma RecallPicksAll(u: Ui, m: Maths, target: Option<Name>, feature: Option<Color>,
                       rtPos: Option<real>, rtCol: Option<real>, starts: seq<real>,
                       done: seq<Name>, eyes: seq<Name>, chosen: seq<Name>)
    requires Indexed(u)
    requires GuidedSteps(u, m, target, feature, rtPos, rtCol, starts, done, eyes, chosen)
    ensures |starts| == |chosen|
    ensures forall i :: 0 <= i < |chosen| && Recalls(rtPos, starts[i]) ==>
      NearestRecalled(u, target, done + chosen[..i], chosen[i])
  {
    forall i | 0 <= i < |chosen| && Recalls(rtPos, starts[i])
      ensures NearestRecalled(u, target, done + chosen[..i], chosen[i])
    {
      RecallPicksNearest(u, m, target, feature, rtPos, rtCol, starts, done, eyes, chosen, i);
    }
  }

  /** The first pick of guided steps that start with position recall. */
  lemma RecallFirst(u: Ui, m: Maths, target: Option<Name>, feature: Option<Color>,
                    rtPos: Option<real>, rtCol: Option<real>, starts: seq<real>,
                    done: seq<Name>, eyes: seq<Name>, chosen: seq<Name>)
    requires Indexed(u)
    requires GuidedSteps(u, m, target, feature, rtPos, rtCol, starts, done, eyes, chosen)
    requires 0 < |chosen| && Recalls(rtPos, starts[0])
    ensures NearestRecalled(u, target, done + chosen[..0], chosen[0])
  {
    GuidedStepsHead(u, m, target, feature, rtPos, rtCol, starts, done, eyes, chosen);
    RecallStep(u, m, target, feature, rtPos, rtCol, starts[0], done, eyes[0], chosen[0]);
    EmptyPrefix(done, chosen);
  }

  /** The first step of non-empty guided steps, and the steps after it. */
  lemma GuidedStepsHead(u: Ui, m: Maths, target: Option<Name>, feature: Option<Color>,
                        rtPos: Option<real>, rtCol: Option<real>, starts: seq<real>,
                        done: seq<Name>, eyes: seq<Name>, chosen: seq<Name>)
    requires Indexed(u)
    requires GuidedSteps(u, m, target, feature, rtPos, rtCol, starts, done, eyes, chosen)
    requires |chosen| > 0
    ensures |eyes| == |chosen| == |starts|
    ensures GuidedStep(u, m, target, feature, rtPos, rtCol, starts[0], done, eyes[0], chosen[0])
    ensures GuidedSteps(u, m, target, NextFeature(u, target, feature, rtCol, starts[0]), rtPos, rtCol,
                        starts[1..], done + [chosen[0]], eyes[1..], chosen[1..])
  {
  }

  /** A guided step taken once position recall applies picks a nearest
      unsearched element. */
  lemma RecallStep(u: Ui, m: Maths, target: Option<Name>, feature: Option<Color>,
                   rtPos: Option<real>, rtCol: Option<real>, mt: real,
                   done: seq<Name>, eye: Name, next: Name)
    requires Indexed(u)
    requires GuidedStep(u, m, target, feature, rtPos, rtCol, mt, done, eye, next)
    requires Recalls(rtPos, mt)
    ensures NearestRecalled(u, target, done, next)
  {
    var c := Candidates(u, m, eye, RecalledFeature(u, target, feature, rtCol, mt).value, done).value;
    PickedRanked(u, done, c, target, rtPos, mt, next);
  }

  /** A position-recall pick from a ranking of the unsearched elements is an
      unsearched element at least as near as every other. */
  lemma PickedRanked(u: Ui, searched: seq<Name>, c: seq<Scored>, target: Option<Name>, rtPos: Option<real>,
                     mt: real, n: Name)
    requires RanksUnsearched(u, searched, c)
    requires PickRule(u, c, target, rtPos, mt, n) && Recalls(rtPos, mt)
    ensures target.Some? && target.value in u.ltmPosFact
    ensures n in u.elements && n !in searched
    ensures forall x :: x in u.elements && x !in searched ==>
      Dist2(u.ltmPosFact[target.value], Loc(u.elements[n])) <= Dist2(u.ltmPosFact[target.value], Loc(u.elements[x]))
  {
    var names := Names(c);
    var k :| FirstNearest(u, u.ltmPosFact[target.value], names, k) && names[k] == n;
    assert c[k] in c;
    NearestUnsearched(u, searched, c, u.ltmPosFact[target.value], n);
  }

  /** The first nearest name of a ranking of the unsearched elements is at
      least as near as every unsearched element. */
  lemma NearestUnsearched(u: Ui, searched: seq<Name>, c: seq<Scored>, p: Point, n: Name)
    requires RanksUnsearched(u, searched, c)
    requires forall x :: x in Names(c) ==> x in u.elements
    requires NearestAmong(u, p, Names(c), n)
    ensures forall x :: x in u.elements && x !in searched ==>
      Dist2(p, Loc(u.elements[n])) <= Dist2(p, Loc(u.elements[x]))
  {
    var names := Names(c);
    var k :| FirstNearest(u, p, names, k) && names[k] == n;
    forall x | x in u.elements && x !in searched
      ensures Dist2(p, Loc(u.elements[n])) <= Dist2(p, Loc(u.elements[x]))
    {
      assert HasName(c, x);
      var j :| 0 <= j < |c| && c[j].name == x;
      assert names[j] == x;
      assert DistsFrom(u, p, names)[k] <= DistsFrom(u, p, names)[j];
    }
  }

  /** What a run of the guided loop guarantees: it walks like every search,
      ends at the target or when nothing is left, and every step asks for
      the colour and makes the pick the search rules give at its time. */
  ghost predicate GuidedRun(u: Ui, m: Maths, eye: Name, searched: seq<Name>, target: Option<Name>,
                            feature: Option<Color>, rtPos: Option<real>, rtCol: Option<real>,
                            force: bool, mt: real, run: Run)
    requires Indexed(u)
  {
    && Walked(u, m, eye, searched, force, run)
    && EndedAt(u, searched, target, run)
    && GuidedSteps(u, m, target, feature, rtPos, rtCol, Clock(mt, run.times), searched, run.eyes, run.chosen)
  }

  /** The guarantees of the guided loop carry over one more step in front. */
  lemma GuidedCons(u: Ui, m: Maths, eye: Name, searched: seq<Name>, target: Option<Name>,
                   feature: Option<Color>, rtPos: Option<real>, rtCol: Option<real>,
                   force: bool, mt: real, ch: Choice, rest: Run)
    requires Indexed(u)
    requires ch.next in u.elements && ch.next !in searched && |searched| < |u.order|
    requires Looked(u, m, eye, ch.next, ch.moved, ch.time)
    requires GuidedStep(u, m, target, feature, rtPos, rtCol, mt, searched, eye, ch.next)
    requires NextFeature(u, target, feature, rtCol, mt) == ch.feature
    requires Some(ch.next) == target ==> rest == Idle() && Distinct(searched + [ch.next])
    requires Some(ch.next) != target ==>
      GuidedRun(u, m, if ch.moved || force then ch.next else eye, searched + [ch.next], target,
                ch.feature, rtPos, rtCol, force, mt + ch.time, rest)
    ensures GuidedRun(u, m, eye, searched, target, feature, rtPos, rtCol, force, mt,
                      Step(ch.time, ch.next, eye, ch.moved, rest))
  {
    GuidedWalkCons(u, m, eye, searched, target, force, ch, rest);
    if Some(ch.next) == target {
      assert GuidedSteps(u, m, target, ch.feature, rtPos, rtCol, Clock(mt + ch.time, rest.times),
                         searched + [ch.next], rest.eyes, rest.chosen);
    }
    GuidedStepsAfter(u, m, eye, searched, target, feature, rtPos, rtCol, mt, ch, rest);
  }

  /** The walk part of `GuidedCons`. */
  lemma GuidedWalkCons(u: Ui, m: Maths, eye: Name, searched: seq<Name>, target: Option<Name>,
                       force: bool, ch: Choice, rest: Run)
    requires ch.next in u.elements && ch.next !in searched && |searched| < |u.order|
    requires Looked(u, m, eye, ch.next, ch.moved, ch.time)
    requires Some(ch.next) == target ==> rest == Idle() && Distinct(searched + [ch.next])
    requires Some(ch.next) != target ==>
      && Walked(u, m, if ch.moved || force then ch.next else eye, searched + [ch.next], force, rest)
      && EndedAt(u, searched + [ch.next], target, rest)
    ensures Walked(u, m, eye, searched, force, Step(ch.time, ch.next, eye, ch.moved, rest))
    ensures EndedAt(u, searched, target, Step(ch.time, ch.next, eye, ch.moved, rest))
  {
    if Some(ch.next) == target {
      IdleWalked(u, m, if ch.moved || force then ch.next else eye, searched + [ch.next], force);
    } else {
      EndedAtCons(u, searched, target, ch.next, eye, ch.moved, ch.time, rest);
    }
    WalkedCons(u, m, eye, searched, force, ch.next, ch.moved, ch.time, rest);
  }

  /** The steps part of `GuidedCons`. */
  lemma GuidedStepsAfter(u: Ui, m: Maths, eye: Name, searched: seq<Name>, target: Option<Name>,
                         feature: Option<Color>, rtPos: Option<real>, rtCol: Option<real>,
                         mt: real, ch: Choice, rest: Run)
    requires Indexed(u)
    requires GuidedStep(u, m, target, feature, rtPos, rtCol, mt, searched, eye, ch.next)
    requires NextFeature(u, target, feature, rtCol, mt) == ch.feature
    requires GuidedSteps(u, m, target, ch.feature, rtPos, rtCol, Clock(mt + ch.time, rest.times),
                         searched + [ch.next], rest.eyes, rest.chosen)
    ensures var run := Step(ch.time, ch.next, eye, ch.moved, rest);
      GuidedSteps(u, m, target, feature, rtPos, rtCol, Clock(mt, run.times), searched, run.eyes, run.chosen)
  {
    TimedStepsCons(u, m, target, feature, ch.feature, rtPos, rtCol, mt, searched, eye, ch.next, ch.time, rest.times, rest.eyes, rest.chosen);
  }

  /** A guided step in front of guided steps, with the clock of the run. */
  lemma TimedStepsCons(u: Ui, m: Maths, target: Option<Name>, feature: Option<Color>, after: Option<Color>,
                       rtPos: Option<real>, rtCol: Option<real>, mt: real, done: seq<Name>,
                       eye: Name, next: Name, time: real, times: seq<real>, eyes: seq<Name>, chosen: seq<Name>)
    requires Indexed(u)
    requires GuidedStep(u, m, target, feature, rtPos, rtCol, mt, done, eye, next)
    requires NextFeature(u, target, feature, rtCol, mt) == after
    requires GuidedSteps(u, m, target, after, rtPos, rtCol, Clock(mt + time, times), done + [next], eyes, chosen)
    ensures GuidedSteps(u, m, target, feature, rtPos, rtCol, Clock(mt, [time] + times), done, [eye] + eyes, [next] + chosen)
  {
    ClockCons(mt, time, times);
    GuidedStepsCons(u, m, target, feature, rtPos, rtCol, mt, Clock(mt + time, times), done, eye, next, eyes, chosen);
  }

  /** The clock of a run with a look in front. */
  lemma ClockCons(mt: real, time: real, times: seq<real>)
    ensures Clock(mt, [time] + times) == [mt] + Clock(mt + time, times)
  {
    assert ([time] + times)[1..] == times;
  }

  /** What one pass of the guided loop settles: the colour asked for from now
      on, the element chosen and its EMMA look. */
  datatype Choice = Choice(feature: Option<Color>, next: Name, time: real, moved: bool)

  /** One pass of the guided loop up to the look: bottom-up activation first
      (its errors come first), then colour recall, the ranking and the pick. */
  function GuidedChoice(u: Ui, m: Maths, eye: Name, searched: seq<Name>, target: Option<Name>,
                        feature: Option<Color>, rtPos: Option<real>, rtCol: Option<real>,
                        mt: real): (r: Result<Choice>)
    requires Indexed(u)
    ensures r.Ok? ==> r.value.next in u.elements && r.value.next !in searched
    ensures r.Ok? ==> Looked(u, m, eye, r.value.next, r.value.moved, r.value.time)
    ensures r.Ok? ==>
      && RecalledFeature(u, target, feature, rtCol, mt) == Ok(r.value.feature)
      && Candidates(u, m, eye, r.value.feature, searched).Ok?
      && GuidedPick(u, Candidates(u, m, eye, r.value.feature, searched).value, target, rtPos, mt) == Ok(r.value.next)
    ensures r.Ok? && rtPos.None? && rtCol.None? ==>
      && r.value.feature == feature
      && Candidates(u, m, eye, feature, searched).Ok?
      && StrongestPick(Candidates(u, m, eye, feature, searched).value, r.value.next)
    ensures && Timeable(u) && eye in u.elements && BottomUp(u, m, eye).Ok? && CanRecall(u, target, rtPos, rtCol)
            && (exists n :: n in u.elements && n !in searched)
            ==> r.Ok?
  {
    var bu := BottomUp(u, m, eye);
    if bu.Err? then Err(bu.error)
    else
      var feat :- RecalledFeature(u, target, feature, rtCol, mt);
      var cs := Candidates(u, m, eye, feat, searched);
      assert cs.Ok?;
      var c := cs.value;
      var next :- GuidedPick(u, c, target, rtPos, mt);
      RankedMember(u, searched, c, next);
      var fx :- EmmaTime(u, m, next, Some(eye));
      assert Looked(u, m, eye, next, fx.moved, fx.time);
      Ok(Choice(feat, next, fx.time, fx.moved))
  }

  /** `exhaustive_guided_visual_search`. The start defaults to the eye
      location; a start equal to the target costs one EMMA look at itself.
      Recall times come from long-term memory before the loop; with no
      elements the choice has nothing to pick from. */
  function ExhaustiveGuidedVisualSearch(u: Ui, m: Maths, start: Option<Name>, target: Option<Name>,
                                        feature: Option<Color>, force: bool): (r: Result<Outcome>)
    requires WellFormed(u)
    ensures var s := if start.Some? then start else u.eyeLoc;
      && (s == target && s.Some? ==>
            (r.Ok? <==> EmmaTime(u, m, s.value, s).Ok?) &&
            (r.Ok? ==> r.value.scanpath == [s.value] && r.value.searched == [s.value]
                       && r.value.time == EmmaTime(u, m, s.value, s).value.time))
      && (|u.order| == 0 ==> r.Err?)
      && (r.Ok? && s != target ==>
            && s.Some?
            && r.value.searched == [s.value] + r.value.run.chosen
            && |r.value.run.moves| == |r.value.run.chosen|
            && r.value.scanpath == Scanpath(s.value, r.value.run)
            && r.value.time == r.value.run.time
            && Walked(u, m, s.value, [s.value], force, r.value.run)
            && EndedAt(u, [s.value], target, r.value.run))
      && (r.Ok? && s != target ==>
            && RecallFor(m, u.ltmPos, target).Ok? && RecallFor(m, u.ltmColor, target).Ok?
            && GuidedSteps(u, m, target, feature, RecallFor(m, u.ltmPos, target).value,
                           RecallFor(m, u.ltmColor, target).value, Clock(0.0, r.value.run.times), [s.value],
                           r.value.run.eyes, r.value.run.chosen))
      && (r.Ok? && s != target ==>
            var starts := Clock(0.0, r.value.run.times);
            forall i :: 0 <= i < |r.value.run.chosen| && Recalls(RecallFor(m, u.ltmPos, target).value, starts[i]) ==>
              NearestRecalled(u, target, [s.value] + r.value.run.chosen[..i], r.value.run.chosen[i]))
      && (r.Ok? && s != target && (target.None? || (target.value !in u.ltmPos && target.value !in u.ltmColor)) ==>
            StrongestSteps(u, m, feature, [s.value], r.value.run.eyes, r.value.run.chosen))
      && (s.Some? && s.value in u.elements && s != target && Timeable(u) && Rankable(u, m) && Recallable(u, target) ==>
            r.Ok?)
  {
    var s := if start.Some? then start else u.eyeLoc;
    if s == target then
      if s.None? then Err(KeyError)
      else
        var fx :- EmmaTime(u, m, s.value, s);
        Ok(Outcome(fx.time, [s.value], [s.value], Idle()))
    else
      var rtPos :- RecallFor(m, u.ltmPos, target);
      var rtCol :- RecallFor(m, u.ltmColor, target);
      if |u.order| == 0 || s.None? then
        var _ :- RecalledFeature(u, target, feature, rtCol, 0.0);
        Err(ValueError)
      else
        var run :- GuidedLoop(u, m, s.value, [s.value], target, feature, rtPos, rtCol, force, 0.0);
        GuidedStepsStrongest(u, m, target, feature, rtPos, rtCol, Clock(0.0, run.times), [s.value], run.eyes, run.chosen);
        RecallPicksAll(u, m, target, feature, rtPos, rtCol, Clock(0.0, run.times), [s.value], run.eyes, run.chosen);
        Ok(Outcome(run.time, Scanpath(s.value, run), [s.value] + run.chosen, run))
  }

  /** A search from an element that did not stop at a target searched every
      element: the run can end early only by choosing the target. */
  lemma {:induction false} SearchCoversAll(u: Ui, m: Maths, s: Name, target: Option<Name>, force: bool, run: Run)
    requires Indexed(u) && s in u.elements
    requires Walked(u, m, s, [s], force, run) && EndedAt(u, [s], target, run)
    requires target.None? || target.value !in run.chosen
    ensures forall n :: n in u.elements ==> n in [s] + run.chosen
  {
    var all := [s] + run.chosen;
    if |run.chosen| > 0 {
      assert run.chosen[|run.chosen| - 1] in run.chosen;
    }
    assert |all| == |u.order|;
    OrderSize(u);
    assert forall n :: n in all ==> n in u.elements.Keys;
    DistinctCovers(all, u.elements.Keys);
  }

  /** Searching for an element finds it: it is among the searched elements,
      and it is the last one unless it was the start. */
  lemma {:induction false} SearchFindsTarget(u: Ui, m: Maths, s: Name, target: Name, force: bool, run: Run)
    requires Indexed(u) && s in u.elements && target in u.elements
    requires Walked(u, m, s, [s], force, run) && EndedAt(u, [s], Some(target), run)
    ensures target in [s] + run.chosen
    ensures target != s ==> |run.chosen| > 0 && run.chosen[|run.chosen| - 1] == target
  {
    var all := [s] + run.chosen;
    if !(|run.chosen| > 0 && run.chosen[|run.chosen| - 1] == target) {
      OrderSize(u);
      DistinctCovers(all, u.elements.Keys);
      assert target in all;
      assert forall i :: 0 <= i < |run.chosen| ==> run.chosen[i] != target;
      assert target !in run.chosen;
    }
  }
}

=== FILE: timing.dfy ===
/** The gaze-timing model of `ui.py`: pixel and angular distances, Fitts'
    law (MacKenzie 1992) and the EMMA eye-movement model (Salvucci 2001). */
module Timing {
  import opened Wrappers
  import opened Numerics
  import opened Seqs
  import opened Layout

  /** Default Fitts' law constants of the surface, in seconds. */
  const FittsA: real := 0.230
  const FittsB: real := 0.166

  /** EMMA constants. */
  const EmmaKK: real := 0.006
  const EmmaK: real := 0.4
  const EmmaPrep: real := 0.135
  const EmmaExec: real := 0.07
  const EmmaSaccade: real := 0.002

  /** What EMMA reports: the time charged and whether the eye moved. */
  datatype Fixation = Fixation(time: real, moved: bool)

  /** `element_distance`: Euclidean distance between two centres. */
  function Distance(u: Ui, m: Maths, a: Name, b: Name): real
    requires a in u.elements && b in u.elements
  {
    m.sqrt(Dist2(Loc(u.elements[a]), Loc(u.elements[b])) as real)
  }

  /** `angular_size`: the visual angle, in degrees, of a pixel extent. */
  function AngularSize(u: Ui, m: Maths, size: real): real
    requires u.userDistance != 0
  {
    180.0 * (m.atan(size / u.userDistance as real) / Pi)
  }

  /** `visual_distance` once both names are known and the viewing distance is
      non-zero: the angle between two centres. */
  function Eccentricity(u: Ui, m: Maths, a: Name, b: Name): real
    requires a in u.elements && b in u.elements && u.userDistance != 0
  {
    AngularSize(u, m, Distance(u, m, a, b))
  }

  /** `visual_distance`, with its failures. */
  function VisualDistance(u: Ui, m: Maths, a: Name, b: Name): (r: Result<real>)
    ensures r.Err? <==> a !in u.elements || b !in u.elements || u.userDistance == 0
    ensures a !in u.elements || b !in u.elements ==> r == Err(KeyError)
    ensures r.Ok? ==> r.value == Eccentricity(u, m, a, b)
    ensures Sane(m) && r.Ok? && u.userDistance > 0 ==> r.value >= 0.0
  {
    if a !in u.elements || b !in u.elements then Err(KeyError)
    else if u.userDistance == 0 then Err(ZeroDivisionError)
    else
      assert Sane(m) && u.userDistance > 0 ==> Distance(u, m, a, b) >= 0.0;
      Ok(Eccentricity(u, m, a, b))
  }

  /** The angle between two elements does not depend on which one is looked from. */
  lemma VisualDistanceSymmetric(u: Ui, m: Maths, a: Name, b: Name)
    ensures VisualDistance(u, m, a, b) == VisualDistance(u, m, b, a)
  {
    if a in u.elements && b in u.elements {
      var p := Loc(u.elements[a]);
      var q := Loc(u.elements[b]);
      assert Dist2(p, q) == Dist2(q, p);
    }
  }

  /** EMMA's encoding time E = K·(−ln f)·exp(k·d). */
  function EncodingTime(m: Maths, d: real, freq: real): real {
    EmmaKK * -m.ln(freq) * m.exp(EmmaK * d)
  }

  /** EMMA's saccade time S = prep + exec + 0.002·d. */
  function SaccadeTime(d: real): real {
    EmmaPrep + EmmaExec + EmmaSaccade * d
  }

  /** `EMMA_fixation_time`. `math.log` of a non-positive frequency raises ValueError. */
  function EmmaFixationTime(m: Maths, d: real, freq: real): (r: Result<Fixation>)
    ensures r.Ok? <==> freq > 0.0
    ensures r.Ok? ==> (r.value.moved <==> EncodingTime(m, d, freq) >= EmmaPrep)
    ensures r.Ok? && !r.value.moved ==> r.value.time == EncodingTime(m, d, freq)
    ensures r.Ok? && r.value.moved && EncodingTime(m, d, freq) <= SaccadeTime(d) ==>
              r.value.time == SaccadeTime(d)
    ensures Sane(m) && r.Ok? && r.value.moved ==> r.value.time >= SaccadeTime(d)
    ensures Sane(m) && r.Ok? && EncodingTime(m, d, freq) > SaccadeTime(d) ==>
              r.value.time > SaccadeTime(d)
  {
    if freq <= 0.0 then Err(ValueError)
    else
      var e := EncodingTime(m, d, freq);
      if e < EmmaPrep then Ok(Fixation(e, false))
      else
        var s := SaccadeTime(d);
        if e <= s then Ok(Fixation(s, true))
        else
          var eNew := EmmaK * -m.ln(freq);
          assert Sane(m) ==> eNew > 0.0 by {
            if Sane(m) {
              PositiveFactor(-m.ln(freq), m.exp(EmmaK * d));
            }
          }
          assert 1.0 - s / e > 0.0 by {
            QuotientBelowOne(s, e);
          }
          Ok(Fixation(s + (1.0 - s / e) * eNew, true))
  }

  lemma PositiveFactor(a: real, b: real)
    requires b > 0.0 && EmmaKK * a * b >= EmmaPrep
    ensures a > 0.0
  {
  }

  lemma QuotientBelowOne(s: real, e: real)
    requires e > 0.0 && s < e
    ensures s / e < 1.0
  {
    assert s / e * e == s;
  }

  /** `emma_time`: EMMA applied to the angle from the eye (the surface's eye
      location when none is given) to the target, with the target's frequency. */
  function EmmaTime(u: Ui, m: Maths, target: Name, eye: Option<Name>): (r: Result<Fixation>)
    ensures var from := if eye.Some? then eye else u.eyeLoc;
      && (r.Ok? <==> from.Some? && from.value in u.elements && target in u.elements
                     && u.userDistance != 0 && u.elements[target].frequency > 0.0)
      && (r.Ok? ==> r == EmmaFixationTime(m, Eccentricity(u, m, from.value, target),
                                          u.elements[target].frequency))
  {
    var from := if eye.Some? then eye else u.eyeLoc;
    if from.None? then Err(KeyError)
    else
      var d :- VisualDistance(u, m, from.value, target);
      EmmaFixationTime(m, d, u.elements[target].frequency)
  }

  /** `fitts_mt`: `a` at distance 0, else a + b·log2(distance/width + 1). */
  function FittsMt(m: Maths, distance: real, width: real, a: real, b: real): (r: Result<real>)
    ensures distance == 0.0 ==> r == Ok(a)
    ensures r.Err? <==> distance != 0.0 && (width == 0.0 || distance / width + 1.0 <= 0.0)
    ensures Sane(m) && b >= 0.0 && distance > 0.0 && width > 0.0 ==> r.Ok? && r.value >= a
  {
    if distance == 0.0 then Ok(a)
    else if width == 0.0 then Err(ZeroDivisionError)
    else if distance / width + 1.0 <= 0.0 then Err(ValueError)
    else
      assert distance > 0.0 && width > 0.0 ==> distance / width + 1.0 >= 1.0;
      Ok(a + b * m.log2(distance / width + 1.0))
  }

  /** The smaller side of an element, the target width Fitts' law uses. */
  function Width(e: Element): int {
    Min(e.xSize, e.ySize)
  }

  /** One leg of `fitts_movement_time`, from `a` to `b`. */
  function FittsLeg(u: Ui, m: Maths, a: Name, b: Name): Result<real> {
    if a !in u.elements || b !in u.elements then Err(KeyError)
    else FittsMt(m, Distance(u, m, a, b), Width(u.elements[b]) as real, FittsA, FittsB)
  }

  /** Every leg of the path can be timed: all names are elements and every
      element pointed at after the first has a positive width. */
  ghost predicate PointablePath(u: Ui, path: seq<Name>) {
    && (forall i :: 0 <= i < |path| ==> path[i] in u.elements)
    && (forall i :: 1 <= i < |path| ==> Width(u.elements[path[i]]) > 0)
  }

  /** Every consecutive pair of the path can be timed. */
  ghost predicate LegsOk(u: Ui, m: Maths, path: seq<Name>) {
    forall i :: 0 <= i < |path| - 1 ==> FittsLeg(u, m, path[i], path[i + 1]).Ok?
  }

  /** The time of one leg, nothing when it cannot be timed. */
  ghost function LegTime(u: Ui, m: Maths, a: Name, b: Name): real {
    var t := FittsLeg(u, m, a, b);
    if t.Ok? then t.value else 0.0
  }

  /** The Fitts' law times of the consecutive pairs of the path, added up in
      path order, last leg last. */
  ghost function LegSum(u: Ui, m: Maths, path: seq<Name>): real
    decreases |path|
  {
    if |path| <= 1 then 0.0
    else LegSum(u, m, path[..|path| - 1]) + LegTime(u, m, path[|path| - 2], path[|path| - 1])
  }

  /** Splitting the first leg off the sum. */
  lemma {:induction false} LegSumFront(u: Ui, m: Maths, path: seq<Name>)
    requires |path| >= 2
    ensures LegSum(u, m, path) == LegTime(u, m, path[0], path[1]) + LegSum(u, m, path[1..])
    decreases |path|
  {
    var n := |path|;
    if n > 2 {
      var init := path[..n - 1];
      LegSumFront(u, m, init);
      assert init[1..] == path[1..][..n - 2];
      assert path[1..][n - 3] == path[n - 2] && path[1..][n - 2] == path[n - 1];
    }
  }

  /** The path's legs can all be timed exactly when its first leg and the
      legs of the rest can. */
  lemma LegsOkFront(u: Ui, m: Maths, path: seq<Name>)
    requires |path| >= 2
    ensures LegsOk(u, m, path) <==> FittsLeg(u, m, path[0], path[1]).Ok? && LegsOk(u, m, path[1..])
  {
    forall i | 0 <= i < |path| - 2
      ensures FittsLeg(u, m, path[1..][i], path[1..][i + 1]) == FittsLeg(u, m, path[i + 1], path[i + 2]) { }
    if FittsLeg(u, m, path[0], path[1]).Ok? && LegsOk(u, m, path[1..]) {
      forall i | 1 <= i < |path| - 1 ensures FittsLeg(u, m, path[i], path[i + 1]).Ok? {
        assert path[1..][i - 1] == path[i];
      }
    }
  }

  lemma PointableTail(u: Ui, path: seq<Name>)
    requires |path| >= 1
    ensures PointablePath(u, path) ==> PointablePath(u, path[1..])
  {
    if PointablePath(u, path) {
      forall i | 0 <= i < |path[1..]| ensures path[1..][i] in u.elements {
        assert path[1..][i] == path[i + 1];
      }
      forall i | 1 <= i < |path[1..]| ensures Width(u.elements[path[1..][i]]) > 0 {
        assert path[1..][i] == path[i + 1];
      }
    }
  }

  /** On a pointable path every leg, in particular the first, takes at least
      Fitts' intercept. */
  lemma FirstLegAtLeast(u: Ui, m: Maths, path: seq<Name>)
    requires |path| >= 2
    ensures Sane(m) && PointablePath(u, path) ==>
      FittsLeg(u, m, path[0], path[1]).Ok? && FittsLeg(u, m, path[0], path[1]).value >= FittsA
  {
    if Sane(m) && PointablePath(u, path) {
      var d2 := Dist2(Loc(u.elements[path[0]]), Loc(u.elements[path[1]]));
      assert d2 == 0 || d2 as real > 0.0;
    }
  }

  /** The facts about the rest of a path carry over to the path with its
      first leg added. */
  lemma FittsFront(u: Ui, m: Maths, path: seq<Name>, tail: Result<real>)
    requires |path| >= 2
    requires tail.Ok? <==> LegsOk(u, m, path[1..])
    requires tail.Ok? ==> tail.value == LegSum(u, m, path[1..])
    requires Sane(m) && PointablePath(u, path[1..]) ==> tail.Ok? && tail.value >= FittsA * (|path| - 2) as real
    ensures var first := FittsLeg(u, m, path[0], path[1]);
      && (first.Ok? && tail.Ok? <==> LegsOk(u, m, path))
      && (first.Ok? && tail.Ok? ==> first.value + tail.value == LegSum(u, m, path))
      && (Sane(m) && PointablePath(u, path) ==>
            first.Ok? && tail.Ok? && first.value + tail.value >= FittsA * (|path| - 1) as real)
  {
    LegsOkFront(u, m, path);
    LegSumFront(u, m, path);
    PointableTail(u, path);
    FirstLegAtLeast(u, m, path);
  }

  /** `fitts_movement_time`: the sum of Fitts' law times over consecutive pairs. */
  function FittsMovementTime(u: Ui, m: Maths, path: seq<Name>): (r: Result<real>)
    ensures |path| <= 1 ==> r == Ok(0.0)
    ensures r.Ok? <==> LegsOk(u, m, path)
    ensures r.Ok? ==> r.value == LegSum(u, m, path)
    ensures Sane(m) && PointablePath(u, path) ==> r.Ok? && r.value >= FittsA * (|path| - 1) as real
    decreases |path|
  {
    if |path| <= 1 then Ok(0.0)
    else
      var first := FittsLeg(u, m, path[0], path[1]);
      var tail := FittsMovementTime(u, m, path[1..]);
      FittsFront(u, m, path, tail);
      if first.Err? then Err(first.error)
      else if tail.Err? then Err(tail.error)
      else Ok(first.value + tail.value)
  }

  /** Result of `create_emma_scanpath`: total time and fixations made, plus
      the trace behind them: for each element after the first, the fixation
      it was looked at from and whether EMMA moved the eye to it. */
  datatype Scan = Scan(time: real, fixations: seq<Name>, eyes: seq<Name>, moves: seq<bool>)

  /** The eye trace of a walk: it starts at `first`, and step `i` moves it to
      `targets[i]` exactly when `moves[i]` holds. */
  ghost predicate EyeTrace(first: Name, targets: seq<Name>, eyes: seq<Name>, moves: seq<bool>, force: bool) {
    && |eyes| == |targets| == |moves|
    && (|eyes| > 0 ==> eyes[0] == first)
    && (forall i :: 0 <= i < |eyes| - 1 ==>
          eyes[i + 1] == if moves[i] || force then targets[i] else eyes[i])
  }

  /** EMMA, looking at `target` from `eye`, succeeds, charges `time` and
      reports `moved`. */
  ghost predicate Looked(u: Ui, m: Maths, eye: Name, target: Name, moved: bool, time: real) {
    EmmaTime(u, m, target, Some(eye)) == Ok(Fixation(time, moved))
  }

  /** The time EMMA charges for looking at `target` from `eye`; nothing when
      the look fails. */
  ghost function LookTime(u: Ui, m: Maths, eye: Name, target: Name): real {
    var f := EmmaTime(u, m, target, Some(eye));
    if f.Ok? then f.value.time else 0.0
  }

  /** Every target was looked at from the fixation recorded for it, with the
      recorded outcome. */
  ghost predicate AllLooked(u: Ui, m: Maths, eyes: seq<Name>, targets: seq<Name>, moves: seq<bool>)
    requires |eyes| == |targets| == |moves|
    decreases |targets|
  {
    |targets| == 0 ||
    (Looked(u, m, eyes[0], targets[0], moves[0], LookTime(u, m, eyes[0], targets[0]))
     && AllLooked(u, m, eyes[1..], targets[1..], moves[1..]))
  }

  /** The total EMMA time of the looks recorded by a trace. */
  ghost function LookTimes(u: Ui, m: Maths, eyes: seq<Name>, targets: seq<Name>): real
    requires |eyes| == |targets|
    decreases |targets|
  {
    if |targets| == 0 then 0.0
    else LookTime(u, m, eyes[0], targets[0]) + LookTimes(u, m, eyes[1..], targets[1..])
  }

  /** A look in front of looks already made: it joins the trace and adds its
      time to the total. */
  lemma AllLookedCons(u: Ui, m: Maths, eye: Name, target: Name, moved: bool, time: real,
                      eyes: seq<Name>, targets: seq<Name>, moves: seq<bool>)
    requires |eyes| == |targets| == |moves|
    requires Looked(u, m, eye, target, moved, time) && AllLooked(u, m, eyes, targets, moves)
    ensures AllLooked(u, m, [eye] + eyes, [target] + targets, [moved] + moves)
    ensures LookTimes(u, m, [eye] + eyes, [target] + targets) == time + LookTimes(u, m, eyes, targets)
  {
    assert ([eye] + eyes)[1..] == eyes;
    assert ([target] + targets)[1..] == targets;
    assert ([moved] + moves)[1..] == moves;
  }

  /** Putting a step in front of an eye trace. */
  lemma EyeTraceCons(eye: Name, next: Name, moved: bool, force: bool,
                     targets: seq<Name>, eyes: seq<Name>, moves: seq<bool>)
    requires EyeTrace(if moved || force then next else eye, targets, eyes, moves, force)
    ensures EyeTrace(eye, [next] + targets, [eye] + eyes, [moved] + moves, force)
  {
    var ts, es, ms := [next] + targets, [eye] + eyes, [moved] + moves;
    forall i | 0 <= i < |es| - 1
      ensures es[i + 1] == if ms[i] || force then ts[i] else es[i]
    {
      AppendAt([eye], eyes, i + 1);
      if i > 0 {
        AppendAt([eye], eyes, i);
        AppendAt([next], targets, i);
        AppendAt([moved], moves, i);
      }
    }
  }

  /** The loop of `create_emma_scanpath` from the current fixation `eye` over
      the elements still to visit. */
  function EmmaWalk(u: Ui, m: Maths, eye: Name, rest: seq<Name>): (r: Result<Scan>)
    ensures r.Ok? ==>
      && |r.value.moves| == |rest|
      && r.value.fixations == Select(rest, r.value.moves)
      && EyeTrace(eye, rest, r.value.eyes, r.value.moves, false)
      && AllLooked(u, m, r.value.eyes, rest, r.value.moves)
      && r.value.time == LookTimes(u, m, r.value.eyes, rest)
    decreases |rest|
  {
    if |rest| == 0 then Ok(Scan(0.0, [], [], []))
    else
      var fx :- EmmaTime(u, m, rest[0], Some(eye));
      var next := if fx.moved then rest[0] else eye;
      var tail :- EmmaWalk(u, m, next, rest[1..]);
      var scan := Scan(fx.time + tail.time,
                       (if fx.moved then [rest[0]] else []) + tail.fixations,
                       [eye] + tail.eyes,
                       [fx.moved] + tail.moves);
      assert rest == [rest[0]] + rest[1..];
      EyeTraceCons(eye, rest[0], fx.moved, false, rest[1..], tail.eyes, tail.moves);
      AllLookedCons(u, m, eye, rest[0], fx.moved, fx.time, tail.eyes, rest[1..], tail.moves);
      Ok(scan)
  }

  /** `create_emma_scanpath`: walk the given elements in order, looking from
      the latest fixation each time, and keep those EMMA moved the eye to. */
  function CreateEmmaScanpath(u: Ui, m: Maths, path: seq<Name>): (r: Result<Scan>)
    ensures |path| == 0 ==> r == Err(IndexError)
    ensures r.Ok? ==>
      && |r.value.moves| == |path| - 1
      && r.value.fixations == [path[0]] + Select(path[1..], r.value.moves)
      && EyeTrace(path[0], path[1..], r.value.eyes, r.value.moves, false)
      && AllLooked(u, m, r.value.eyes, path[1..], r.value.moves)
      && r.value.time == LookTimes(u, m, r.value.eyes, path[1..])
  {
    if |path| == 0 then Err(IndexError)
    else
      var walk :- EmmaWalk(u, m, path[0], path[1..]);
      Ok(walk.(fixations := [path[0]] + walk.fixations))
  }
}

=== FILE: wrappers.dfy ===
/** Failure-compatible result types shared by every module of the model.
    Each Python exception class the core can raise becomes one `Error` value. */
module Wrappers {

  datatype Option<+T> = None | Some(value: T)

  /** The Python exception classes the modelled code can raise. */
  datatype Error =
    | KeyError           // a missing dictionary key (element name, Q-table state or action)
    | ValueError         // max() of an empty sequence, randint() of an empty range, log of a non-positive number
    | ZeroDivisionError  // a float division by zero
    | TypeError          // arithmetic on a string expertise label
    | NameError          // reading an undefined global
    | IndexError         // indexing or choosing from an empty list

  datatype Result<+T> = Ok(value: T) | Err(error: Error) {

    predicate IsFailure() {
      Err?
    }

    function PropagateFailure<U>(): Result<U>
      requires Err?
    {
      Err(error)
    }

    function Extract(): T
      requires Ok?
    {
      value
    }
  }
}
